=== FILE: README.md ===
# Nusaiba platform core in Dafny

This project models the data core of the Nusaiba short-video platform:

- the `DatabaseService` that keeps users, credentials, videos, media items,
  chats, messages and live streams in browser local storage;
- the three client stores built on it: authentication, the video feed and
  messaging;
- the pure helpers of the upload dialog, the following page, the
  communities page, the video card and the profile page.

Each store or service call is a pure function. A database call takes a
`DbState` (one sequence per storage key, plus the current-user id) and
returns a `Step` that pairs the new state with the call's result. An error
the service throws becomes a `Failure` carrying the same message. Generated
ids, the clock and the password digest are parameters.

Modules, one per source file or concern:

- `Wrappers`: `Option` and `Result`.
- `Seqs`, `Text`: the array and string operations the source uses: find,
  filter, sort by comparator, split, join, ASCII lower-case, integer
  rendering and parsing.
- `Storage`: the keyed store behind `getData`/`setData`, including a
  dropped write.
- `Entities`: records and the object-spread merge used by updates.
- `PasswordHash`: the 32-bit rolling fallback digest.
- `Database`: the service itself. `DatabaseLaws` holds its invariants and
  round trips.
- `StoredDates`: how dates survive a JSON round trip through storage.
- `AuthStore`, `VideoStore`, `MessagingStore`: the three client stores.
- `Upload`, `Following`, `Communities`, `VideoCard`, `Profile`: the page
  helpers.

## Model

Source paths are relative to the repository root.

| member | source | states |
|---|---|---|
| `Seqs.FindIndex` | nusaiba-2021-main/src/lib/database.ts:155 | `findIndex`: the first position whose element satisfies the test, none exactly when no element does |
| `Seqs.Find` | nusaiba-2021-main/src/lib/database.ts:145 | `find`: an element that satisfies the test with none before it, none exactly when no element does |
| `Seqs.SortBy` | nusaiba-2021-main/src/lib/database.ts:278 | sorting by an integer key gives a sorted permutation of the input |
| `Seqs.MaxWith` | nusaiba-2021-main/src/components/Profile/EnhancedUserProfile.tsx:82 | `Math.max(...xs, floor)`: at least the floor and every element, and equal to the floor or to some element |
| `Text.ToLower` | nusaiba-2021-main/src/lib/database.ts:419 | `toLowerCase` keeps the length and lower-cases each character |
| `Text.ToLowerIdempotent` | nusaiba-2021-main/src/lib/database.ts:419-424 | lower-casing twice equals lower-casing once, and leaves no upper-case letter |
| `Text.Includes` | nusaiba-2021-main/src/lib/database.ts:422-424 | `includes` holds exactly when the query occurs at some position |
| `Text.IncludesEmpty` | nusaiba-2021-main/src/lib/database.ts:422-424 | every string includes the empty query |
| `Text.SplitOn` | nusaiba-2021-main/src/components/Upload/EnhancedVideoUpload.tsx:128 | `split(sep)`: never empty, no piece contains the separator, one more piece than separators |
| `Text.JoinSplit` | nusaiba-2021-main/src/components/Upload/EnhancedVideoUpload.tsx:128 | joining the pieces of a split with the separator gives the text back |
| `Text.SplitJoin` | nusaiba-2021-main/src/components/Upload/EnhancedVideoUpload.tsx:128 | splitting a join of separator-free pieces gives the pieces back |
| `Text.SplitConcat` | nusaiba-2021-main/src/components/Upload/EnhancedVideoUpload.tsx:128 | splitting at a separator between two texts concatenates the two splits |
| `Text.IntToString` | nusaiba-2021-main/src/lib/database.ts:70 | `String(n)` is a decimal numeral, with a '-' before the magnitude of a negative number |
| `Text.ParseIntToString` | nusaiba-2021-main/src/lib/database.ts:70 | reading a rendered integer back gives the integer |
| `Text.PadStart` | nusaiba-2021-main/src/components/Video/VideoCard.tsx:50 | `padStart(width, c)`: the text ends the result, which is padded with `c` at the front up to the width and never shortened |
| `Storage.GetData` | nusaiba-2021-main/src/lib/database.ts:40-47 | a missing or unreadable key reads as the empty list; a stored list reads back as stored |
| `Storage.SetData` | nusaiba-2021-main/src/lib/database.ts:49-55 | a stored write replaces only its key; a write the quota rejects leaves the whole store unchanged |
| `Storage.ReadAfterWrite` | nusaiba-2021-main/src/lib/database.ts:40-55 | reading a key right after a successful write returns the written list |
| `Storage.WriteIsolated` | nusaiba-2021-main/src/lib/database.ts:40-55 | a write to one key never changes what another key reads |
| `Storage.DroppedWriteInvisible` | nusaiba-2021-main/src/lib/database.ts:49-55 | a write lost to the quota is invisible to later reads |
| `PasswordHash.ToInt32` | nusaiba-2021-main/src/lib/database.ts:68 | the bitwise-or with zero keeps a value in the signed 32-bit range that is congruent to its input modulo 2^32 |
| `PasswordHash.ToInt32InRange` | nusaiba-2021-main/src/lib/database.ts:68 | a value already in the signed 32-bit range is unchanged by the wrap |
| `PasswordHash.Utf16` | nusaiba-2021-main/src/lib/database.ts:66-67 | the string's UTF-16 code units, one or two per character, each below 65536 |
| `PasswordHash.FallbackHashValue` | nusaiba-2021-main/src/lib/database.ts:65-70 | the loop computes the fold of `hash*31 + code` wrapped to 32 bits at each step, over every code unit of the password |
| `PasswordHash.FallbackHash` | nusaiba-2021-main/src/lib/database.ts:65-70 | the digest string is a decimal numeral that reads back as the 32-bit hash |
| `PasswordHash.HashIsWrappedPolynomial` | nusaiba-2021-main/src/lib/database.ts:65-69 | wrapping at each step gives the same value as computing the base-31 polynomial of the code units exactly and wrapping once |
| `PasswordHash.FallbackHashNonEmpty` | nusaiba-2021-main/src/lib/database.ts:70 | the digest string is never empty, so it never equals the empty hash stored for social accounts |
| `PasswordHash.FallbackHashOfAb` | nusaiba-2021-main/src/lib/database.ts:65-70 | worked value: the digest of "ab" is "3105" |
| `Entities.MergeUser` | nusaiba-2021-main/src/lib/database.ts:161-165 | spreading a patch over a user takes every supplied field from the patch and keeps the current value of every omitted one, field by field for all patchable fields, and stamps `updatedAt` |
| `Entities.MergeUserIdempotent` | nusaiba-2021-main/src/lib/database.ts:161-165 | applying the same patch at the same time twice equals applying it once |
| `Entities.MergeUserEmpty` | nusaiba-2021-main/src/lib/database.ts:161-165 | an empty patch changes only `updatedAt` |
| `Entities.MergeVideo` | nusaiba-2021-main/src/lib/database.ts:289-293 | spreading a patch over a video takes every supplied field from the patch and keeps every omitted one, field by field, and stamps `updatedAt` |
| `Entities.MergeVideoIdempotent` | nusaiba-2021-main/src/lib/database.ts:289-293 | a video patch applied twice at the same time equals applying it once |
| `Database.OrElse` | nusaiba-2021-main/src/lib/database.ts:110-116 | JavaScript's logical-or fallback on an optional string: the value if present and non-empty, otherwise the fallback |
| `Database.SetCurrentUserId` | nusaiba-2021-main/src/lib/database.ts:82-88 | records the current-user id and changes nothing else |
| `Database.ClearCurrentUserId` | nusaiba-2021-main/src/lib/database.ts:90-96 | removes the current-user id and changes nothing else |
| `Database.CreateUser` | nusaiba-2021-main/src/lib/database.ts:99-141 | fails with "User already exists" exactly when the email is taken, leaving the state unchanged; otherwise appends a user with the given id, each supplied field or its `||` default (empty username, name, email and bio, the default picture, gender other), zero counters, no stats or links, both dates now, and appends its credential |
| `Database.GetUserByEmail` | nusaiba-2021-main/src/lib/database.ts:143-146 | returns the first user with the email, and none exactly when no user has it |
| `Database.GetUserById` | nusaiba-2021-main/src/lib/database.ts:148-151 | returns the first user with the id, and none exactly when no user has it |
| `Database.UpdateUser` | nusaiba-2021-main/src/lib/database.ts:153-169 | fails with "User not found" exactly when no user has the id; otherwise replaces the first such user, at its index, by the merged record |
| `Database.CredentialFor` | nusaiba-2021-main/src/lib/database.ts:176-177 | the user's first credential, and none exactly when the user has no credential |
| `Database.AuthenticateUser` | nusaiba-2021-main/src/lib/database.ts:171-181 | a returned user has the email and a credential whose hash equals the password's digest; an unknown email yields none |
| `Database.SocialSignInOrRegister` | nusaiba-2021-main/src/lib/database.ts:183-214 | always succeeds; a known email returns the existing user and adds a credential only if the user had none; an unknown email appends a user and a credential with empty hash |
| `Database.CreateVideo` | nusaiba-2021-main/src/lib/database.ts:217-257 | fails with "User not found" exactly when the owner is unknown; otherwise appends a video with the given id and every input field, zero counters and both dates now, embedding the first user with the owner id |
| `Database.SliceEnd` | nusaiba-2021-main/src/lib/database.ts:274-276 | the end index `Array.slice(0, limit)` uses, including a negative limit counted from the end |
| `Database.MatchesFilters` | nusaiba-2021-main/src/lib/database.ts:266-272 | (definition) a truthy `userId` filter and a given `isShort` filter must both match; an empty `userId` is ignored |
| `Database.FilteredVideos` | nusaiba-2021-main/src/lib/database.ts:264-272 | the two successive `filter` calls keep exactly the stored videos that satisfy both filters, in storage order |
| `Database.VideoCandidates` | nusaiba-2021-main/src/lib/database.ts:264-276 | the videos matching the user and short filters in storage order, cut to the first `SliceEnd` of them when a non-zero limit is given, before any sorting |
| `Database.GetVideos` | nusaiba-2021-main/src/lib/database.ts:259-279 | the limited candidates, which are the first matches in storage order, as a permutation sorted newest first, no more than a positive limit |
| `Database.UpdateVideo` | nusaiba-2021-main/src/lib/database.ts:281-297 | fails with "Video not found" exactly when no video has the id; otherwise replaces the first one by the merged record |
| `Database.SaveMediaItems` | nusaiba-2021-main/src/lib/database.ts:300-309 | appends one item per input, in order; each keeps a given id and date, and takes the generated id at its position or now when they are missing |
| `Database.CreateMessage` | nusaiba-2021-main/src/lib/database.ts:312-334 | appends an unread message stamped now with the given chat, sender, content and kind |
| `Database.GetChatMessages` | nusaiba-2021-main/src/lib/database.ts:336-341 | exactly the chat's messages, with multiplicity, oldest first |
| `Database.MarkMessagesAsRead` | nusaiba-2021-main/src/lib/database.ts:343-356 | flips to read exactly the chat's messages not sent by the reader, position by position; with nothing to flip the state is unchanged |
| `Database.CreateChat` | nusaiba-2021-main/src/lib/database.ts:359-373 | appends a chat with the participants, no last message and both dates now |
| `Database.GetUserChats` | nusaiba-2021-main/src/lib/database.ts:375-378 | exactly the stored chats the user takes part in |
| `Database.CreateLiveStream` | nusaiba-2021-main/src/lib/database.ts:381-409 | fails with "User not found" exactly when the owner is unknown; otherwise appends an active stream with the input title, description and stream url, no viewers, started now, embedding the first user with the owner id |
| `Database.GetActiveLiveStreams` | nusaiba-2021-main/src/lib/database.ts:411-414 | exactly the active streams |
| `Database.SearchUsers` | nusaiba-2021-main/src/lib/database.ts:417-426 | exactly the users whose name, username or email contains the lower-cased query |
| `Database.SearchVideos` | nusaiba-2021-main/src/lib/database.ts:428-437 | exactly the videos whose title, description or some hashtag contains the lower-cased query |
| `Database.UserMatches` | nusaiba-2021-main/src/lib/database.ts:419-424 | (definition) name, username or email, lower-cased, includes the lower-cased query |
| `Database.VideoMatches` | nusaiba-2021-main/src/lib/database.ts:430-435 | (definition) title, description or some hashtag, lower-cased, includes the lower-cased query |
| `DatabaseLaws.CreateUserKeepsUniqueness` | nusaiba-2021-main/src/lib/database.ts:99-141 | registering with an email keeps emails unique and keeps one credential per user |
| `DatabaseLaws.RegisterThenAuthenticate` | nusaiba-2021-main/src/lib/database.ts:99-181 | after a successful registration, logging in with the same email and password returns the new user |
| `DatabaseLaws.SocialCredentialNeverMatches` | nusaiba-2021-main/src/lib/database.ts:183-214 | with the fallback digest, a password login never opens an account created by social sign-in |
| `DatabaseLaws.SocialSignInIdempotent` | nusaiba-2021-main/src/lib/database.ts:183-214 | signing in twice with the same profile gives the same state and user as once |
| `DatabaseLaws.SocialSignInKeepsOneCredential` | nusaiba-2021-main/src/lib/database.ts:183-214 | social sign-in keeps at most one credential per user |
| `DatabaseLaws.SocialSignInKeepsUniqueEmails` | nusaiba-2021-main/src/lib/database.ts:183-214 | social sign-in keeps emails unique: it registers only an email not on file |
| `DatabaseLaws.AuthenticateExactly` | nusaiba-2021-main/src/lib/database.ts:171-181 | under unique emails and one credential per user, login succeeds if and only if some user with the email has a credential with the password's digest |
| `DatabaseLaws.AuthenticateFindsMatch` | nusaiba-2021-main/src/lib/database.ts:171-181 | a matching user and credential are the user returned |
| `DatabaseLaws.CreateVideoKeepsOwners` | nusaiba-2021-main/src/lib/database.ts:217-257 | every video and stream keeps pointing at a user on file after a video is created |
| `DatabaseLaws.CreateLiveStreamKeepsOwners` | nusaiba-2021-main/src/lib/database.ts:381-409 | the same owner invariant holds after a stream is created |
| `DatabaseLaws.CreatedStreamIsActive` | nusaiba-2021-main/src/lib/database.ts:381-414 | a created stream is listed among the active streams |
| `DatabaseLaws.CreatedMessageIsListed` | nusaiba-2021-main/src/lib/database.ts:312-341 | a created message is listed by its chat |
| `DatabaseLaws.CreatedChatIsListed` | nusaiba-2021-main/src/lib/database.ts:359-378 | a created chat is listed for each participant |
| `DatabaseLaws.MarkMessagesAsReadIdempotent` | nusaiba-2021-main/src/lib/database.ts:343-356 | marking a chat read twice equals marking it once |
| `DatabaseLaws.MarkReadSparesOwnMessages` | nusaiba-2021-main/src/lib/database.ts:347-349 | a message the reader sent is never changed |
| `DatabaseLaws.ChatLastMessageNeverStored` | nusaiba-2021-main/src/lib/database.ts:312-378 | creating a chat and sending into it leaves every stored chat without a last message, so the sender's chat list shows none |
| `DatabaseLaws.UpdateUserIdempotent` | nusaiba-2021-main/src/lib/database.ts:153-169 | updating a user twice with the same patch and time equals updating once, when the patch keeps the id |
| `DatabaseLaws.UpdateUserKeepsUniqueEmails` | nusaiba-2021-main/src/lib/database.ts:153-169 | an update that does not change the email keeps emails unique |
| `DatabaseLaws.SaveMediaItemsInBatches` | nusaiba-2021-main/src/lib/database.ts:300-309 | saving two batches one after the other equals saving them together with their ids concatenated |
| `StoredDates.Stringify` | nusaiba-2021-main/src/lib/database.ts:51 | `JSON.stringify` turns a date into ISO text carrying the same instant |
| `StoredDates.ReadBack` | nusaiba-2021-main/src/lib/database.ts:43-51 | a date written and read back is ISO text carrying the same instant |
| `StoredDates.GetTime` | nusaiba-2021-main/src/lib/database.ts:278 | `getTime()` succeeds exactly on a real date and returns its instant; on a string it throws |
| `StoredDates.StoredDateLosesGetTime` | nusaiba-2021-main/src/lib/database.ts:43 | a date that went through storage no longer supports `getTime()` |
| `StoredDates.GetVideosAsWritten` | nusaiba-2021-main/src/lib/database.ts:259-279 | as written, the video read throws exactly when at least two candidates must be compared |
| `StoredDates.GetChatMessagesAsWritten` | nusaiba-2021-main/src/lib/database.ts:336-341 | as written, the message read throws exactly when the chat has at least two messages, and otherwise returns the corrected list |
| `StoredDates.TwoVideosBreakGetVideos` | nusaiba-2021-main/src/lib/database.ts:278 | two stored shorts: the as-written read fails while the corrected read lists both, newer first |
| `StoredDates.TwoMessagesBreakGetChatMessages` | nusaiba-2021-main/src/lib/database.ts:340 | two messages in a chat: the as-written read fails while the corrected read lists both, older first |
| `AuthStore.Login` | nusaiba-2021-main/src/hooks/useAuth.ts:19-32 | a failed login keeps the session and reports "Invalid credentials"; a successful one authenticates the user with that email and records the current-user id |
| `AuthStore.Register` | nusaiba-2021-main/src/hooks/useAuth.ts:34-44 | a taken email reports "User already exists" and changes nothing; otherwise the new user is signed in and stored |
| `AuthStore.Logout` | nusaiba-2021-main/src/hooks/useAuth.ts:46-49 | clears user, authentication, error and the stored current-user id |
| `AuthStore.UpdateProfile` | nusaiba-2021-main/src/hooks/useAuth.ts:51-58 | with no user nothing changes; otherwise the session user is merged locally and the same patch is written through |
| `AuthStore.LoginWithUser` | nusaiba-2021-main/src/hooks/useAuth.ts:60-63 | installs the given user as authenticated and records the current-user id |
| `AuthStore.ActionsKeepConsistency` | nusaiba-2021-main/src/hooks/useAuth.ts:19-63 | every action keeps "authenticated if and only if a user is present", and keeps the stored current-user id on the session user |
| `AuthStore.RegisterLoginScenario` | nusaiba-2021-main/src/hooks/useAuth.ts:19-49 | register, log out, a wrong password fails with "Invalid credentials", the right one signs the same user in |
| `AuthStore.RegisterThenAuthenticateLocal` | nusaiba-2021-main/src/lib/database.ts:99-181 | a new registration leaves a credential and can be authenticated with the same password |
| `VideoStore.MockVideos` | nusaiba-2021-main/src/hooks/useVideos.ts:16-141 | the seed feed holds four videos, each embedding its own owner |
| `VideoStore.FetchVideos` | nusaiba-2021-main/src/hooks/useVideos.ts:149-158 | the feed becomes the seed videos, not loading and with no error, and the open video is kept |
| `VideoStore.LikeVideo` | nusaiba-2021-main/src/hooks/useVideos.ts:160-168 | adds one like to every video with the id and changes nothing else; an unknown id leaves the store as is |
| `VideoStore.ShareVideo` | nusaiba-2021-main/src/hooks/useVideos.ts:170-178 | adds one share to every video with the id and changes nothing else |
| `VideoStore.UploadVideo` | nusaiba-2021-main/src/hooks/useVideos.ts:180-190 | keeps the feed and ends not loading with no error |
| `VideoStore.LikeAddsOnePerMatch` | nusaiba-2021-main/src/hooks/useVideos.ts:160-168 | a like raises the total likes by the number of videos with that id |
| `VideoStore.LikeShareCommute` | nusaiba-2021-main/src/hooks/useVideos.ts:160-178 | liking and sharing commute |
| `MessagingStore.FetchChats` | nusaiba-2021-main/src/hooks/useMessaging.ts:45-58 | without a user the store reports "Failed to fetch chats"; with one the chats are exactly the stored chats the user is in |
| `MessagingStore.CreateChat` | nusaiba-2021-main/src/hooks/useMessaging.ts:60-79 | without a user it fails; with one the chat has the user first and then the given ids, and is put in front of the local list and stored |
| `MessagingStore.SendMessage` | nusaiba-2021-main/src/hooks/useMessaging.ts:81-113 | without a user it reports "Failed to send message"; with one the message is stored stamped with the first clock read, shown only if its chat is open, and becomes the local last message of that chat, whose `updatedAt` takes the second clock read |
| `MessagingStore.MarkMessagesAsRead` | nusaiba-2021-main/src/hooks/useMessaging.ts:134-152 | without a user nothing changes; with one both the store and the local list flip the chat's messages from others to read |
| `MessagingStore.FetchMessages` | nusaiba-2021-main/src/hooks/useMessaging.ts:115-132 | over the corrected read: opens the chat if the local list has it; the local messages are the chat's stored messages, oldest first, with the signed-in user's incoming ones marked read, and the store is marked read the same way; without a user nothing is marked |
| `MessagingStore.FetchMessagesAsWritten` | nusaiba-2021-main/src/hooks/useMessaging.ts:115-131 | over the read as written: with two or more stored messages the store reports "Failed to fetch messages", stops loading and keeps its messages, open chat and database; with fewer it behaves as `FetchMessages` |
| `MessagingStore.TwoMessagesStopFetchMessages` | nusaiba-2021-main/src/hooks/useMessaging.ts:115-131 | two messages in a chat: as written the error is reported and the other participant's message stays unread in storage, while the corrected read opens the chat and marks it |
| `MessagingStore.MirroredReadsAreLocal` | nusaiba-2021-main/src/hooks/useMessaging.ts:143-147 | the local marks are the per-message update and keep the chat oldest first |
| `MessagingStore.DeleteMessage` | nusaiba-2021-main/src/hooks/useMessaging.ts:154-166 | exactly the local messages with another id remain |
| `MessagingStore.BlockUser` | nusaiba-2021-main/src/hooks/useMessaging.ts:168-182 | exactly the local chats without that participant remain |
| `MessagingStore.MirrorAgreesWithStore` | nusaiba-2021-main/src/hooks/useMessaging.ts:143-147 | the local read flag flips exactly as the stored one does |
| `MessagingStore.OpenedChatMirrorsStore` | nusaiba-2021-main/src/hooks/useMessaging.ts:115-152 | over the corrected read, after opening a chat the local messages are exactly the stored messages of that chat |
| `MessagingStore.DeleteMessageIdempotent` | nusaiba-2021-main/src/hooks/useMessaging.ts:154-166 | deleting a message twice equals deleting it once |
| `MessagingStore.DeleteMessageKeepsOrder` | nusaiba-2021-main/src/hooks/useMessaging.ts:158 | deleting distributes over concatenation, so the remaining messages keep their order |
| `MessagingStore.BlockUserIdempotent` | nusaiba-2021-main/src/hooks/useMessaging.ts:168-182 | blocking twice equals blocking once |
| `MessagingStore.ChatThenSendScenario` | nusaiba-2021-main/src/hooks/useMessaging.ts:60-113 | after creating a chat and sending into it, the local chat shows the message while the stored chat does not |
| `Upload.StripHash` | nusaiba-2021-main/src/components/Upload/EnhancedVideoUpload.tsx:129 | removes one leading '#' and nothing else |
| `Upload.ParseHashtags` | nusaiba-2021-main/src/components/Upload/EnhancedVideoUpload.tsx:127-130 | every tag is non-empty, has no space and comes from one space-separated piece with its '#' removed; every piece that is non-empty after the '#' is removed yields a tag; empty text gives no tags |
| `Upload.ParseHashtagsAppend` | nusaiba-2021-main/src/components/Upload/EnhancedVideoUpload.tsx:127-130 | the tags of two texts joined by a space are the tags of the first followed by those of the second, so tags keep their written order |
| `Upload.ParseHashtagsWord` | nusaiba-2021-main/src/components/Upload/EnhancedVideoUpload.tsx:127-130 | one space-free word yields its tag without '#', or nothing when only '#' is left |
| `Upload.HashtagsRoundTrip` | nusaiba-2021-main/src/components/Upload/EnhancedVideoUpload.tsx:127-130 | writing non-empty space-free tags as "#a #b" and parsing them gives the tags back |
| `Upload.RemoveFile` | nusaiba-2021-main/src/components/Upload/EnhancedVideoUpload.tsx:102-104 | exactly the files with another id remain |
| `Upload.AddThenRemove` | nusaiba-2021-main/src/components/Upload/EnhancedVideoUpload.tsx:102-104 | removing a file just added with a fresh id restores the list |
| `Upload.RemovingLastUploadEnablesPublish` | nusaiba-2021-main/src/components/Upload/EnhancedVideoUpload.tsx:356 | removing the only file still uploading, when another file remains, enables publishing |
| `Upload.PublishEnabled` | nusaiba-2021-main/src/components/Upload/EnhancedVideoUpload.tsx:356 | (definition) the Publish button is enabled when there is a file, no publish runs and no file is still uploading |
| `Upload.VideoInput` | nusaiba-2021-main/src/components/Upload/EnhancedVideoUpload.tsx:119-131 | the caption or else the file name as title, a story as a short, the parsed hashtags and the preview as url |
| `Upload.SaveFile` | nusaiba-2021-main/src/components/Upload/EnhancedVideoUpload.tsx:116-136 | a video or story becomes a video, an image or gif a media item; it fails exactly for a video of an unknown user |
| `Upload.Publish` | nusaiba-2021-main/src/components/Upload/EnhancedVideoUpload.tsx:116-137 | only videos and media grow, and what was stored before is kept as a prefix |
| `Upload.PublishStoresOwnContent` | nusaiba-2021-main/src/components/Upload/EnhancedVideoUpload.tsx:116-137 | everything added belongs to the uploader and carries the caption, hashtags and time |
| `Upload.PublishStoresEveryFile` | nusaiba-2021-main/src/components/Upload/EnhancedVideoUpload.tsx:116-137 | for a known user, one video per video or story file and one media item per image or gif file |
| `Upload.HandleUpload` | nusaiba-2021-main/src/components/Upload/EnhancedVideoUpload.tsx:106-144 | without a user nothing is stored; with a known user every file is stored |
| `Upload.UnknownUserStopsAtFirstVideo` | nusaiba-2021-main/src/components/Upload/EnhancedVideoUpload.tsx:112-140 | for a user not on file, the first video throws: no video is stored and only the media before it are |
| `Following.TogglePostSelection` | nusaiba-2021-main/src/pages/FollowingPage.tsx:254-260 | a selected post is removed and the others kept; an unselected post is appended |
| `Following.ToggleKeepsDistinct` | nusaiba-2021-main/src/pages/FollowingPage.tsx:254-260 | toggling keeps the selection free of duplicates |
| `Following.ToggleTwiceRestores` | nusaiba-2021-main/src/pages/FollowingPage.tsx:254-260 | toggling an unselected post twice restores the selection |
| `Following.ToggleTwiceMovesLast` | nusaiba-2021-main/src/pages/FollowingPage.tsx:254-260 | toggling a selected post twice keeps the same posts selected and moves it to the end |
| `Following.MarkAllAsRead` | nusaiba-2021-main/src/pages/FollowingPage.tsx:262-266 | clears the selection and hides the batch actions |
| `Following.MuteNotifications` | nusaiba-2021-main/src/pages/FollowingPage.tsx:268-272 | clears the selection and hides the batch actions |
| `Following.BatchActionThenToggle` | nusaiba-2021-main/src/pages/FollowingPage.tsx:254-272 | after a batch action, toggling a post selects only that post |
| `Following.GroupByCreator` | nusaiba-2021-main/src/pages/FollowingPage.tsx:218-227 | one group per creator that has a post, holding exactly that creator's posts in feed order |
| `Following.Creators` | nusaiba-2021-main/src/pages/FollowingPage.tsx:218-227 | the group keys: every creator with a post, each once |
| `Following.GroupSizesSumToPosts` | nusaiba-2021-main/src/pages/FollowingPage.tsx:218-227 | the group sizes add up to the number of posts |
| `Following.FilterPosts` | nusaiba-2021-main/src/pages/FollowingPage.tsx:230-237 | the all tab shows every post; any other tab shows exactly the posts of its type |
| `Following.TabType` | nusaiba-2021-main/src/pages/FollowingPage.tsx:231-235 | the post type a tab selects; only the all tab selects none |
| `Following.TabsPartitionPosts` | nusaiba-2021-main/src/pages/FollowingPage.tsx:230-237 | every post shows under exactly one of the four type tabs |
| `Following.FollowingVideos` | nusaiba-2021-main/src/pages/FollowingPage.tsx:240-242 | exactly the videos whose creator name matches a followed user |
| `Following.FollowingMoreShowsMore` | nusaiba-2021-main/src/pages/FollowingPage.tsx:240-242 | following more users never hides a video |
| `Following.OpenQuickReply` | nusaiba-2021-main/src/pages/FollowingPage.tsx:274-276 | opens the post's reply box unless it is the one open, which it closes |
| `Following.QuickReplyTwiceCloses` | nusaiba-2021-main/src/pages/FollowingPage.tsx:274-276 | opening the same reply box twice closes it |
| `Communities.FilteredCommunities` | nusaiba-2021-main/src/pages/CommunitiesPage.tsx:229-234 | exactly the communities whose name or description contains the lower-cased query and whose category matches or is "all" |
| `Communities.Shown` | nusaiba-2021-main/src/pages/CommunitiesPage.tsx:230-233 | (definition) name or description includes the lower-cased query, and the category matches or is "all" |
| `Communities.EmptySearchShowsAll` | nusaiba-2021-main/src/pages/CommunitiesPage.tsx:229-234 | an empty query with "all" lists every community |
| `Communities.SearchIgnoresQueryCase` | nusaiba-2021-main/src/pages/CommunitiesPage.tsx:229-234 | lower-casing the query first changes nothing |
| `Communities.SetJoined` | nusaiba-2021-main/src/pages/CommunitiesPage.tsx:236-250 | sets the joined flag of the communities with the id and keeps the rest |
| `Communities.JoinCommunity` | nusaiba-2021-main/src/pages/CommunitiesPage.tsx:236-242 | the communities with the id become joined, the rest are unchanged |
| `Communities.LeaveCommunity` | nusaiba-2021-main/src/pages/CommunitiesPage.tsx:244-250 | the communities with the id become not joined, the rest are unchanged |
| `Communities.JoinIdempotent` | nusaiba-2021-main/src/pages/CommunitiesPage.tsx:236-242 | joining twice equals joining once |
| `Communities.LeaveIdempotent` | nusaiba-2021-main/src/pages/CommunitiesPage.tsx:244-250 | leaving twice equals leaving once |
| `Communities.JoinThenLeave` | nusaiba-2021-main/src/pages/CommunitiesPage.tsx:236-250 | joining then leaving equals just leaving |
| `Communities.JoinThenLeaveRestores` | nusaiba-2021-main/src/pages/CommunitiesPage.tsx:236-250 | joining then leaving a community not yet joined restores the list |
| `VideoCard.HandleLike` | nusaiba-2021-main/src/components/Video/VideoCard.tsx:29-34 | the heart flips; the store gains a like only when the heart was off |
| `VideoCard.LikeThenUnlike` | nusaiba-2021-main/src/components/Video/VideoCard.tsx:29-34 | like then unlike adds the like once and the second click leaves the store alone |
| `VideoCard.FormatCount` | nusaiba-2021-main/src/components/Video/VideoCard.tsx:41-45 | counts below 1000 print as plain integers of at most three digits |
| `VideoCard.FormatCountRoundTrip` | nusaiba-2021-main/src/components/Video/VideoCard.tsx:42 | parsing a printed count below 1000 gives the count back |
| `VideoCard.JsRem60` | nusaiba-2021-main/src/components/Video/VideoCard.tsx:49 | JavaScript `%` by 60: congruent to the input, with the sign of the input |
| `VideoCard.FormatDuration` | nusaiba-2021-main/src/components/Video/VideoCard.tsx:47-51 | a non-negative duration prints as minutes, one colon, two digits; a negative one starts with '-' |
| `VideoCard.ParseDuration` | nusaiba-2021-main/src/components/Video/VideoCard.tsx:47-51 | reference reader of the "m:ss" label `formatDuration` prints (the source has no parser); a label it accepts has exactly one colon |
| `VideoCard.DurationRoundTrip` | nusaiba-2021-main/src/components/Video/VideoCard.tsx:47-51 | reading back a printed non-negative duration gives the seconds back |
| `VideoCard.NegativeDurationLabel` | nusaiba-2021-main/src/components/Video/VideoCard.tsx:47-51 | worked value: -5 seconds prints as "-1:-5" |
| `Profile.UserVideos` | nusaiba-2021-main/src/components/Profile/EnhancedUserProfile.tsx:70 | exactly the user's videos |
| `Profile.ShortVideos` | nusaiba-2021-main/src/components/Profile/EnhancedUserProfile.tsx:71 | exactly the user's shorts |
| `Profile.LongVideos` | nusaiba-2021-main/src/components/Profile/EnhancedUserProfile.tsx:72 | exactly the user's other videos |
| `Profile.LikedVideos` | nusaiba-2021-main/src/components/Profile/EnhancedUserProfile.tsx:73 | exactly the videos with at least one like |
| `Profile.ShortAndLongPartition` | nusaiba-2021-main/src/components/Profile/EnhancedUserProfile.tsx:70-72 | shorts and long videos are disjoint and together are the user's videos, with multiplicity |
| `Profile.OrIfZero` | nusaiba-2021-main/src/components/Profile/EnhancedUserProfile.tsx:80 | JavaScript's logical-or fallback on an optional number: zero or absent gives the fallback |
| `Profile.ProfileStats` | nusaiba-2021-main/src/components/Profile/EnhancedUserProfile.tsx:76-84 | the counters as stored, uploads falling back to the number of the user's videos, and top views the maximum view count or 0 |
| `Profile.SavePatch` | nusaiba-2021-main/src/components/Profile/EnhancedUserProfile.tsx:135-146 | the patch carries exactly the form's text fields and the four social links |
| `Profile.HandleSaveProfile` | nusaiba-2021-main/src/components/Profile/EnhancedUserProfile.tsx:134-148 | without a user nothing changes; with one the session user takes the form's values |
| `Profile.SaveProfileIdempotent` | nusaiba-2021-main/src/components/Profile/EnhancedUserProfile.tsx:134-148 | saving the same form twice at the same time equals saving once |

## Left out

- SHA-256 through the browser's crypto interface is a parameter, `Database.Hasher`. Only the fallback digest is modelled (`PasswordHash`).
- Reads and writes to browser storage are modelled once, in `Storage`. The database functions work directly on `DbState`, as if every write were stored. A write lost to the quota is modelled only in `Storage`.
- Asynchrony, timers, the two-second upload delay, upload progress and object URLs are left out. Loading flags are kept only where a store sets them.
- Generated ids are parameters. Every clock read in `handleUpload`, in the database methods and in the auth store's `updateUser` is the one `now` parameter, so values the source takes from separate `new Date()` calls come out equal in the model: `createdAt` and `updatedAt` of `Database.CreateUser` and `Database.CreateVideo` (lib/database.ts:124-125, 249-250), and the session copy and stored record of `AuthStore.UpdateProfile` and `Profile.HandleSaveProfile` (hooks/useAuth.ts:54, lib/database.ts:164). `MessagingStore.SendMessage` is the exception: the message's timestamp (lib/database.ts:326) and the cached chat's `updatedAt` (hooks/useMessaging.ts:106) are separate parameters.
- VideoCard.FormatCount: the thousand and million branches print floating-point values with `toFixed(1)`. The model returns `None` for counts of 1000 and above, because floating-point formatting is not modelled. The same helper on the following and communities pages is identical.
- Text.ToLower and the searches use ASCII case mapping only. Full Unicode case folding is not modelled.
- AuthStore.Login and AuthStore.Register: the catch-all messages "Login failed" and "Registration failed" for errors without a message cannot arise in the model. Every modelled error carries a message.
- Seqs.SortBy: the model is an insertion sort. Its result is stated to be sorted and a permutation; that it is stable like `Array.prototype.sort` is not stated.
- Entities.MergeUser and Entities.MergeVideo: a patch can set an optional field but never unset it. This matches the profile page, which always supplies values.
- MessagingStore.FetchMessages and MessagingStore.OpenedChatMirrorsStore are stated over the corrected `Database.GetChatMessages`. With the read as written, opening a chat with two or more stored messages ends in "Failed to fetch messages", keeps the old messages and open chat, and leaves the database unmarked; `MessagingStore.FetchMessagesAsWritten` and `MessagingStore.TwoMessagesStopFetchMessages` state that outcome.
- DatabaseLaws.UpdateUserKeepsUniqueEmails: stated only for patches that leave the email alone. `updateUser` (lib/database.ts:153-169) does not check a new email against the other users, so an email-changing update can create a duplicate.
- Video, community, post and user fields no modelled operation reads are left out of the records.
- The mock page data of the following and communities pages, and the rendering of every page, are left out.
- The monthly growth figure on the profile page is a constant 12.5 and is not modelled.
- Chat last messages: a sent message becomes the chat's last message only in the client store, never in the stored chat (`DatabaseLaws.ChatLastMessageNeverStored`, `MessagingStore.ChatThenSendScenario`). The model follows the code here, not a stored last message.

## Findings

| source | as written | input that shows it | evidently intended | confidence | as-written member | corrected member |
|---|---|---|---|---|---|---|
| nusaiba-2021-main/src/lib/database.ts:278 | `getVideos` sorts by `b.createdAt.getTime() - a.createdAt.getTime()`, but dates read back from storage are ISO strings, so the comparator throws | two stored videos that both match the filters (`StoredDates.TwoVideosBreakGetVideos`) | the videos newest first | not executed | `StoredDates.GetVideosAsWritten` | `Database.GetVideos` |
| nusaiba-2021-main/src/lib/database.ts:340 | `getChatMessages` sorts by `a.timestamp.getTime() - b.timestamp.getTime()` on messages whose timestamps came back as strings | two stored messages in one chat (`StoredDates.TwoMessagesBreakGetChatMessages`); in the messaging store, opening that chat fails (`MessagingStore.TwoMessagesStopFetchMessages`) | the chat's messages oldest first | not executed | `StoredDates.GetChatMessagesAsWritten` | `Database.GetChatMessages` |

=== FILE: auth_store.dfy ===
/** The authentication store (hooks/useAuth.ts): who is signed in, whether a
    request is in flight, and the last error text. Each action is one atomic
    transition over the store and the database; the intermediate
    "loading" state an `await` exposes is not modelled. */
module AuthStore {
  import opened Wrappers
  import opened Entities
  import Database
  import DatabaseLaws

  datatype AuthState = AuthState(user: Option<User>, isAuthenticated: bool, isLoading: bool, error: Option<string>)

  const InitialAuth := AuthState(None, false, false, None)

  /** The store and the database after an action. */
  datatype AuthStep = AuthStep(auth: AuthState, db: Database.DbState)

  /** `login`: a failed lookup reports "Invalid credentials" and leaves the
      signed-in user as it was; success records the current-user id and
      signs the user in. */
  function Login(s: AuthState, db: Database.DbState, email: string, password: string,
                 hash: Database.Hasher): (r: AuthStep)
    ensures !r.auth.isLoading
    ensures Database.AuthenticateUser(db, email, password, hash).None? ==>
      && r.auth.error == Some("Invalid credentials")
      && r.auth.user == s.user && r.auth.isAuthenticated == s.isAuthenticated
      && r.db == db
    ensures Database.AuthenticateUser(db, email, password, hash).Some? ==>
      var u := Database.AuthenticateUser(db, email, password, hash).value;
      && r.auth == AuthState(Some(u), true, false, None)
      && u.email == email
      && r.db == db.(currentUserId := Some(u.id))
  {
    var pending := s.(isLoading := true, error := None);
    match Database.AuthenticateUser(db, email, password, hash)
    case None => AuthStep(pending.(error := Some("Invalid credentials"), isLoading := false), db)
    case Some(u) =>
      AuthStep(pending.(user := Some(u), isAuthenticated := true, isLoading := false),
               Database.SetCurrentUserId(db, u.id))
  }

  /** `register`: a rejected registration stores the database's error text
      (e.g. "User already exists") and leaves the signed-in user as it was;
      success signs the new account in. */
  function Register(s: AuthState, db: Database.DbState, input: Database.NewUser, id: string, now: int,
                    hash: Database.Hasher): (r: AuthStep)
    ensures !r.auth.isLoading
    ensures Database.EmailTaken(db, input.email) ==>
      && r.auth.error == Some("User already exists")
      && r.auth.user == s.user && r.auth.isAuthenticated == s.isAuthenticated
      && r.db == db
    ensures !Database.EmailTaken(db, input.email) ==>
      && r.auth.user.Some? && r.auth.user.value.id == id
      && r.auth.isAuthenticated && r.auth.error.None?
      && r.db.currentUserId == Some(id)
      && r.db.users == db.users + [r.auth.user.value]
  {
    var pending := s.(isLoading := true, error := None);
    var step := Database.CreateUser(db, input, id, now, hash);
    match step.result
    case Failure(e) => AuthStep(pending.(error := Some(e.Message()), isLoading := false), step.db)
    case Success(u) =>
      AuthStep(pending.(user := Some(u), isAuthenticated := true, isLoading := false),
               Database.SetCurrentUserId(step.db, u.id))
  }

  /** `logout`: forgets the user and the current-user id, clears the error. */
  function Logout(s: AuthState, db: Database.DbState): (r: AuthStep)
    ensures r.auth.user.None? && !r.auth.isAuthenticated && r.auth.error.None?
    ensures r.auth.isLoading == s.isLoading
    ensures r.db.currentUserId.None? && r.db == db.(currentUserId := None)
  {
    AuthStep(s.(user := None, isAuthenticated := false, error := None), Database.ClearCurrentUserId(db))
  }

  /** `updateUser`: nothing happens when no one is signed in; otherwise the
      in-memory user takes the patch with a fresh `updatedAt`, and the same
      patch goes to the database, whose rejection is not observed. */
  function UpdateProfile(s: AuthState, db: Database.DbState, patch: UserPatch, now: int): (r: AuthStep)
    ensures s.user.None? ==> r == AuthStep(s, db)
    ensures s.user.Some? ==>
      && r.auth == s.(user := Some(MergeUser(s.user.value, patch, now)))
      && r.db == Database.UpdateUser(db, s.user.value.id, patch, now).db
  {
    match s.user
    case None => AuthStep(s, db)
    case Some(current) =>
      AuthStep(s.(user := Some(MergeUser(current, patch, now))),
               Database.UpdateUser(db, current.id, patch, now).db)
  }

  /** `loginWithUser`: signs the given user in whatever the prior state. */
  function LoginWithUser(s: AuthState, db: Database.DbState, u: User): (r: AuthStep)
    ensures r.auth == AuthState(Some(u), true, false, None)
    ensures r.db == db.(currentUserId := Some(u.id))
  {
    AuthStep(AuthState(Some(u), true, false, None), Database.SetCurrentUserId(db, u.id))
  }

  // ---- invariants over every action -----------------------------------------

  datatype AuthAction =
    | DoLogin(email: string, password: string)
    | DoRegister(input: Database.NewUser, id: string)
    | DoLogout
    | DoUpdateProfile(patch: UserPatch)
    | DoLoginWithUser(u: User)

  function Apply(s: AuthState, db: Database.DbState, a: AuthAction, now: int, hash: Database.Hasher): AuthStep {
    match a
    case DoLogin(email, password) => Login(s, db, email, password, hash)
    case DoRegister(input, id) => Register(s, db, input, id, now, hash)
    case DoLogout => Logout(s, db)
    case DoUpdateProfile(patch) => UpdateProfile(s, db, patch, now)
    case DoLoginWithUser(u) => LoginWithUser(s, db, u)
  }

  /** Signed in exactly when a user is held. */
  predicate Consistent(s: AuthState) {
    s.isAuthenticated <==> s.user.Some?
  }

  /** The persisted current-user id names the held user. */
  predicate CurrentIdMatches(s: AuthState, db: Database.DbState) {
    s.user.Some? ==> db.currentUserId == Some(s.user.value.id)
  }

  /** A patch that does not rename the account. */
  predicate KeepsId(a: AuthAction) {
    a.DoUpdateProfile? ==> a.patch.id.None?
  }

  /** Every action keeps "authenticated iff a user is held", and every action
      that does not rename the account keeps the current-user id on the held user. */
  lemma ActionsKeepConsistency(s: AuthState, db: Database.DbState, a: AuthAction, now: int, hash: Database.Hasher)
    requires Consistent(s)
    ensures Consistent(Apply(s, db, a, now, hash).auth)
    ensures CurrentIdMatches(s, db) && KeepsId(a) ==>
      CurrentIdMatches(Apply(s, db, a, now, hash).auth, Apply(s, db, a, now, hash).db)
  {
  }

  /** A worked example of the register-then-login flow: after registering a
      fresh account, a wrong password is refused with the generic message and
      the right one signs the account in. */
  lemma {:induction false} RegisterLoginScenario(db: Database.DbState, id: string, now: int, hash: Database.Hasher)
    requires !Database.EmailTaken(db, Some("alice@example.com"))
    requires forall c :: c in db.credentials ==> c.userId != id
    requires hash("wrong") != hash("secret123")
    ensures
      var alice := Database.NewUser(None, Some("Alice"), Some("alice@example.com"), None, None, None, None,
                                    None, None, None, "secret123", None);
      var registered := Register(InitialAuth, db, alice, id, now, hash);
      var out := Logout(registered.auth, registered.db);
      var wrong := Login(out.auth, out.db, "alice@example.com", "wrong", hash);
      var right := Login(wrong.auth, wrong.db, "alice@example.com", "secret123", hash);
      && !wrong.auth.isAuthenticated && wrong.auth.error == Some("Invalid credentials")
      && right.auth.isAuthenticated && right.auth.user.Some? && right.auth.user.value.id == id
      && right.db.currentUserId == Some(id)
  {
    var alice := Database.NewUser(None, Some("Alice"), Some("alice@example.com"), None, None, None, None,
                                  None, None, None, "secret123", None);
    var created := Database.CreateUser(db, alice, id, now, hash);
    var registered := Register(InitialAuth, db, alice, id, now, hash);
    var out := Logout(registered.auth, registered.db);
    assert out.db == created.db.(currentUserId := None);
    RegisterThenAuthenticateLocal(db, alice, id, now, hash);
    var u := created.result.value;
    assert Database.AuthenticateUser(out.db, "alice@example.com", "secret123", hash) == Some(u);
    assert Database.AuthenticateUser(out.db, "alice@example.com", "wrong", hash).None?;
  }

  /** Authentication reads neither the current-user id nor anything but users and
      credentials, so the registration round trip survives a logout. */
  lemma RegisterThenAuthenticateLocal(db: Database.DbState, input: Database.NewUser, id: string, now: int,
                                      hash: Database.Hasher)
    requires input.email.Some? && !Database.EmailTaken(db, input.email)
    requires forall c :: c in db.credentials ==> c.userId != id
    ensures var r := Database.CreateUser(db, input, id, now, hash);
            && r.result.Success?
            && Database.AuthenticateUser(r.db.(currentUserId := None), input.email.value, input.password, hash)
               == Some(r.result.value)
            && Database.CredentialFor(r.db.(currentUserId := None), id)
               == Some(Entities.Credential(id, r.result.value.email, hash(input.password),
                                           input.provider.GetOr(Local)))
  {
    DatabaseLaws.RegisterThenAuthenticate(db, input, id, now, hash);
    var r := Database.CreateUser(db, input, id, now, hash);
    var c := Database.CredentialFor(r.db, id);
    assert c.value !in db.credentials;
    assert c.value == r.db.credentials[|db.credentials|];
  }
}

=== FILE: communities.dfy ===
/** The pure logic of the communities page (pages/CommunitiesPage.tsx):
    searching the list and joining or leaving a community. Only the fields
    this logic reads or writes are kept; the mock communities are data and
    are left out. */
module Communities {
  import Seqs
  import Text
  import Database

  datatype Community = Community(id: string, name: string, description: string, category: string,
                                 memberCount: int, isJoined: bool, isAdmin: bool)

  /** The category value that disables the category filter. */
  const AllCategories := "all"

  /** The search and category tests of `filteredCommunities`. */
  predicate Shown(c: Community, query: string, category: string) {
    var q := Text.ToLower(query);
    && (Database.MatchesLower(c.name, q) || Database.MatchesLower(c.description, q))
    && (category == AllCategories || c.category == category)
  }

  /** `filteredCommunities`: the communities whose lower-cased name or
      description contains the lower-cased query, in the chosen category. */
  function FilteredCommunities(cs: seq<Community>, query: string, category: string): (r: seq<Community>)
    ensures forall c :: c in r <==>
      && c in cs
      && (Text.Includes(Text.ToLower(c.name), Text.ToLower(query))
          || Text.Includes(Text.ToLower(c.description), Text.ToLower(query)))
      && (category == AllCategories || c.category == category)
  {
    Seqs.Filter(cs, (c: Community) => Shown(c, query, category))
  }

  /** With no query and every category, the whole list is shown. */
  lemma EmptySearchShowsAll(cs: seq<Community>)
    ensures FilteredCommunities(cs, "", AllCategories) == cs
  {
    forall c | c in cs
      ensures Shown(c, "", AllCategories)
    {
      Text.IncludesEmpty(Text.ToLower(c.name));
    }
    Seqs.FilterAll(cs, (c: Community) => Shown(c, "", AllCategories));
  }

  /** The search ignores the case of the query. */
  lemma SearchIgnoresQueryCase(cs: seq<Community>, query: string, category: string)
    ensures FilteredCommunities(cs, Text.ToLower(query), category) == FilteredCommunities(cs, query, category)
  {
    Text.ToLowerIdempotent(query);
    Seqs.FilterCongruent(cs, (c: Community) => Shown(c, Text.ToLower(query), category),
                         (c: Community) => Shown(c, query, category));
  }

  /** The map of `joinCommunity` and `leaveCommunity`. */
  function SetJoined(cs: seq<Community>, id: string, joined: bool): (r: seq<Community>)
    ensures |r| == |cs|
    ensures forall i :: 0 <= i < |cs| ==>
      r[i] == if cs[i].id == id then cs[i].(isJoined := joined) else cs[i]
  {
    Seqs.MapWhere(cs, (c: Community) => c.id == id, (c: Community) => c.(isJoined := joined))
  }

  /** `joinCommunity`: marks only the community with the id as joined. */
  function JoinCommunity(cs: seq<Community>, id: string): (r: seq<Community>)
    ensures |r| == |cs|
    ensures forall i :: 0 <= i < |cs| && cs[i].id == id ==> r[i].isJoined && r[i] == cs[i].(isJoined := true)
    ensures forall i :: 0 <= i < |cs| && cs[i].id != id ==> r[i] == cs[i]
  {
    SetJoined(cs, id, true)
  }

  /** `leaveCommunity`: marks only the community with the id as not joined. */
  function LeaveCommunity(cs: seq<Community>, id: string): (r: seq<Community>)
    ensures |r| == |cs|
    ensures forall i :: 0 <= i < |cs| && cs[i].id == id ==> !r[i].isJoined && r[i] == cs[i].(isJoined := false)
    ensures forall i :: 0 <= i < |cs| && cs[i].id != id ==> r[i] == cs[i]
  {
    SetJoined(cs, id, false)
  }

  lemma JoinIdempotent(cs: seq<Community>, id: string)
    ensures JoinCommunity(JoinCommunity(cs, id), id) == JoinCommunity(cs, id)
  {
  }

  lemma LeaveIdempotent(cs: seq<Community>, id: string)
    ensures LeaveCommunity(LeaveCommunity(cs, id), id) == LeaveCommunity(cs, id)
  {
  }

  /** Leaving right after joining is the same as leaving. */
  lemma JoinThenLeave(cs: seq<Community>, id: string)
    ensures LeaveCommunity(JoinCommunity(cs, id), id) == LeaveCommunity(cs, id)
  {
  }

  /** Joining and leaving one community undoes a join exactly when the
      community was not joined before. */
  lemma JoinThenLeaveRestores(cs: seq<Community>, id: string)
    requires forall c :: c in cs && c.id == id ==> !c.isJoined
    ensures LeaveCommunity(JoinCommunity(cs, id), id) == cs
  {
    var r := LeaveCommunity(JoinCommunity(cs, id), id);
    forall i | 0 <= i < |cs|
      ensures r[i] == cs[i]
    {
      assert cs[i] in cs;
    }
  }
}

=== FILE: database.dfy ===
/** `DatabaseService` (lib/database.ts): whole-collection read-modify-write
    over named lists. Each method becomes a pure function from the database
    state to the new state and its result; the ids `Date.now()` would mint
    and the clock are parameters, and so is the password digest (the
    SHA-256 branch is an opaque deterministic function, see PasswordHash for
    the fallback branch). */
module Database {
  import opened Wrappers
  import opened Entities
  import Seqs
  import Text

  /** Every collection the service keeps, plus the current-user id. */
  datatype DbState = DbState(
    users: seq<User>,
    credentials: seq<Credential>,
    videos: seq<Video>,
    messages: seq<Message>,
    chats: seq<Chat>,
    liveStreams: seq<LiveStream>,
    media: seq<MediaItem>,
    currentUserId: Option<string>)

  const EmptyDb := DbState([], [], [], [], [], [], [], None)

  /** The domain errors the service throws. */
  datatype DbError = UserAlreadyExists | UserNotFound | VideoNotFound {
    /** The `Error.message` text the stores surface. */
    function Message(): string {
      match this
      case UserAlreadyExists => "User already exists"
      case UserNotFound => "User not found"
      case VideoNotFound => "Video not found"
    }
  }

  /** The state after a call together with what it returned or threw. */
  datatype Step<T> = Step(db: DbState, result: Result<T, DbError>)

  /** The password digest; deterministic, otherwise unconstrained. */
  type Hasher = string -> string

  const DefaultProfilePicture: string :=
    "https://images.unsplash.com/photo-1472099645785-5658abf4ff4e?w=150&h=150&fit=crop&crop=face"

  /** JavaScript `s || fallback` for an optional string: an absent or empty
      string falls back. */
  function OrElse(s: Option<string>, fallback: string): (r: string)
    ensures s.Some? && s.value != "" ==> r == s.value
    ensures s.None? || s.value == "" ==> r == fallback
  {
    if s.Some? && s.value != "" then s.value else fallback
  }

  // ---- current user id --------------------------------------------------

  function SetCurrentUserId(db: DbState, id: string): (r: DbState)
    ensures r.currentUserId == Some(id)
    ensures r == db.(currentUserId := Some(id))
  {
    db.(currentUserId := Some(id))
  }

  function ClearCurrentUserId(db: DbState): (r: DbState)
    ensures r.currentUserId.None?
    ensures r == db.(currentUserId := None)
  {
    db.(currentUserId := None)
  }

  // ---- users ---------------------------------------------------------------

  /** The `userData` argument of `createUser`: a partial user plus the password. */
  datatype NewUser = NewUser(
    username: Option<string>,
    name: Option<string>,
    email: Option<string>,
    phone: Option<string>,
    profilePicture: Option<string>,
    coverPhoto: Option<string>,
    bio: Option<string>,
    website: Option<string>,
    location: Option<string>,
    gender: Option<Gender>,
    password: string,
    provider: Option<Provider>)

  /** Some stored user has exactly this email. `createUser` compares the
      caller's raw `email`, which never equals a stored string when absent. */
  predicate EmailTaken(db: DbState, email: Option<string>) {
    email.Some? && exists i :: 0 <= i < |db.users| && db.users[i].email == email.value
  }

  /** The account record `createUser` builds. */
  function FreshUser(input: NewUser, id: string, now: int): User {
    User(id, OrElse(input.username, ""), OrElse(input.name, ""), OrElse(input.email, ""),
         input.phone, Some(OrElse(input.profilePicture, DefaultProfilePicture)), input.coverPhoto,
         Some(OrElse(input.bio, "")), input.website, input.location,
         input.gender.GetOr(OtherGender), false, false, 0, 0,
         None, None, None, None, None, now, now)
  }

  /** `createUser`: rejects an email already on file and writes nothing;
      otherwise appends one user and one credential for it. */
  function CreateUser(db: DbState, input: NewUser, id: string, now: int, hash: Hasher): (r: Step<User>)
    ensures r.result.Failure? <==> EmailTaken(db, input.email)
    ensures r.result.Failure? ==> r.db == db && r.result.error == UserAlreadyExists
    ensures r.result.Success? ==>
      var u := r.result.value;
      && u.id == id
      && u.followers == 0 && u.following == 0
      && !u.isVerified && !u.isPrivate
      && u.username == OrElse(input.username, "")
      && u.name == OrElse(input.name, "")
      && u.email == OrElse(input.email, "")
      && u.phone == input.phone
      && u.profilePicture == Some(OrElse(input.profilePicture, DefaultProfilePicture))
      && u.coverPhoto == input.coverPhoto
      && u.bio == Some(OrElse(input.bio, ""))
      && u.website == input.website && u.location == input.location
      && u.gender == input.gender.GetOr(OtherGender)
      && u.totalViews.None? && u.totalUploads.None? && u.pinnedContentId.None?
      && u.privacySettings.None? && u.socialLinks.None?
      && u.createdAt == now && u.updatedAt == now
      && r.db.users == db.users + [u]
      && r.db.credentials == db.credentials
           + [Credential(id, u.email, hash(input.password), input.provider.GetOr(Local))]
      && r.db == db.(users := r.db.users, credentials := r.db.credentials)
  {
    if Seqs.Any(db.users, (u: User) => Some(u.email) == input.email) then
      Step(db, Failure(UserAlreadyExists))
    else
      var user := FreshUser(input, id, now);
      var cred := Credential(user.id, user.email, hash(input.password), input.provider.GetOr(Local));
      Step(db.(users := db.users + [user], credentials := db.credentials + [cred]), Success(user))
  }

  /** `getUserByEmail`: the first user with that email, or none. */
  function GetUserByEmail(db: DbState, email: string): (r: Option<User>)
    ensures r.Some? ==> r.value in db.users && r.value.email == email
    ensures r.None? <==> forall u :: u in db.users ==> u.email != email
    ensures r.Some? ==> exists i :: 0 <= i < |db.users| && db.users[i] == r.value
                          && forall j :: 0 <= j < i ==> db.users[j].email != email
  {
    Seqs.Find(db.users, (u: User) => u.email == email)
  }

  /** `getUserById`: the first user with that id, or none. */
  function GetUserById(db: DbState, id: string): (r: Option<User>)
    ensures r.Some? ==> r.value in db.users && r.value.id == id
    ensures r.None? <==> forall u :: u in db.users ==> u.id != id
    ensures r.Some? ==> exists i :: 0 <= i < |db.users| && db.users[i] == r.value
                          && forall j :: 0 <= j < i ==> db.users[j].id != id
  {
    Seqs.Find(db.users, (u: User) => u.id == id)
  }

  /** `updateUser`: fails when no user has the id; otherwise merges the patch
      into the first such user, refreshes `updatedAt`, and leaves every other
      record as it was. */
  function UpdateUser(db: DbState, id: string, patch: UserPatch, now: int): (r: Step<User>)
    ensures r.result.Failure? <==> forall u :: u in db.users ==> u.id != id
    ensures r.result.Failure? ==> r.db == db && r.result.error == UserNotFound
    ensures r.result.Success? ==>
      exists i :: 0 <= i < |db.users| && db.users[i].id == id
        && (forall j :: 0 <= j < i ==> db.users[j].id != id)
        && r.result.value == MergeUser(db.users[i], patch, now)
        && r.db.users == db.users[i := r.result.value]
    ensures r.db == db.(users := r.db.users)
  {
    match Seqs.FindIndex(db.users, (u: User) => u.id == id)
    case None => Step(db, Failure(UserNotFound))
    case Some(i) =>
      var updated := MergeUser(db.users[i], patch, now);
      Step(db.(users := db.users[i := updated]), Success(updated))
  }

  /** The first credential recorded for a user id. */
  function CredentialFor(db: DbState, userId: string): (r: Option<Credential>)
    ensures r.Some? ==> r.value in db.credentials && r.value.userId == userId
    ensures r.None? <==> forall c :: c in db.credentials ==> c.userId != userId
    ensures r.Some? ==> exists i :: 0 <= i < |db.credentials| && db.credentials[i] == r.value
                          && forall j :: 0 <= j < i ==> db.credentials[j].userId != userId
  {
    Seqs.Find(db.credentials, (c: Credential) => c.userId == userId)
  }

  /** `authenticateUser`: the first user with the email, provided the first
      credential for that user carries the hash of the password; otherwise
      nothing, with no indication of which check failed. */
  function AuthenticateUser(db: DbState, email: string, password: string, hash: Hasher): (r: Option<User>)
    ensures r.Some? ==> r.value in db.users && r.value.email == email
    ensures r.Some? ==> exists c :: c in db.credentials && c.userId == r.value.id
                                    && c.passwordHash == hash(password)
    ensures (forall u :: u in db.users ==> u.email != email) ==> r.None?
    ensures r.Some? ==> r == GetUserByEmail(db, email)
  {
    match GetUserByEmail(db, email)
    case None => None
    case Some(user) =>
      match CredentialFor(db, user.id)
      case None => None
      case Some(cred) => if cred.passwordHash != hash(password) then None else Some(user)
  }

  /** The profile a social provider hands to `socialSignInOrRegister`. */
  datatype SocialProfile = SocialProfile(
    email: string,
    name: string,
    username: string,
    profilePicture: Option<string>,
    provider: Provider)

  /** `socialSignInOrRegister`: an existing email returns that user as stored
      and adds an empty-hash credential only when the user has none; a new
      email creates one user and one empty-hash credential. */
  function SocialSignInOrRegister(db: DbState, profile: SocialProfile, id: string, now: int): (r: Step<User>)
    ensures r.result.Success?
    ensures r.db == db.(users := r.db.users, credentials := r.db.credentials)
    ensures GetUserByEmail(db, profile.email).Some? ==>
      && r.result.value == GetUserByEmail(db, profile.email).value
      && r.db.users == db.users
      && (CredentialFor(db, r.result.value.id).Some? ==> r.db.credentials == db.credentials)
      && (CredentialFor(db, r.result.value.id).None? ==>
            r.db.credentials == db.credentials
              + [Credential(r.result.value.id, r.result.value.email, "", profile.provider)])
    ensures GetUserByEmail(db, profile.email).None? ==>
      var u := r.result.value;
      && u.id == id && u.email == profile.email && u.name == profile.name
      && u.username == profile.username && u.followers == 0 && u.following == 0
      && r.db.users == db.users + [u]
      && r.db.credentials == db.credentials + [Credential(id, profile.email, "", profile.provider)]
  {
    match GetUserByEmail(db, profile.email)
    case Some(existing) =>
      if CredentialFor(db, existing.id).None? then
        var cred := Credential(existing.id, existing.email, "", profile.provider);
        Step(db.(credentials := db.credentials + [cred]), Success(existing))
      else
        Step(db, Success(existing))
    case None =>
      var user := User(id, profile.username, profile.name, profile.email, None, profile.profilePicture,
                       None, None, None, None, OtherGender, false, false, 0, 0,
                       None, None, None, None, None, now, now);
      var cred := Credential(id, profile.email, "", profile.provider);
      Step(db.(users := db.users + [user], credentials := db.credentials + [cred]), Success(user))
  }

  // ---- videos --------------------------------------------------------------

  datatype NewVideo = NewVideo(
    userId: string,
    title: string,
    description: string,
    url: string,
    thumbnailUrl: string,
    duration: int,
    isShort: bool,
    hashtags: seq<string>)

  /** `createVideo`: fails when the owner is unknown; otherwise appends a
      video with zeroed counters that embeds a snapshot of the owner, the
      first user with the id. */
  function CreateVideo(db: DbState, input: NewVideo, id: string, now: int): (r: Step<Video>)
    ensures r.result.Failure? <==> forall u :: u in db.users ==> u.id != input.userId
    ensures r.result.Failure? ==> r.db == db && r.result.error == UserNotFound
    ensures r.result.Success? ==>
      var v := r.result.value;
      && v.id == id && v.userId == input.userId && v.user in db.users && v.user.id == input.userId
      && Some(v.user) == GetUserById(db, input.userId)
      && v.title == input.title && v.description == input.description
      && v.url == input.url && v.thumbnailUrl == input.thumbnailUrl && v.duration == input.duration
      && v.isShort == input.isShort && v.hashtags == input.hashtags
      && v.views == 0 && v.likes == 0 && v.comments == 0 && v.shares == 0
      && v.createdAt == now && v.updatedAt == now
      && r.db == db.(videos := db.videos + [v])
  {
    match GetUserById(db, input.userId)
    case None => Step(db, Failure(UserNotFound))
    case Some(owner) =>
      var v := Video(id, input.userId, owner, input.title, input.description, input.url,
                     input.thumbnailUrl, input.duration, 0, 0, 0, 0, input.isShort,
                     input.hashtags, now, now);
      Step(db.(videos := db.videos + [v]), Success(v))
  }

  /** The optional `filters` of `getVideos`. */
  datatype VideoFilters = VideoFilters(userId: Option<string>, isShort: Option<bool>, limit: Option<int>)

  /** The filters that take effect: an empty `userId` and a zero `limit` are
      falsy and therefore ignored. */
  predicate MatchesFilters(v: Video, f: VideoFilters) {
    && (f.userId.Some? && f.userId.value != "" ==> v.userId == f.userId.value)
    && (f.isShort.Some? ==> v.isShort == f.isShort.value)
  }

  /** End index of `slice(0, limit)` on a list of length `n`: a negative limit
      counts back from the end. */
  function SliceEnd(n: nat, limit: int): (r: nat)
    ensures r <= n
    ensures 0 <= limit ==> r == if limit < n then limit else n
    ensures limit < 0 ==> r == if n + limit > 0 then n + limit else 0
  {
    if limit < 0 then (if n + limit > 0 then n + limit else 0)
    else if limit < n then limit else n
  }

  /** Every stored video that passes the filters, in storage order. */
  function MatchingVideos(db: DbState, f: VideoFilters): seq<Video> {
    Seqs.Filter(db.videos, (v: Video) => MatchesFilters(v, f))
  }

  /** The `userId` filter followed by the `isShort` filter, each applied only
      when set: the stored videos that pass both, in storage order. */
  function FilteredVideos(db: DbState, f: VideoFilters): (r: seq<Video>)
    ensures r == MatchingVideos(db, f)
  {
    var matches := (v: Video) => MatchesFilters(v, f);
    var byUser := (v: Video) => Some(v.userId) == f.userId;
    var byKind := (v: Video) => Some(v.isShort) == f.isShort;
    if f.userId.Some? && f.userId.value != "" then
      if f.isShort.Some? then
        Seqs.FilterFilter(db.videos, byUser, byKind, matches);
        Seqs.Filter(Seqs.Filter(db.videos, byUser), byKind)
      else
        Seqs.FilterCongruent(db.videos, byUser, matches);
        Seqs.Filter(db.videos, byUser)
    else if f.isShort.Some? then
      Seqs.FilterCongruent(db.videos, byKind, matches);
      Seqs.Filter(db.videos, byKind)
    else
      Seqs.FilterAll(db.videos, matches);
      db.videos
  }

  /** The videos `getVideos` sorts: filtered, then cut to the limit in
      storage order, before any sorting. A zero or absent limit keeps every
      match; a negative one drops that many matches from the end. */
  function VideoCandidates(db: DbState, f: VideoFilters): (r: seq<Video>)
    ensures forall v :: v in r ==> v in db.videos && MatchesFilters(v, f)
    ensures (f.limit.None? || f.limit.value == 0) ==> r == MatchingVideos(db, f)
    ensures f.limit.Some? && f.limit.value != 0 ==>
      var m := MatchingVideos(db, f);
      r == m[..SliceEnd(|m|, f.limit.value)]
  {
    var matching := FilteredVideos(db, f);
    var limited := if f.limit.Some? && f.limit.value != 0
                   then matching[..SliceEnd(|matching|, f.limit.value)]
                   else matching;
    assert forall v :: v in limited ==> v in matching;
    limited
  }

  /** Sorted newest first. */
  predicate NewestFirst(s: seq<Video>) {
    forall i, j :: 0 <= i < j < |s| ==> s[i].createdAt >= s[j].createdAt
  }

  /** `getVideos` with the comparator reading integer timestamps: the
      candidates, newest first. */
  function GetVideos(db: DbState, f: VideoFilters): (r: seq<Video>)
    ensures NewestFirst(r)
    ensures multiset(r) == multiset(VideoCandidates(db, f))
    ensures forall v :: v in r ==> v in db.videos && MatchesFilters(v, f)
    ensures f.limit.Some? && f.limit.value > 0 ==> |r| <= f.limit.value
  {
    var c := VideoCandidates(db, f);
    var sorted := Seqs.SortBy(c, (v: Video) => -v.createdAt);
    assert forall v :: v in sorted ==> v in multiset(c);
    sorted
  }

  /** `updateVideo`: fails when no video has the id; otherwise merges the
      patch into the first such video and leaves every other record as it was. */
  function UpdateVideo(db: DbState, id: string, patch: VideoPatch, now: int): (r: Step<Video>)
    ensures r.result.Failure? <==> forall v :: v in db.videos ==> v.id != id
    ensures r.result.Failure? ==> r.db == db && r.result.error == VideoNotFound
    ensures r.result.Success? ==>
      exists i :: 0 <= i < |db.videos| && db.videos[i].id == id
        && (forall j :: 0 <= j < i ==> db.videos[j].id != id)
        && r.result.value == MergeVideo(db.videos[i], patch, now)
        && r.db.videos == db.videos[i := r.result.value]
    ensures r.db == db.(videos := r.db.videos)
  {
    match Seqs.FindIndex(db.videos, (v: Video) => v.id == id)
    case None => Step(db, Failure(VideoNotFound))
    case Some(i) =>
      var updated := MergeVideo(db.videos[i], patch, now);
      Step(db.(videos := db.videos[i := updated]), Success(updated))
  }

  // ---- media ---------------------------------------------------------------

  /** One argument item of `saveMediaItems`. */
  datatype NewMedia = NewMedia(id: Option<string>, kind: MediaKind, url: string, userId: string,
                               createdAt: Option<int>)

  /** `{ id: generated, ...item, createdAt: item.createdAt || now }`: a
      supplied id wins over the generated one. */
  function ToMediaItem(item: NewMedia, generatedId: string, now: int): MediaItem {
    MediaItem(item.id.GetOr(generatedId), item.kind, item.url, item.userId, item.createdAt.GetOr(now))
  }

  /** `saveMediaItems`: appends one stored item per argument, in order. */
  function SaveMediaItems(db: DbState, items: seq<NewMedia>, generatedIds: seq<string>, now: int): (r: DbState)
    requires |generatedIds| == |items|
    ensures |r.media| == |db.media| + |items|
    ensures r.media[..|db.media|] == db.media
    ensures forall k :: 0 <= k < |items| ==>
      var m := r.media[|db.media| + k];
      && m.kind == items[k].kind && m.url == items[k].url && m.userId == items[k].userId
      && (items[k].id.Some? ==> m.id == items[k].id.value)
      && (items[k].id.None? ==> m.id == generatedIds[k])
      && (items[k].createdAt.Some? ==> m.createdAt == items[k].createdAt.value)
      && (items[k].createdAt.None? ==> m.createdAt == now)
    ensures r == db.(media := r.media)
  {
    var saved := seq(|items|, k requires 0 <= k < |items| => ToMediaItem(items[k], generatedIds[k], now));
    db.(media := db.media + saved)
  }

  // ---- messages and chats --------------------------------------------------

  datatype NewMessage = NewMessage(chatId: string, senderId: string, content: string, kind: MessageKind)

  /** `createMessage`: appends an unread message stamped `now`. The chat id is
      not checked against the stored chats. */
  function CreateMessage(db: DbState, input: NewMessage, id: string, now: int): (r: Step<Message>)
    ensures r.result.Success?
    ensures var m := r.result.value;
      && m.id == id && m.chatId == input.chatId && m.senderId == input.senderId
      && m.content == input.content && m.kind == input.kind && m.timestamp == now && !m.isRead
      && r.db == db.(messages := db.messages + [m])
  {
    var m := Message(id, input.chatId, input.senderId, input.content, input.kind, now, false);
    Step(db.(messages := db.messages + [m]), Success(m))
  }

  /** Sorted oldest first. */
  predicate OldestFirst(s: seq<Message>) {
    forall i, j :: 0 <= i < j < |s| ==> s[i].timestamp <= s[j].timestamp
  }

  /** `getChatMessages` with the comparator reading integer timestamps:
      exactly the messages of the chat, oldest first. */
  function GetChatMessages(db: DbState, chatId: string): (r: seq<Message>)
    ensures OldestFirst(r)
    ensures forall m :: m in r <==> m in db.messages && m.chatId == chatId
    ensures forall m :: multiset(r)[m] == if m.chatId == chatId then multiset(db.messages)[m] else 0
  {
    var mine := Seqs.Filter(db.messages, (m: Message) => m.chatId == chatId);
    var sorted := Seqs.SortBy(mine, (m: Message) => m.timestamp);
    forall m
      ensures multiset(sorted)[m] == if m.chatId == chatId then multiset(db.messages)[m] else 0
    {
      Seqs.FilterMultiset(db.messages, (m: Message) => m.chatId == chatId, m);
    }
    assert forall m :: m in sorted <==> m in multiset(mine);
    sorted
  }

  /** The per-message update `markMessagesAsRead` applies. */
  function ReadByStored(m: Message, chatId: string, reader: string): Message {
    if m.chatId == chatId && m.senderId != reader && !m.isRead then m.(isRead := true) else m
  }

  /** A message `markMessagesAsRead` would flip. */
  predicate Flippable(m: Message, chatId: string, reader: string) {
    m.chatId == chatId && m.senderId != reader && !m.isRead
  }

  /** `markMessagesAsRead`: marks read the unread messages of the chat that
      the reader did not send; everything else stays, and nothing is written
      when no message qualifies. */
  function MarkMessagesAsRead(db: DbState, chatId: string, reader: string): (r: DbState)
    ensures |r.messages| == |db.messages|
    ensures forall i :: 0 <= i < |db.messages| ==>
      if db.messages[i].chatId == chatId && db.messages[i].senderId != reader
      then r.messages[i] == db.messages[i].(isRead := true)
      else r.messages[i] == db.messages[i]
    ensures (forall m :: m in db.messages ==> !Flippable(m, chatId, reader)) ==> r == db
    ensures r == db.(messages := r.messages)
  {
    var updated := Seqs.Any(db.messages, (m: Message) => Flippable(m, chatId, reader));
    var mapped := Seqs.MapWhere(db.messages, (m: Message) => Flippable(m, chatId, reader),
                                (m: Message) => m.(isRead := true));
    if updated then
      db.(messages := mapped)
    else
      assert mapped == db.messages;
      db
  }

  /** `createChat`: appends a chat with the given participants and no cached
      last message. */
  function CreateChat(db: DbState, participants: seq<string>, id: string, now: int): (r: Step<Chat>)
    ensures r.result.Success?
    ensures r.result.value == Chat(id, participants, None, now, now)
    ensures r.db == db.(chats := db.chats + [r.result.value])
  {
    var c := Chat(id, participants, None, now, now);
    Step(db.(chats := db.chats + [c]), Success(c))
  }

  /** `getUserChats`: exactly the chats listing the user, in storage order. */
  function GetUserChats(db: DbState, userId: string): (r: seq<Chat>)
    ensures forall c :: c in r <==> c in db.chats && userId in c.participants
    ensures |r| <= |db.chats|
  {
    Seqs.Filter(db.chats, (c: Chat) => userId in c.participants)
  }

  // ---- live streams ----------------------------------------------------------

  datatype NewLiveStream = NewLiveStream(userId: string, title: string, description: string, streamUrl: string)

  /** `createLiveStream`: fails when the owner is unknown; otherwise appends
      an active stream with no viewers. */
  function CreateLiveStream(db: DbState, input: NewLiveStream, id: string, now: int): (r: Step<LiveStream>)
    ensures r.result.Failure? <==> forall u :: u in db.users ==> u.id != input.userId
    ensures r.result.Failure? ==> r.db == db && r.result.error == UserNotFound
    ensures r.result.Success? ==>
      var s := r.result.value;
      && s.id == id && s.userId == input.userId && s.user in db.users && s.user.id == input.userId
      && Some(s.user) == GetUserById(db, input.userId)
      && s.title == input.title && s.description == input.description && s.streamUrl == input.streamUrl
      && s.isActive && s.viewers == 0 && s.startedAt == now
      && r.db == db.(liveStreams := db.liveStreams + [s])
  {
    match GetUserById(db, input.userId)
    case None => Step(db, Failure(UserNotFound))
    case Some(owner) =>
      var s := LiveStream(id, input.userId, owner, input.title, input.description, input.streamUrl,
                          0, true, now);
      Step(db.(liveStreams := db.liveStreams + [s]), Success(s))
  }

  /** `getActiveLiveStreams`: exactly the active streams. */
  function GetActiveLiveStreams(db: DbState): (r: seq<LiveStream>)
    ensures forall s :: s in r <==> s in db.liveStreams && s.isActive
  {
    Seqs.Filter(db.liveStreams, (s: LiveStream) => s.isActive)
  }

  // ---- search --------------------------------------------------------------

  /** Case-insensitive substring test against an already lower-cased query. */
  predicate MatchesLower(field: string, lowerQuery: string) {
    Text.Includes(Text.ToLower(field), lowerQuery)
  }

  predicate UserMatches(u: User, query: string) {
    var q := Text.ToLower(query);
    MatchesLower(u.name, q) || MatchesLower(u.username, q) || MatchesLower(u.email, q)
  }

  predicate VideoMatches(v: Video, query: string) {
    var q := Text.ToLower(query);
    || MatchesLower(v.title, q) || MatchesLower(v.description, q)
    || exists k :: 0 <= k < |v.hashtags| && MatchesLower(v.hashtags[k], q)
  }

  /** `searchUsers`: exactly the users whose name, username or email contains
      the query, ignoring ASCII case. */
  function SearchUsers(db: DbState, query: string): (r: seq<User>)
    ensures forall u :: u in r <==> u in db.users && UserMatches(u, query)
  {
    Seqs.Filter(db.users, (u: User) => UserMatches(u, query))
  }

  /** `searchVideos`: exactly the videos whose title, description or some
      hashtag contains the query, ignoring ASCII case. */
  function SearchVideos(db: DbState, query: string): (r: seq<Video>)
    ensures forall v :: v in r <==> v in db.videos && VideoMatches(v, query)
  {
    Seqs.Filter(db.videos, (v: Video) => VideoMatches(v, query))
  }
}

=== FILE: database_laws.dfy ===
/** Properties relating several `DatabaseService` calls: the uniqueness
    invariants account creation keeps, the round trip from registration to
    authentication, idempotence of social sign-in and of marking messages
    read, and referential integrity of owned records. */
module DatabaseLaws {
  import opened Wrappers
  import opened Entities
  import opened Database
  import PasswordHash
  import Seqs

  /** No two users share an email. */
  ghost predicate UniqueEmails(db: DbState) {
    forall i, j :: 0 <= i < j < |db.users| ==> db.users[i].email != db.users[j].email
  }

  /** At most one credential per user id. */
  ghost predicate OneCredentialPerUser(db: DbState) {
    forall i, j :: 0 <= i < j < |db.credentials| ==> db.credentials[i].userId != db.credentials[j].userId
  }

  /** Every video and every live stream names an owner on file. */
  ghost predicate OwnersExist(db: DbState) {
    && (forall v :: v in db.videos ==> exists u :: u in db.users && u.id == v.userId)
    && (forall s :: s in db.liveStreams ==> exists u :: u in db.users && u.id == s.userId)
  }

  /** No credential is recorded for `id` yet (the clock-based id is fresh). */
  ghost predicate FreshCredentialId(db: DbState, id: string) {
    forall c :: c in db.credentials ==> c.userId != id
  }

  /** Creating an account with a supplied email never introduces a duplicate
      email, and with a fresh id never a second credential for one user. */
  lemma {:induction false} CreateUserKeepsUniqueness(db: DbState, input: NewUser, id: string, now: int, hash: Hasher)
    requires input.email.Some?
    requires UniqueEmails(db) && OneCredentialPerUser(db)
    requires FreshCredentialId(db, id)
    ensures UniqueEmails(CreateUser(db, input, id, now, hash).db)
    ensures OneCredentialPerUser(CreateUser(db, input, id, now, hash).db)
  {
    var r := CreateUser(db, input, id, now, hash);
    if r.result.Success? {
      var users := r.db.users;
      forall i, j | 0 <= i < j < |users|
        ensures users[i].email != users[j].email
      {
        if j == |db.users| {
          assert users[i] == db.users[i];
          assert !EmailTaken(db, input.email);
        } else {
          assert users[i] == db.users[i] && users[j] == db.users[j];
        }
      }
      var creds := r.db.credentials;
      forall i, j | 0 <= i < j < |creds|
        ensures creds[i].userId != creds[j].userId
      {
        if j == |db.credentials| {
          assert creds[i] == db.credentials[i];
          assert creds[i] in db.credentials;
        } else {
          assert creds[i] == db.credentials[i] && creds[j] == db.credentials[j];
        }
      }
    }
  }

  /** Registering and then logging in with the same email and password
      returns the new account. */
  lemma {:induction false} RegisterThenAuthenticate(db: DbState, input: NewUser, id: string, now: int, hash: Hasher)
    requires input.email.Some?
    requires !EmailTaken(db, input.email)
    requires FreshCredentialId(db, id)
    ensures CreateUser(db, input, id, now, hash).result.Success?
    ensures AuthenticateUser(CreateUser(db, input, id, now, hash).db, input.email.value, input.password, hash)
            == Some(CreateUser(db, input, id, now, hash).result.value)
  {
    var r := CreateUser(db, input, id, now, hash);
    var u := r.result.value;
    var e := input.email.value;
    assert forall x :: x in db.users ==> x.email != e;
    assert r.db.users[|db.users|] == u;
    var found := GetUserByEmail(r.db, e);
    assert found == Some(u) by {
      assert u in r.db.users;
    }
    var cred := CredentialFor(r.db, id);
    assert cred.Some? && cred.value in r.db.credentials;
    assert cred.value !in db.credentials;
    assert cred.value == r.db.credentials[|db.credentials|];
  }

  /** With the fallback digest, a credential created by social sign-in (empty
      hash) never authenticates with any password. */
  lemma SocialCredentialNeverMatches(db: DbState, profile: SocialProfile, id: string, now: int, password: string)
    requires GetUserByEmail(db, profile.email).None?
    requires FreshCredentialId(db, id)
    ensures AuthenticateUser(SocialSignInOrRegister(db, profile, id, now).db, profile.email, password,
                             PasswordHash.FallbackHash).None?
  {
    var r := SocialSignInOrRegister(db, profile, id, now);
    PasswordHash.FallbackHashNonEmpty(password);
  }

  /** Social sign-in is idempotent: a second call with the same profile
      returns the same account and writes nothing. */
  lemma {:induction false} SocialSignInIdempotent(db: DbState, profile: SocialProfile, id1: string, now1: int,
                                                 id2: string, now2: int)
    ensures var first := SocialSignInOrRegister(db, profile, id1, now1);
            var second := SocialSignInOrRegister(first.db, profile, id2, now2);
            && second.db == first.db
            && second.result == first.result
  {
    var first := SocialSignInOrRegister(db, profile, id1, now1);
    var u := first.result.value;
    var found := GetUserByEmail(first.db, profile.email);
    assert found == Some(u) by {
      if GetUserByEmail(db, profile.email).Some? {
        assert first.db.users == db.users;
      } else {
        assert u == first.db.users[|db.users|];
        assert forall x :: x in db.users ==> x.email != profile.email;
      }
    }
    assert CredentialFor(first.db, u.id).Some? by {
      if GetUserByEmail(db, profile.email).Some? {
        if CredentialFor(db, u.id).None? {
          assert first.db.credentials[|db.credentials|].userId == u.id;
          assert first.db.credentials[|db.credentials|] in first.db.credentials;
        } else {
          assert first.db.credentials == db.credentials;
        }
      } else {
        assert first.db.credentials[|db.credentials|].userId == u.id;
        assert first.db.credentials[|db.credentials|] in first.db.credentials;
      }
    }
  }

  /** Social sign-in with a fresh id keeps at most one credential per user. */
  lemma {:induction false} SocialSignInKeepsOneCredential(db: DbState, profile: SocialProfile, id: string, now: int)
    requires OneCredentialPerUser(db)
    requires FreshCredentialId(db, id)
    ensures OneCredentialPerUser(SocialSignInOrRegister(db, profile, id, now).db)
  {
    var r := SocialSignInOrRegister(db, profile, id, now);
    var creds := r.db.credentials;
    if creds != db.credentials {
      var added := creds[|db.credentials|];
      assert forall c :: c in db.credentials ==> c.userId != added.userId by {
        if GetUserByEmail(db, profile.email).Some? {
          assert CredentialFor(db, r.result.value.id).None?;
        }
      }
      forall i, j | 0 <= i < j < |creds|
        ensures creds[i].userId != creds[j].userId
      {
        if j == |db.credentials| {
          assert creds[i] == db.credentials[i];
          assert creds[i] in db.credentials;
        } else {
          assert creds[i] == db.credentials[i] && creds[j] == db.credentials[j];
        }
      }
    }
  }

  /** Social sign-in never introduces a duplicate email: a known email adds
      no user, a new one adds a user with an email nobody has. */
  lemma {:induction false} SocialSignInKeepsUniqueEmails(db: DbState, profile: SocialProfile, id: string, now: int)
    requires UniqueEmails(db)
    ensures UniqueEmails(SocialSignInOrRegister(db, profile, id, now).db)
  {
    var r := SocialSignInOrRegister(db, profile, id, now);
    if GetUserByEmail(db, profile.email).None? {
      var users := r.db.users;
      forall i, j | 0 <= i < j < |users|
        ensures users[i].email != users[j].email
      {
        if j == |db.users| {
          assert users[i] == db.users[i];
          assert db.users[i] in db.users;
        } else {
          assert users[i] == db.users[i] && users[j] == db.users[j];
        }
      }
    }
  }

  /** An update that supplies no email keeps emails unique: the merged user
      keeps its email and every other user is untouched. */
  lemma {:induction false} UpdateUserKeepsUniqueEmails(db: DbState, id: string, patch: UserPatch, now: int)
    requires UniqueEmails(db)
    requires patch.email.None?
    ensures UniqueEmails(UpdateUser(db, id, patch, now).db)
  {
    var r := UpdateUser(db, id, patch, now);
    if r.result.Success? {
      var k :| 0 <= k < |db.users| && db.users[k].id == id
        && (forall j :: 0 <= j < k ==> db.users[j].id != id)
        && r.result.value == MergeUser(db.users[k], patch, now)
        && r.db.users == db.users[k := r.result.value];
      assert r.result.value.email == db.users[k].email;
      var users := r.db.users;
      forall i, j | 0 <= i < j < |users|
        ensures users[i].email != users[j].email
      {
        assert users[i].email == db.users[i].email && users[j].email == db.users[j].email;
      }
    }
  }

  /** Under the uniqueness invariants, authentication succeeds exactly when
      some account has the email and its credential matches the password. */
  lemma {:induction false} AuthenticateExactly(db: DbState, email: string, password: string, hash: Hasher)
    requires UniqueEmails(db) && OneCredentialPerUser(db)
    ensures AuthenticateUser(db, email, password, hash).Some? <==>
      exists i, j :: 0 <= i < |db.users| && 0 <= j < |db.credentials|
        && db.users[i].email == email && db.credentials[j].userId == db.users[i].id
        && db.credentials[j].passwordHash == hash(password)
  {
    var r := AuthenticateUser(db, email, password, hash);
    if r.Some? {
      var u := r.value;
      var c :| c in db.credentials && c.userId == u.id && c.passwordHash == hash(password);
      var i :| 0 <= i < |db.users| && db.users[i] == u;
      var j :| 0 <= j < |db.credentials| && db.credentials[j] == c;
      assert db.users[i].email == email;
    }
    forall i, j | 0 <= i < |db.users| && 0 <= j < |db.credentials|
        && db.users[i].email == email && db.credentials[j].userId == db.users[i].id
        && db.credentials[j].passwordHash == hash(password)
      ensures r.Some?
    {
      AuthenticateFindsMatch(db, email, password, hash, i, j);
    }
  }

  /** A matching account and credential are found by authentication. */
  lemma AuthenticateFindsMatch(db: DbState, email: string, password: string, hash: Hasher, i: nat, j: nat)
    requires UniqueEmails(db) && OneCredentialPerUser(db)
    requires i < |db.users| && j < |db.credentials|
    requires db.users[i].email == email && db.credentials[j].userId == db.users[i].id
    requires db.credentials[j].passwordHash == hash(password)
    ensures AuthenticateUser(db, email, password, hash) == Some(db.users[i])
  {
    var found := GetUserByEmail(db, email);
    assert db.users[i] in db.users;
    var k :| 0 <= k < |db.users| && db.users[k] == found.value
             && forall k' :: 0 <= k' < k ==> db.users[k'].email != email;
    assert k == i;
    var cred := CredentialFor(db, db.users[i].id);
    assert db.credentials[j] in db.credentials;
    var l :| 0 <= l < |db.credentials| && db.credentials[l] == cred.value;
    assert l == j;
  }

  /** Creating a video or live stream keeps every owned record pointing at a
      user on file. */
  lemma CreateVideoKeepsOwners(db: DbState, input: NewVideo, id: string, now: int)
    requires OwnersExist(db)
    ensures OwnersExist(CreateVideo(db, input, id, now).db)
  {
    var r := CreateVideo(db, input, id, now);
    if r.result.Success? {
      assert r.result.value.user in db.users;
    }
  }

  lemma CreateLiveStreamKeepsOwners(db: DbState, input: NewLiveStream, id: string, now: int)
    requires OwnersExist(db)
    ensures OwnersExist(CreateLiveStream(db, input, id, now).db)
  {
    var r := CreateLiveStream(db, input, id, now);
    if r.result.Success? {
      assert r.result.value.user in db.users;
    }
  }

  /** A created live stream is listed among the active ones. */
  lemma CreatedStreamIsActive(db: DbState, input: NewLiveStream, id: string, now: int)
    requires CreateLiveStream(db, input, id, now).result.Success?
    ensures var r := CreateLiveStream(db, input, id, now);
            r.result.value in GetActiveLiveStreams(r.db)
  {
  }

  /** A sent message is listed by its chat. */
  lemma CreatedMessageIsListed(db: DbState, input: NewMessage, id: string, now: int)
    ensures var r := CreateMessage(db, input, id, now);
            r.result.value in GetChatMessages(r.db, input.chatId)
  {
  }

  /** A created chat is listed for each of its participants. */
  lemma CreatedChatIsListed(db: DbState, participants: seq<string>, id: string, now: int, p: string)
    requires p in participants
    ensures var r := CreateChat(db, participants, id, now);
            r.result.value in GetUserChats(r.db, p)
  {
  }

  /** Marking read twice is the same as marking read once. */
  lemma MarkMessagesAsReadIdempotent(db: DbState, chatId: string, reader: string)
    ensures MarkMessagesAsRead(MarkMessagesAsRead(db, chatId, reader), chatId, reader)
            == MarkMessagesAsRead(db, chatId, reader)
  {
    var once := MarkMessagesAsRead(db, chatId, reader);
    var twice := MarkMessagesAsRead(once, chatId, reader);
    assert twice.messages == once.messages;
  }

  /** Marking read never touches a message the reader sent. */
  lemma MarkReadSparesOwnMessages(db: DbState, chatId: string, reader: string, i: int)
    requires 0 <= i < |db.messages| && db.messages[i].senderId == reader
    ensures MarkMessagesAsRead(db, chatId, reader).messages[i] == db.messages[i]
  {
  }

  /** Chats in the store never carry a cached last message: `createMessage`
      does not update the chat record, only the in-memory messaging store
      does. */
  ghost predicate NoStoredLastMessage(db: DbState) {
    forall c :: c in db.chats ==> c.lastMessage.None?
  }

  lemma ChatLastMessageNeverStored(db: DbState, participants: seq<string>, chatId: string, input: NewMessage,
                                   msgId: string, now: int)
    requires NoStoredLastMessage(db)
    ensures var afterChat := CreateChat(db, participants, chatId, now).db;
            var afterSend := CreateMessage(afterChat, input, msgId, now).db;
            && NoStoredLastMessage(afterSend)
            && forall c :: c in GetUserChats(afterSend, input.senderId) ==> c.lastMessage.None?
  {
  }

  /** Updating a user twice with the same patch and time equals updating once,
      as long as the patch does not rename the user. */
  lemma {:induction false} UpdateUserIdempotent(db: DbState, id: string, patch: UserPatch, now: int)
    requires patch.id.None? || patch.id.value == id
    ensures var once := UpdateUser(db, id, patch, now);
            UpdateUser(once.db, id, patch, now).db == once.db
  {
    var p := (u: User) => u.id == id;
    var once := UpdateUser(db, id, patch, now);
    match Seqs.FindIndex(db.users, p)
    case None =>
    case Some(i) =>
      var m := MergeUser(db.users[i], patch, now);
      var users := db.users[i := m];
      assert once.db == db.(users := users);
      assert m.id == id;
      assert Seqs.FindIndex(users, p) == Some(i) by {
        var k := Seqs.FindIndex(users, p);
        assert k.Some? by { assert users[i] in users; }
        assert forall j :: 0 <= j < i ==> users[j] == db.users[j];
      }
      MergeUserIdempotent(db.users[i], patch, now);
      assert users[i := MergeUser(m, patch, now)] == users;
  }

  /** Saving two batches one after the other stores the same items, in the
      same order, as saving them in one call. */
  lemma SaveMediaItemsInBatches(db: DbState, a: seq<NewMedia>, idsA: seq<string>, b: seq<NewMedia>,
                                idsB: seq<string>, now: int)
    requires |idsA| == |a| && |idsB| == |b|
    ensures SaveMediaItems(SaveMediaItems(db, a, idsA, now), b, idsB, now)
         == SaveMediaItems(db, a + b, idsA + idsB, now)
  {
    var twice := SaveMediaItems(SaveMediaItems(db, a, idsA, now), b, idsB, now);
    var once := SaveMediaItems(db, a + b, idsA + idsB, now);
    assert |twice.media| == |once.media|;
    forall k | 0 <= k < |once.media|
      ensures twice.media[k] == once.media[k]
    {
      if |db.media| + |a| <= k {
        var j := k - |db.media| - |a|;
        assert (a + b)[|a| + j] == b[j] && (idsA + idsB)[|a| + j] == idsB[j];
      } else if |db.media| <= k {
        var j := k - |db.media|;
        assert (a + b)[j] == a[j] && (idsA + idsB)[j] == idsA[j];
      }
    }
  }
}

=== FILE: entities.dfy ===
/** The records the data layer stores (types/index.ts and the interfaces at
    the top of lib/database.ts). Dates are integer timestamps; optional
    fields are `Option`s. */
module Entities {
  import opened Wrappers

  datatype Gender = Male | Female | OtherGender

  datatype Visibility = Public | FriendsOnly | Private

  datatype PrivacySettings = PrivacySettings(
    profileVisibility: Visibility,
    bioVisibility: Visibility,
    locationVisibility: Visibility,
    websiteVisibility: Visibility)

  datatype SocialLinks = SocialLinks(
    twitter: Option<string>,
    instagram: Option<string>,
    youtube: Option<string>,
    tiktok: Option<string>,
    linkedin: Option<string>)

  /** `totalViews`, `totalUploads`, `privacySettings` and `socialLinks` are
      declared mandatory in the type but never set when an account is
      created, so at run time they may be absent. */
  datatype User = User(
    id: string,
    username: string,
    name: string,
    email: string,
    phone: Option<string>,
    profilePicture: Option<string>,
    coverPhoto: Option<string>,
    bio: Option<string>,
    website: Option<string>,
    location: Option<string>,
    gender: Gender,
    isVerified: bool,
    isPrivate: bool,
    followers: int,
    following: int,
    totalViews: Option<int>,
    totalUploads: Option<int>,
    pinnedContentId: Option<string>,
    privacySettings: Option<PrivacySettings>,
    socialLinks: Option<SocialLinks>,
    createdAt: int,
    updatedAt: int)

  /** A `Partial<User>`: `Some` for every key the caller supplies. */
  datatype UserPatch = UserPatch(
    id: Option<string>,
    username: Option<string>,
    name: Option<string>,
    email: Option<string>,
    phone: Option<string>,
    profilePicture: Option<string>,
    coverPhoto: Option<string>,
    bio: Option<string>,
    website: Option<string>,
    location: Option<string>,
    gender: Option<Gender>,
    isVerified: Option<bool>,
    isPrivate: Option<bool>,
    followers: Option<int>,
    following: Option<int>,
    totalViews: Option<int>,
    totalUploads: Option<int>,
    pinnedContentId: Option<string>,
    privacySettings: Option<PrivacySettings>,
    socialLinks: Option<SocialLinks>,
    createdAt: Option<int>)

  const EmptyUserPatch := UserPatch(None, None, None, None, None, None, None, None, None, None,
                                    None, None, None, None, None, None, None, None, None, None, None)

  /** A present optional key overrides; an absent one keeps the old value. */
  function Over<T>(current: T, given: Option<T>): T {
    if given.Some? then given.value else current
  }

  function OverOpt<T>(current: Option<T>, given: Option<T>): Option<T> {
    if given.Some? then given else current
  }

  /** The merged value of a field whose patch entry is `given`: the supplied
      value when present, the current one otherwise. */
  predicate Takes<T(==)>(merged: T, current: T, given: Option<T>) {
    && (given.Some? ==> merged == given.value)
    && (given.None? ==> merged == current)
  }

  /** The same for a field that is itself optional. */
  predicate TakesOpt<T(==)>(merged: Option<T>, current: Option<T>, given: Option<T>) {
    && (given.Some? ==> merged == given)
    && (given.None? ==> merged == current)
  }

  /** `{ ...user, ...patch, updatedAt: now }`. */
  function MergeUser(u: User, p: UserPatch, now: int): (r: User)
    ensures r.updatedAt == now
    ensures Takes(r.id, u.id, p.id) && Takes(r.username, u.username, p.username)
    ensures Takes(r.name, u.name, p.name) && Takes(r.email, u.email, p.email)
    ensures TakesOpt(r.phone, u.phone, p.phone) && TakesOpt(r.profilePicture, u.profilePicture, p.profilePicture)
    ensures TakesOpt(r.coverPhoto, u.coverPhoto, p.coverPhoto) && TakesOpt(r.bio, u.bio, p.bio)
    ensures TakesOpt(r.website, u.website, p.website) && TakesOpt(r.location, u.location, p.location)
    ensures Takes(r.gender, u.gender, p.gender) && Takes(r.isVerified, u.isVerified, p.isVerified)
    ensures Takes(r.isPrivate, u.isPrivate, p.isPrivate)
    ensures Takes(r.followers, u.followers, p.followers) && Takes(r.following, u.following, p.following)
    ensures TakesOpt(r.totalViews, u.totalViews, p.totalViews)
    ensures TakesOpt(r.totalUploads, u.totalUploads, p.totalUploads)
    ensures TakesOpt(r.pinnedContentId, u.pinnedContentId, p.pinnedContentId)
    ensures TakesOpt(r.privacySettings, u.privacySettings, p.privacySettings)
    ensures TakesOpt(r.socialLinks, u.socialLinks, p.socialLinks)
    ensures Takes(r.createdAt, u.createdAt, p.createdAt)
  {
    User(
      Over(u.id, p.id), Over(u.username, p.username), Over(u.name, p.name), Over(u.email, p.email),
      OverOpt(u.phone, p.phone), OverOpt(u.profilePicture, p.profilePicture),
      OverOpt(u.coverPhoto, p.coverPhoto), OverOpt(u.bio, p.bio), OverOpt(u.website, p.website),
      OverOpt(u.location, p.location), Over(u.gender, p.gender), Over(u.isVerified, p.isVerified),
      Over(u.isPrivate, p.isPrivate), Over(u.followers, p.followers), Over(u.following, p.following),
      OverOpt(u.totalViews, p.totalViews), OverOpt(u.totalUploads, p.totalUploads),
      OverOpt(u.pinnedContentId, p.pinnedContentId), OverOpt(u.privacySettings, p.privacySettings),
      OverOpt(u.socialLinks, p.socialLinks), Over(u.createdAt, p.createdAt), now)
  }

  /** Merging the same patch twice is the same as merging it once. */
  lemma MergeUserIdempotent(u: User, p: UserPatch, now: int)
    ensures MergeUser(MergeUser(u, p, now), p, now) == MergeUser(u, p, now)
  {
  }

  /** An empty patch only refreshes the modification time. */
  lemma MergeUserEmpty(u: User, now: int)
    ensures MergeUser(u, EmptyUserPatch, now) == u.(updatedAt := now)
  {
  }

  datatype Video = Video(
    id: string,
    userId: string,
    user: User,
    title: string,
    description: string,
    url: string,
    thumbnailUrl: string,
    duration: int,
    views: int,
    likes: int,
    comments: int,
    shares: int,
    isShort: bool,
    hashtags: seq<string>,
    createdAt: int,
    updatedAt: int)

  /** A `Partial<Video>`. */
  datatype VideoPatch = VideoPatch(
    id: Option<string>,
    userId: Option<string>,
    user: Option<User>,
    title: Option<string>,
    description: Option<string>,
    url: Option<string>,
    thumbnailUrl: Option<string>,
    duration: Option<int>,
    views: Option<int>,
    likes: Option<int>,
    comments: Option<int>,
    shares: Option<int>,
    isShort: Option<bool>,
    hashtags: Option<seq<string>>,
    createdAt: Option<int>)

  /** `{ ...video, ...patch, updatedAt: now }`. */
  function MergeVideo(v: Video, p: VideoPatch, now: int): (r: Video)
    ensures r.updatedAt == now
    ensures Takes(r.id, v.id, p.id) && Takes(r.userId, v.userId, p.userId) && Takes(r.user, v.user, p.user)
    ensures Takes(r.title, v.title, p.title) && Takes(r.description, v.description, p.description)
    ensures Takes(r.url, v.url, p.url) && Takes(r.thumbnailUrl, v.thumbnailUrl, p.thumbnailUrl)
    ensures Takes(r.duration, v.duration, p.duration) && Takes(r.views, v.views, p.views)
    ensures Takes(r.likes, v.likes, p.likes) && Takes(r.comments, v.comments, p.comments)
    ensures Takes(r.shares, v.shares, p.shares) && Takes(r.isShort, v.isShort, p.isShort)
    ensures Takes(r.hashtags, v.hashtags, p.hashtags) && Takes(r.createdAt, v.createdAt, p.createdAt)
  {
    Video(
      Over(v.id, p.id), Over(v.userId, p.userId), Over(v.user, p.user), Over(v.title, p.title),
      Over(v.description, p.description), Over(v.url, p.url), Over(v.thumbnailUrl, p.thumbnailUrl),
      Over(v.duration, p.duration), Over(v.views, p.views), Over(v.likes, p.likes),
      Over(v.comments, p.comments), Over(v.shares, p.shares), Over(v.isShort, p.isShort),
      Over(v.hashtags, p.hashtags), Over(v.createdAt, p.createdAt), now)
  }

  lemma MergeVideoIdempotent(v: Video, p: VideoPatch, now: int)
    ensures MergeVideo(MergeVideo(v, p, now), p, now) == MergeVideo(v, p, now)
  {
  }

  datatype MessageKind = TextMessage | ImageMessage | VideoMessage | VoiceMessage

  datatype Message = Message(
    id: string,
    chatId: string,
    senderId: string,
    content: string,
    kind: MessageKind,
    timestamp: int,
    isRead: bool)

  datatype Chat = Chat(
    id: string,
    participants: seq<string>,
    lastMessage: Option<Message>,
    createdAt: int,
    updatedAt: int)

  datatype Provider = Google | Facebook | Apple | Local

  datatype Credential = Credential(
    userId: string,
    email: string,
    passwordHash: string,
    provider: Provider)

  datatype LiveStream = LiveStream(
    id: string,
    userId: string,
    user: User,
    title: string,
    description: string,
    streamUrl: string,
    viewers: int,
    isActive: bool,
    startedAt: int)

  datatype MediaKind = ImageMedia | GifMedia | StoryMedia

  datatype MediaItem = MediaItem(
    id: string,
    kind: MediaKind,
    url: string,
    userId: string,
    createdAt: int)
}

=== FILE: following.dfy ===
/** The pure logic of the following feed (pages/FollowingPage.tsx): the
    batch selection of posts, grouping posts by creator, the content tabs,
    the quick-reply toggle and the feed of followed creators' videos. The
    page's mock posts, stories and creators are data and are left out; a
    post keeps only the fields this logic reads. */
module Following {
  import opened Wrappers
  import opened Entities
  import Seqs

  datatype PostType = VideoPost | ShortPost | ImagePost | LivePost

  datatype Post = Post(id: string, creatorId: string, kind: PostType, views: int, likes: int)

  /** The tabs of the page; `activeTab` is typed, so no other value occurs. */
  datatype ContentTab = AllTab | VideosTab | ShortsTab | ImagesTab | LiveTab

  /** A followed creator: the feed matches creators by display name. */
  datatype FollowedUser = FollowedUser(id: string, name: string, isLive: bool, notifications: bool)

  /** The selection and the batch-actions bar. */
  datatype Batch = Batch(selected: seq<string>, showBatchActions: bool)

  // ---- selection -------------------------------------------------------------

  /** `togglePostSelection`: removes the id when selected, appends it otherwise. */
  function TogglePostSelection(selected: seq<string>, postId: string): (r: seq<string>)
    ensures postId in selected ==> postId !in r && forall x :: x != postId ==> (x in r <==> x in selected)
    ensures postId !in selected ==> r == selected + [postId]
  {
    if postId in selected then Seqs.Filter(selected, (x: string) => x != postId) else selected + [postId]
  }

  /** No id is selected twice. */
  ghost predicate Distinct(s: seq<string>) {
    forall x :: multiset(s)[x] <= 1
  }

  /** Toggling keeps the selection free of duplicates. */
  lemma ToggleKeepsDistinct(selected: seq<string>, postId: string)
    requires Distinct(selected)
    ensures Distinct(TogglePostSelection(selected, postId))
  {
    var r := TogglePostSelection(selected, postId);
    forall x
      ensures multiset(r)[x] <= 1
    {
      if postId in selected {
        Seqs.FilterMultiset(selected, (y: string) => y != postId, x);
      } else {
        assert multiset(r) == multiset(selected) + multiset{postId};
        assert multiset(selected)[postId] == 0;
      }
    }
  }

  /** Toggling an unselected post twice restores the selection exactly. */
  lemma ToggleTwiceRestores(selected: seq<string>, postId: string)
    requires postId !in selected
    ensures TogglePostSelection(TogglePostSelection(selected, postId), postId) == selected
  {
    var once := selected + [postId];
    Seqs.FilterAppend(selected, [postId], (x: string) => x != postId);
    Seqs.FilterAll(selected, (x: string) => x != postId);
  }

  /** Toggling a selected post twice selects the same posts, now with that
      post last. */
  lemma ToggleTwiceMovesLast(selected: seq<string>, postId: string)
    requires postId in selected
    ensures var r := TogglePostSelection(TogglePostSelection(selected, postId), postId);
            && (forall x :: x in r <==> x in selected)
            && r[|r| - 1] == postId
  {
  }

  /** `markAllAsRead`: clears the selection and hides the batch bar. */
  function MarkAllAsRead(b: Batch): (r: Batch)
    ensures r.selected == [] && !r.showBatchActions
  {
    Batch([], false)
  }

  /** `muteNotifications`: clears the selection and hides the batch bar. */
  function MuteNotifications(b: Batch): (r: Batch)
    ensures r.selected == [] && !r.showBatchActions
  {
    Batch([], false)
  }

  /** After a batch action the next toggle starts a fresh selection. */
  lemma BatchActionThenToggle(b: Batch, postId: string)
    ensures TogglePostSelection(MarkAllAsRead(b).selected, postId) == [postId]
    ensures TogglePostSelection(MuteNotifications(b).selected, postId) == [postId]
  {
  }

  // ---- grouping --------------------------------------------------------------

  function GroupOf(g: map<string, seq<Post>>, creatorId: string): seq<Post> {
    if creatorId in g then g[creatorId] else []
  }

  function PostsBy(posts: seq<Post>, creatorId: string): (r: seq<Post>)
    ensures forall p :: p in r <==> p in posts && p.creatorId == creatorId
  {
    Seqs.Filter(posts, (p: Post) => p.creatorId == creatorId)
  }

  /** `g` holds one group per creator of the posts, each the creator's
      posts in order. */
  ghost predicate GroupsOf(g: map<string, seq<Post>>, posts: seq<Post>) {
    && (forall c :: c in g <==> exists p :: p in posts && p.creatorId == c)
    && (forall c :: c in g ==> g[c] == PostsBy(posts, c))
  }

  /** The `reduce` that groups the posts by `creatorId`, pushing each post
      onto its creator's list in order. */
  function GroupByCreator(posts: seq<Post>): (r: map<string, seq<Post>>)
    ensures forall c :: c in r <==> exists p :: p in posts && p.creatorId == c
    ensures forall c :: c in r ==> r[c] == PostsBy(posts, c)
    decreases |posts|
  {
    if |posts| == 0 then map[]
    else
      var init := posts[..|posts| - 1];
      var last := posts[|posts| - 1];
      var g := GroupByCreator(init);
      assert posts == init + [last];
      GroupPush(g, init, last);
      g[last.creatorId := GroupOf(g, last.creatorId) + [last]]
  }

  lemma NoneBy(posts: seq<Post>, c: string)
    requires forall p :: p in posts ==> p.creatorId != c
    ensures PostsBy(posts, c) == []
  {
    Seqs.FilterNone(posts, (p: Post) => p.creatorId == c);
  }

  /** Pushing one more post onto its creator's group keeps the grouping. */
  lemma GroupPush(g: map<string, seq<Post>>, init: seq<Post>, last: Post)
    requires GroupsOf(g, init)
    ensures GroupsOf(g[last.creatorId := GroupOf(g, last.creatorId) + [last]], init + [last])
  {
    var posts := init + [last];
    var r := g[last.creatorId := GroupOf(g, last.creatorId) + [last]];
    forall c | c in r
      ensures r[c] == PostsBy(posts, c)
    {
      Seqs.FilterAppend(init, [last], (p: Post) => p.creatorId == c);
      if c !in g {
        NoneBy(init, c);
      }
    }
    forall c | exists p :: p in posts && p.creatorId == c
      ensures c in r
    {
      var p :| p in posts && p.creatorId == c;
      if p != last {
        assert p in init;
      }
    }
  }

  /** The creators of the posts, once each, in order of first post. */
  function Creators(posts: seq<Post>): (r: seq<string>)
    ensures forall c :: c in r <==> exists p :: p in posts && p.creatorId == c
    ensures forall i, j :: 0 <= i < j < |r| ==> r[i] != r[j]
    decreases |posts|
  {
    if |posts| == 0 then []
    else
      var init := posts[..|posts| - 1];
      var last := posts[|posts| - 1];
      var cs := Creators(init);
      assert posts == init + [last];
      assert forall p :: p in init ==> p in posts;
      if last.creatorId in cs then cs else cs + [last.creatorId]
  }

  /** Total size of the groups listed in `keys`. */
  function SizeSum(g: map<string, seq<Post>>, keys: seq<string>): nat {
    if |keys| == 0 then 0 else |GroupOf(g, keys[0])| + SizeSum(g, keys[1..])
  }

  lemma {:induction false} SizeSumAppend(g: map<string, seq<Post>>, a: seq<string>, c: string)
    ensures SizeSum(g, a + [c]) == SizeSum(g, a) + |GroupOf(g, c)|
  {
    if |a| > 0 {
      assert (a + [c])[1..] == a[1..] + [c];
      SizeSumAppend(g, a[1..], c);
    }
  }

  lemma {:induction false} SizeSumAgree(g: map<string, seq<Post>>, h: map<string, seq<Post>>, keys: seq<string>)
    requires forall k :: k in keys ==> GroupOf(g, k) == GroupOf(h, k)
    ensures SizeSum(g, keys) == SizeSum(h, keys)
  {
    if |keys| > 0 {
      assert keys[0] in keys;
      assert forall k :: k in keys[1..] ==> k in keys;
      SizeSumAgree(g, h, keys[1..]);
    }
  }

  lemma {:induction false} SizeSumBump(g: map<string, seq<Post>>, keys: seq<string>, c: string, x: Post)
    requires c in keys
    requires forall i, j :: 0 <= i < j < |keys| ==> keys[i] != keys[j]
    ensures SizeSum(g[c := GroupOf(g, c) + [x]], keys) == SizeSum(g, keys) + 1
  {
    var h := g[c := GroupOf(g, c) + [x]];
    if keys[0] == c {
      assert forall k :: k in keys[1..] ==> k != c by {
        forall k | k in keys[1..]
          ensures k != c
        {
          var j :| 0 <= j < |keys[1..]| && keys[1..][j] == k;
          assert keys[j + 1] == k;
        }
      }
      SizeSumAgree(g, h, keys[1..]);
    } else {
      SizeSumBump(g, keys[1..], c, x);
    }
  }

  /** The group sizes add up to the number of posts. */
  lemma {:induction false} GroupSizesSumToPosts(posts: seq<Post>)
    ensures SizeSum(GroupByCreator(posts), Creators(posts)) == |posts|
    decreases |posts|
  {
    if |posts| > 0 {
      var init := posts[..|posts| - 1];
      var last := posts[|posts| - 1];
      var g := GroupByCreator(init);
      var cs := Creators(init);
      var h := g[last.creatorId := GroupOf(g, last.creatorId) + [last]];
      GroupSizesSumToPosts(init);
      if last.creatorId in cs {
        SizeSumBump(g, cs, last.creatorId, last);
      } else {
        SizeSumAppend(h, cs, last.creatorId);
        SizeSumAgree(g, h, cs);
        assert last.creatorId !in g;
      }
    }
  }

  // ---- tabs and feeds ----------------------------------------------------------

  /** The post type a tab shows; `None` for the 'all' tab. */
  function TabType(tab: ContentTab): (r: Option<PostType>)
    ensures r.None? <==> tab == AllTab
  {
    match tab
    case AllTab => None
    case VideosTab => Some(VideoPost)
    case ShortsTab => Some(ShortPost)
    case ImagesTab => Some(ImagePost)
    case LiveTab => Some(LivePost)
  }

  /** `filteredPosts`: every post on 'all', else the posts of the tab's type. */
  function FilterPosts(posts: seq<Post>, tab: ContentTab): (r: seq<Post>)
    ensures tab == AllTab ==> r == posts
    ensures tab != AllTab ==> forall p :: p in r <==> p in posts && Some(p.kind) == TabType(tab)
  {
    if tab == AllTab then posts else Seqs.Filter(posts, (p: Post) => Some(p.kind) == TabType(tab))
  }

  /** The four typed tabs split the posts: each post shows on exactly one. */
  lemma TabsPartitionPosts(posts: seq<Post>, p: Post)
    requires p in posts
    ensures p in FilterPosts(posts, VideosTab) || p in FilterPosts(posts, ShortsTab)
         || p in FilterPosts(posts, ImagesTab) || p in FilterPosts(posts, LiveTab)
    ensures forall t, u ::
              t != AllTab && u != AllTab && p in FilterPosts(posts, t) && p in FilterPosts(posts, u) ==> t == u
  {
    match p.kind
    case VideoPost => assert p in FilterPosts(posts, VideosTab);
    case ShortPost => assert p in FilterPosts(posts, ShortsTab);
    case ImagePost => assert p in FilterPosts(posts, ImagesTab);
    case LivePost => assert p in FilterPosts(posts, LiveTab);
  }

  /** True when some followed user has the uploader's display name. */
  predicate Followed(following: seq<FollowedUser>, v: Video) {
    Seqs.Any(following, (f: FollowedUser) => f.name == v.user.name)
  }

  /** `followingVideos`: the videos whose uploader's name is a followed
      user's name. */
  function FollowingVideos(videos: seq<Video>, following: seq<FollowedUser>): (r: seq<Video>)
    ensures forall v :: v in r <==> v in videos && exists f :: f in following && f.name == v.user.name
  {
    Seqs.Filter(videos, (v: Video) => Followed(following, v))
  }

  /** Following more users never hides a video. */
  lemma FollowingMoreShowsMore(videos: seq<Video>, following: seq<FollowedUser>, more: seq<FollowedUser>)
    requires forall f :: f in following ==> f in more
    ensures forall v :: v in FollowingVideos(videos, following) ==> v in FollowingVideos(videos, more)
  {
  }

  /** `openQuickReply`: opens the reply box of a post, or closes it when it
      is already that post's. */
  function OpenQuickReply(open: Option<string>, postId: string): (r: Option<string>)
    ensures r.Some? <==> open != Some(postId)
    ensures r.Some? ==> r.value == postId
  {
    if open == Some(postId) then None else Some(postId)
  }

  /** Clicking the same post twice from a closed box closes it again. */
  lemma QuickReplyTwiceCloses(postId: string)
    ensures OpenQuickReply(OpenQuickReply(None, postId), postId) == None
  {
  }
}

=== FILE: messaging_store.dfy ===
/** The messaging store (hooks/useMessaging.ts): the user's chats, the open
    chat and its messages. The signed-in user, which the source reads from
    the authentication store, is a parameter. Deleting a message and
    blocking a user only change this in-memory state. */
module MessagingStore {
  import opened Wrappers
  import opened Entities
  import Seqs
  import Database
  import StoredDates

  datatype MsgState = MsgState(chats: seq<Chat>, currentChat: Option<Chat>, messages: seq<Message>,
                               isLoading: bool, error: Option<string>)

  const InitialMessaging := MsgState([], None, [], false, None)

  datatype MsgStep = MsgStep(state: MsgState, db: Database.DbState)

  /** `fetchChats`: without a signed-in user the error "Failed to fetch
      chats" is set; otherwise the chats become the user's stored chats. */
  function FetchChats(s: MsgState, db: Database.DbState, user: Option<User>): (r: MsgStep)
    ensures r.db == db && !r.state.isLoading
    ensures user.None? ==> r.state == s.(isLoading := false, error := Some("Failed to fetch chats"))
    ensures user.Some? ==>
      && r.state.error.None?
      && (forall c :: c in r.state.chats <==> c in db.chats && user.value.id in c.participants)
      && r.state.messages == s.messages && r.state.currentChat == s.currentChat
  {
    var pending := s.(isLoading := true, error := None);
    match user
    case None => MsgStep(pending.(error := Some("Failed to fetch chats"), isLoading := false), db)
    case Some(u) => MsgStep(pending.(chats := Database.GetUserChats(db, u.id), isLoading := false), db)
  }

  /** `createChat` also returns the chat, or rethrows. */
  datatype ChatCreation = ChatCreation(state: MsgState, db: Database.DbState, result: Result<Chat, string>)

  /** `createChat(ids)`: the signed-in user followed by `ids` become the
      participants of a new stored chat, which is put first in the list. */
  function CreateChat(s: MsgState, db: Database.DbState, user: Option<User>, participantIds: seq<string>,
                      chatId: string, now: int): (r: ChatCreation)
    ensures user.None? ==>
      && r.result.Failure? && r.db == db
      && r.state == s.(error := Some("Failed to create chat"))
    ensures user.Some? ==>
      && r.result.Success?
      && r.result.value.participants == [user.value.id] + participantIds
      && r.result.value.id == chatId && r.result.value.lastMessage.None?
      && r.state == s.(chats := [r.result.value] + s.chats)
      && r.db == db.(chats := db.chats + [r.result.value])
  {
    match user
    case None => ChatCreation(s.(error := Some("Failed to create chat")), db, Failure("User not authenticated"))
    case Some(u) =>
      var step := Database.CreateChat(db, [u.id] + participantIds, chatId, now);
      var c := step.result.value;
      ChatCreation(s.(chats := [c] + s.chats), step.db, Success(c))
  }

  /** True when the open chat is the one with this id. */
  predicate IsOpen(s: MsgState, chatId: string) {
    s.currentChat.Some? && s.currentChat.value.id == chatId
  }

  /** `sendMessage`: stores the message, shows it only when its chat is the
      open one, and caches it as the last message of the chats with that id.
      The clock is read twice: `now` stamps the stored message and
      `chatUpdatedAt` the cached chats. */
  function SendMessage(s: MsgState, db: Database.DbState, user: Option<User>, chatId: string, content: string,
                       kind: MessageKind, messageId: string, now: int, chatUpdatedAt: int): (r: MsgStep)
    ensures user.None? ==> r == MsgStep(s.(error := Some("Failed to send message")), db)
    ensures user.Some? ==>
      var m := Message(messageId, chatId, user.value.id, content, kind, now, false);
      && r.db == db.(messages := db.messages + [m])
      && (IsOpen(s, chatId) ==> r.state.messages == s.messages + [m])
      && (!IsOpen(s, chatId) ==> r.state.messages == s.messages)
      && |r.state.chats| == |s.chats|
      && (forall i :: 0 <= i < |s.chats| ==>
            if s.chats[i].id == chatId
            then r.state.chats[i] == s.chats[i].(lastMessage := Some(m), updatedAt := chatUpdatedAt)
            else r.state.chats[i] == s.chats[i])
      && r.state.currentChat == s.currentChat && r.state.error == s.error
  {
    match user
    case None => MsgStep(s.(error := Some("Failed to send message")), db)
    case Some(u) =>
      var step := Database.CreateMessage(db, Database.NewMessage(chatId, u.id, content, kind), messageId, now);
      var m := step.result.value;
      var shown := if IsOpen(s, chatId) then s.messages + [m] else s.messages;
      var chats := Seqs.MapWhere(s.chats, (c: Chat) => c.id == chatId,
                                 (c: Chat) => c.(lastMessage := Some(m), updatedAt := chatUpdatedAt));
      MsgStep(s.(messages := shown, chats := chats), step.db)
  }

  /** The per-message update of the local mirror. */
  function ReadLocally(m: Message, chatId: string, reader: string): Message {
    if m.chatId == chatId && m.senderId != reader then m.(isRead := true) else m
  }

  /** `markMessagesAsRead`: nothing without a signed-in user; otherwise the
      stored messages are marked and the same marks are mirrored locally on
      the chat's messages the user did not send. */
  function MarkMessagesAsRead(s: MsgState, db: Database.DbState, user: Option<User>, chatId: string): (r: MsgStep)
    ensures user.None? ==> r == MsgStep(s, db)
    ensures user.Some? ==>
      && r.db == Database.MarkMessagesAsRead(db, chatId, user.value.id)
      && |r.state.messages| == |s.messages|
      && (forall i :: 0 <= i < |s.messages| ==>
            if s.messages[i].chatId == chatId && s.messages[i].senderId != user.value.id
            then r.state.messages[i] == s.messages[i].(isRead := true)
            else r.state.messages[i] == s.messages[i])
      && r.state == s.(messages := r.state.messages)
  {
    match user
    case None => MsgStep(s, db)
    case Some(u) =>
      var marked := Seqs.MapWhere(s.messages, (m: Message) => m.chatId == chatId && m.senderId != u.id,
                                  (m: Message) => m.(isRead := true));
      MsgStep(s.(messages := marked), Database.MarkMessagesAsRead(db, chatId, u.id))
  }

  /** `fetchMessages`: loads the chat's stored messages, opens the chat found
      in the list (or none), then marks the chat read. */
  function FetchMessages(s: MsgState, db: Database.DbState, user: Option<User>, chatId: string): (r: MsgStep)
    ensures !r.state.isLoading && r.state.error.None?
    ensures r.state.chats == s.chats
    ensures r.state.currentChat.Some? <==> exists c :: c in s.chats && c.id == chatId
    ensures r.state.currentChat.Some? ==>
              r.state.currentChat.value in s.chats && r.state.currentChat.value.id == chatId
    ensures Database.OldestFirst(r.state.messages)
    ensures user.None? ==> r.db == db && r.state.messages == Database.GetChatMessages(db, chatId)
    ensures user.Some? ==>
      var loaded := Database.GetChatMessages(db, chatId);
      && r.db == Database.MarkMessagesAsRead(db, chatId, user.value.id)
      && |r.state.messages| == |loaded|
      && forall i :: 0 <= i < |loaded| ==>
           r.state.messages[i] == ReadLocally(loaded[i], chatId, user.value.id)
  {
    var loaded := s.(isLoading := false, error := None,
                     messages := Database.GetChatMessages(db, chatId),
                     currentChat := Seqs.Find(s.chats, (c: Chat) => c.id == chatId));
    var step := MarkMessagesAsRead(loaded, db, user, chatId);
    if user.Some? then
      MirroredReadsAreLocal(loaded.messages, step.state.messages, chatId, user.value.id);
      step
    else
      step
  }

  const FetchMessagesFailed := "Failed to fetch messages"

  /** `fetchMessages` over the read as written: `getChatMessages` throws for
      a chat with two or more stored messages, because the stored timestamps
      are text. The catch then reports "Failed to fetch messages" and clears
      the loading flag; the old messages, the open chat and the database stay
      as they were, since `markMessagesAsRead` is never reached. Below two
      messages the read succeeds and the outcome is that of `FetchMessages`. */
  function FetchMessagesAsWritten(s: MsgState, db: Database.DbState, user: Option<User>, chatId: string): (r: MsgStep)
    ensures |Database.GetChatMessages(db, chatId)| >= 2 <==> r.state.error == Some(FetchMessagesFailed)
    ensures |Database.GetChatMessages(db, chatId)| >= 2 ==>
      && r.db == db
      && r.state == s.(isLoading := false, error := Some(FetchMessagesFailed))
    ensures |Database.GetChatMessages(db, chatId)| < 2 ==> r == FetchMessages(s, db, user, chatId)
  {
    match StoredDates.GetChatMessagesAsWritten(db, chatId)
    case Failure(_) => MsgStep(s.(isLoading := false, error := Some(FetchMessagesFailed)), db)
    case Success(_) => FetchMessages(s, db, user, chatId)  // the read returned the corrected list
  }

  /** Two messages in one chat: as written, opening the chat reports the
      error and leaves the other participant's message unread in storage,
      where the corrected read opens the chat and marks it read. */
  lemma TwoMessagesStopFetchMessages(s: MsgState, u: User)
    requires u.id == "u1"
    ensures var m1 := Message("m1", "c", "u1", "hi", TextMessage, 5, false);
            var m2 := Message("m2", "c", "u2", "yo", TextMessage, 9, false);
            var db := Database.EmptyDb.(messages := [m2, m1]);
            var r := FetchMessagesAsWritten(s, db, Some(u), "c");
            && r.state.error == Some(FetchMessagesFailed)
            && r.state.messages == s.messages
            && !r.db.messages[0].isRead
            && FetchMessages(s, db, Some(u), "c").state.error.None?
            && FetchMessages(s, db, Some(u), "c").db.messages[0].isRead
  {
    var m1 := Message("m1", "c", "u1", "hi", TextMessage, 5, false);
    var m2 := Message("m2", "c", "u2", "yo", TextMessage, 9, false);
    var db := Database.EmptyDb.(messages := [m2, m1]);
    StoredDates.TwoChatMessagesSorted(m1, m2, db);
    var r := FetchMessagesAsWritten(s, db, Some(u), "c");
    assert r.db == db;
    var fixed := FetchMessages(s, db, Some(u), "c");
    assert fixed.db == Database.MarkMessagesAsRead(db, "c", "u1");
    assert fixed.db.messages[0] == m2.(isRead := true);
  }

  /** The mirrored marks are `ReadLocally` applied message by message, and
      since they touch no timestamp they keep the chat's order. */
  lemma MirroredReadsAreLocal(before: seq<Message>, after: seq<Message>, chatId: string, reader: string)
    requires Database.OldestFirst(before)
    requires |after| == |before|
    requires forall i :: 0 <= i < |before| ==>
      if before[i].chatId == chatId && before[i].senderId != reader
      then after[i] == before[i].(isRead := true)
      else after[i] == before[i]
    ensures forall i :: 0 <= i < |before| ==> after[i] == ReadLocally(before[i], chatId, reader)
    ensures Database.OldestFirst(after)
  {
  }

  /** `deleteMessage`: drops exactly the messages with the id from the view. */
  function DeleteMessage(s: MsgState, messageId: string): (r: MsgState)
    ensures forall m :: m in r.messages <==> m in s.messages && m.id != messageId
    ensures r == s.(messages := r.messages)
  {
    s.(messages := Seqs.Filter(s.messages, (m: Message) => m.id != messageId))
  }

  /** `blockUser`: drops exactly the chats the user takes part in. */
  function BlockUser(s: MsgState, userId: string): (r: MsgState)
    ensures forall c :: c in r.chats <==> c in s.chats && userId !in c.participants
    ensures r == s.(chats := r.chats)
  {
    s.(chats := Seqs.Filter(s.chats, (c: Chat) => userId !in c.participants))
  }

  // ---- laws ------------------------------------------------------------------

  /** The stored and mirrored read marks agree on every message: the store's
      extra "not yet read" guard never changes the outcome. */
  lemma MirrorAgreesWithStore(m: Message, chatId: string, reader: string)
    ensures ReadLocally(m, chatId, reader) == Database.ReadByStored(m, chatId, reader)
  {
  }

  /** Marking a sub-list and marking the whole list agree: the marked
      sub-list holds exactly the marked messages of the chat. */
  lemma {:induction false} MarkedMembership(chatMessages: seq<Message>, all: seq<Message>, markedChat: seq<Message>,
                                            markedAll: seq<Message>, chatId: string, reader: string)
    requires forall x :: x in chatMessages <==> x in all && x.chatId == chatId
    requires |markedChat| == |chatMessages|
    requires forall i :: 0 <= i < |chatMessages| ==> markedChat[i] == ReadLocally(chatMessages[i], chatId, reader)
    requires |markedAll| == |all|
    requires forall i :: 0 <= i < |all| ==> markedAll[i] == ReadLocally(all[i], chatId, reader)
    ensures forall m :: m in markedChat <==> m in markedAll && m.chatId == chatId
  {
    forall m
      ensures m in markedChat <==> m in markedAll && m.chatId == chatId
    {
      if m in markedChat {
        var i :| 0 <= i < |markedChat| && markedChat[i] == m;
        assert chatMessages[i] in chatMessages;
        var k :| 0 <= k < |all| && all[k] == chatMessages[i];
        assert markedAll[k] == m;
      }
      if m in markedAll && m.chatId == chatId {
        var k :| 0 <= k < |markedAll| && markedAll[k] == m;
        assert all[k] in chatMessages;
        var i :| 0 <= i < |chatMessages| && chatMessages[i] == all[k];
        assert markedChat[i] == m;
      }
    }
  }

  /** After opening a chat as a signed-in user, the view shows exactly the
      stored messages of that chat, read marks included. */
  lemma {:induction false} OpenedChatMirrorsStore(s: MsgState, db: Database.DbState, u: User, chatId: string)
    ensures var r := FetchMessages(s, db, Some(u), chatId);
            forall m :: m in r.state.messages <==> m in r.db.messages && m.chatId == chatId
  {
    var r := FetchMessages(s, db, Some(u), chatId);
    var loaded := Database.GetChatMessages(db, chatId);
    MarkedMembership(loaded, db.messages, r.state.messages, r.db.messages, chatId, u.id);
  }

  /** Deleting is idempotent and keeps the remaining messages in order. */
  lemma DeleteMessageIdempotent(s: MsgState, messageId: string)
    ensures DeleteMessage(DeleteMessage(s, messageId), messageId) == DeleteMessage(s, messageId)
  {
    Seqs.FilterIdempotent(s.messages, (m: Message) => m.id != messageId);
  }

  lemma DeleteMessageKeepsOrder(s: MsgState, messageId: string, before: seq<Message>, after: seq<Message>)
    requires s.messages == before + after
    ensures DeleteMessage(s, messageId).messages
            == DeleteMessage(s.(messages := before), messageId).messages
             + DeleteMessage(s.(messages := after), messageId).messages
  {
    Seqs.FilterAppend(before, after, (m: Message) => m.id != messageId);
  }

  /** Blocking twice is blocking once. */
  lemma BlockUserIdempotent(s: MsgState, userId: string)
    ensures BlockUser(BlockUser(s, userId), userId) == BlockUser(s, userId)
  {
    Seqs.FilterIdempotent(s.chats, (c: Chat) => userId !in c.participants);
  }

  /** Creating a chat with B and sending to it caches the message on the
      chat in this store, while the stored chat B would fetch keeps no last
      message. */
  lemma {:induction false} ChatThenSendScenario(db: Database.DbState, a: User, b: string, chatId: string,
                                                messageId: string, now: int, chatUpdatedAt: int)
    requires forall c :: c in db.chats ==> c.lastMessage.None?
    ensures
      var created := CreateChat(InitialMessaging, db, Some(a), [b], chatId, now);
      var shown := created.state.(currentChat := Some(created.result.value));
      var sent := SendMessage(shown, created.db, Some(a), chatId, "hi", TextMessage, messageId, now, chatUpdatedAt);
      var m := Message(messageId, chatId, a.id, "hi", TextMessage, now, false);
      && sent.state.chats[0].lastMessage == Some(m)
      && b in sent.state.chats[0].participants
      && sent.state.messages == [m]
      && (forall c :: c in Database.GetUserChats(sent.db, b) ==> c.lastMessage.None?)
      && (exists c :: c in Database.GetUserChats(sent.db, b) && c.id == chatId)
  {
    var created := CreateChat(InitialMessaging, db, Some(a), [b], chatId, now);
    var chat := created.result.value;
    var shown := created.state.(currentChat := Some(chat));
    var sent := SendMessage(shown, created.db, Some(a), chatId, "hi", TextMessage, messageId, now, chatUpdatedAt);
    assert chat in sent.db.chats;
    assert b in chat.participants;
  }
}

=== FILE: password_hash.dfy ===
/** The fallback branch of `hashPassword` (lib/database.ts): a 31-multiplier
    rolling hash over the password's UTF-16 code units, kept in the signed
    32-bit range after every step and rendered as a decimal string. The
    wrap-around is written out with ECMAScript's ToInt32 conversion. */
module PasswordHash {
  import Text

  const TwoTo32: int := 0x1_0000_0000
  const TwoTo31: int := 0x8000_0000

  /** ECMAScript ToInt32: the signed 32-bit integer congruent to `x`. */
  function ToInt32(x: int): (r: int)
    ensures -TwoTo31 <= r < TwoTo31
    ensures (x - r) % TwoTo32 == 0
  {
    var m := x % TwoTo32;
    if m >= TwoTo31 then m - TwoTo32 else m
  }

  /** ToInt32 depends only on the residue modulo 2^32. */
  lemma ToInt32Congruent(a: int, b: int)
    requires (a - b) % TwoTo32 == 0
    ensures ToInt32(a) == ToInt32(b)
  {
    var k := (a - b) / TwoTo32;
    assert a == b + k * TwoTo32;
    ModShift(b, k);
  }

  lemma ModShift(b: int, k: int)
    ensures (b + k * TwoTo32) % TwoTo32 == b % TwoTo32
  {
  }

  /** ToInt32 leaves a value already in the signed 32-bit range as it is. */
  lemma ToInt32InRange(x: int)
    requires -TwoTo31 <= x < TwoTo31
    ensures ToInt32(x) == x
  {
    if x < 0 {
      ModShift(x, 1);
      assert (x + TwoTo32) % TwoTo32 == x + TwoTo32;
    }
  }

  /** The UTF-16 code units `charCodeAt` walks through: a character outside
      the Basic Multilingual Plane becomes a surrogate pair. */
  function Utf16(s: string): (r: seq<int>)
    ensures |r| >= |s|
    ensures forall i :: 0 <= i < |r| ==> 0 <= r[i] < 0x1_0000
  {
    if |s| == 0 then []
    else
      var c := s[0] as int;
      var head := if c < 0x1_0000 then [c]
                  else [0xD800 + (c - 0x1_0000) / 0x400, 0xDC00 + (c - 0x1_0000) % 0x400];
      head + Utf16(s[1..])
  }

  /** One loop step: `hash = (hash << 5) - hash + code; hash |= 0`, where
      `<<` itself converts through ToInt32. */
  function Step(hash: int, code: int): int {
    ToInt32(ToInt32(hash * 32) - hash + code)
  }

  /** The hash after folding `Step` over all of `units`, starting from 0. */
  function HashOf(units: seq<int>): (r: int)
    ensures -TwoTo31 <= r < TwoTo31
    decreases |units|
  {
    if |units| == 0 then 0 else Step(HashOf(units[..|units| - 1]), units[|units| - 1])
  }

  /** The loop exactly as the source writes it. */
  method FallbackHashValue(password: string) returns (hash: int)
    ensures hash == HashOf(Utf16(password))
    ensures -TwoTo31 <= hash < TwoTo31
  {
    var units := Utf16(password);
    hash := 0;
    var i := 0;
    while i < |units|
      invariant 0 <= i <= |units|
      invariant hash == HashOf(units[..i])
    {
      assert units[..i + 1][..i] == units[..i];
      hash := Step(hash, units[i]);
      i := i + 1;
    }
    assert units[..i] == units;
  }

  /** The fallback `hashPassword` result: `String(hash)`, a decimal numeral
      that reads back as the 32-bit hash. */
  function FallbackHash(password: string): (r: string)
    ensures Text.IsIntNumeral(r)
    ensures Text.ParseInt(r) == HashOf(Utf16(password))
    ensures -TwoTo31 <= Text.ParseInt(r) < TwoTo31
  {
    Text.ParseIntToString(HashOf(Utf16(password)));
    Text.IntToString(HashOf(Utf16(password)))
  }

  /** The polynomial the rolling hash evaluates: sum of code_i * 31^(n-1-i). */
  function Poly(units: seq<int>): int
    decreases |units|
  {
    if |units| == 0 then 0 else 31 * Poly(units[..|units| - 1]) + units[|units| - 1]
  }

  /** Independent closed form: the wrapped rolling hash is the polynomial
      reduced to the signed 32-bit range, so intermediate wrap-arounds never
      change the final value. */
  lemma {:induction false} HashIsWrappedPolynomial(units: seq<int>)
    ensures HashOf(units) == ToInt32(Poly(units))
    decreases |units|
  {
    if |units| == 0 {
      ToInt32InRange(0);
    } else {
      var pre := units[..|units| - 1];
      var c := units[|units| - 1];
      HashIsWrappedPolynomial(pre);
      var h := HashOf(pre);
      var p := Poly(pre);
      var s := ToInt32(h * 32);
      // s == 32h (mod 2^32) and h == p (mod 2^32), so s - h + c == 31p + c.
      assert (h * 32 - s) % TwoTo32 == 0;
      assert (p - h) % TwoTo32 == 0;
      var k1 := (h * 32 - s) / TwoTo32;
      var k2 := (p - h) / TwoTo32;
      assert h * 32 - s == k1 * TwoTo32;
      assert p - h == k2 * TwoTo32;
      assert (31 * p + c) - (s - h + c) == (k1 + 31 * k2) * TwoTo32;
      ModZero(k1 + 31 * k2);
      ToInt32Congruent(s - h + c, 31 * p + c);
    }
  }

  lemma ModZero(k: int)
    ensures (k * TwoTo32) % TwoTo32 == 0
  {
  }

  /** The rendered hash is never the empty string, so a credential stored with
      an empty hash (social sign-in) never matches a password under it. */
  lemma FallbackHashNonEmpty(password: string)
    ensures FallbackHash(password) != ""
  {
  }

  /** A worked value: "ab" folds to 97 * 31 + 98. */
  lemma FallbackHashOfAb()
    ensures FallbackHash("ab") == "3105"
  {
    assert Utf16("ab") == [97, 98];
    var u := [97, 98];
    assert u[..1] == [97];
    assert [97][..0] == [];
    ToInt32InRange(97 * 32);
    ToInt32InRange(97);
    ToInt32InRange(3105);
    assert HashOf([97]) == 97;
    assert HashOf(u) == 3105;
    assert Text.NatToString(3105) == "3105";
  }
}

=== FILE: profile.dfy ===
/** The pure logic of the profile page (components/Profile/EnhancedUserProfile.tsx):
    which videos the tabs show, the statistics header and saving the edit
    form. */
module Profile {
  import opened Wrappers
  import opened Entities
  import Seqs
  import Database
  import AuthStore

  /** `userVideos`: the videos the user uploaded. */
  function UserVideos(videos: seq<Video>, userId: string): (r: seq<Video>)
    ensures forall v :: v in r <==> v in videos && v.userId == userId
  {
    Seqs.Filter(videos, (v: Video) => v.userId == userId)
  }

  /** `shortVideos`: the user's shorts. */
  function ShortVideos(videos: seq<Video>, userId: string): (r: seq<Video>)
    ensures forall v :: v in r <==> v in videos && v.userId == userId && v.isShort
  {
    Seqs.Filter(UserVideos(videos, userId), (v: Video) => v.isShort)
  }

  /** `longVideos`: the user's other videos. */
  function LongVideos(videos: seq<Video>, userId: string): (r: seq<Video>)
    ensures forall v :: v in r <==> v in videos && v.userId == userId && !v.isShort
  {
    Seqs.Filter(UserVideos(videos, userId), (v: Video) => !v.isShort)
  }

  /** `likedVideos`: every video with at least one like, whoever uploaded it. */
  function LikedVideos(videos: seq<Video>): (r: seq<Video>)
    ensures forall v :: v in r <==> v in videos && v.likes > 0
  {
    Seqs.Filter(videos, (v: Video) => v.likes > 0)
  }

  /** The shorts and the long videos split the user's videos: together they
      hold each of them exactly as often, and none is in both. */
  lemma ShortAndLongPartition(videos: seq<Video>, userId: string)
    ensures multiset(ShortVideos(videos, userId)) + multiset(LongVideos(videos, userId))
            == multiset(UserVideos(videos, userId))
    ensures forall v :: !(v in ShortVideos(videos, userId) && v in LongVideos(videos, userId))
  {
    var mine := UserVideos(videos, userId);
    forall v
      ensures (multiset(ShortVideos(videos, userId)) + multiset(LongVideos(videos, userId)))[v]
              == multiset(mine)[v]
    {
      Seqs.FilterMultiset(mine, (w: Video) => w.isShort, v);
      Seqs.FilterMultiset(mine, (w: Video) => !w.isShort, v);
    }
  }

  /** The header figures of the profile. */
  datatype Stats = Stats(followers: int, following: int, totalViews: int, totalUploads: int,
                         watchTime: int, topVideoViews: int)

  /** `x || fallback` for an optional number: absent and 0 both fall back. */
  function OrIfZero(x: Option<int>, fallback: int): (r: int)
    ensures x.Some? && x.value != 0 ==> r == x.value
    ensures x.None? || x.value == 0 ==> r == fallback
  {
    if x.Some? && x.value != 0 then x.value else fallback
  }

  function ViewsOf(vs: seq<Video>): (r: seq<int>)
    ensures |r| == |vs|
    ensures forall i :: 0 <= i < |vs| ==> r[i] == vs[i].views
  {
    seq(|vs|, i requires 0 <= i < |vs| => vs[i].views)
  }

  /** `stats`: counters default to 0, the upload count falls back to the
      number of the user's videos, and the top views are the largest views
      among them, or 0. */
  function ProfileStats(u: User, videos: seq<Video>): (r: Stats)
    ensures r.followers == u.followers && r.following == u.following
    ensures r.totalViews == u.totalViews.GetOr(0)
    ensures u.totalUploads.Some? && u.totalUploads.value != 0 ==> r.totalUploads == u.totalUploads.value
    ensures u.totalUploads.None? || u.totalUploads.value == 0 ==> r.totalUploads == |UserVideos(videos, u.id)|
    ensures r.watchTime == 0
    ensures r.topVideoViews >= 0
    ensures forall v :: v in UserVideos(videos, u.id) ==> v.views <= r.topVideoViews
    ensures r.topVideoViews == 0 || exists v :: v in UserVideos(videos, u.id) && v.views == r.topVideoViews
  {
    var mine := UserVideos(videos, u.id);
    var views := ViewsOf(mine);
    var top := Seqs.MaxWith(views, 0);
    assert forall v :: v in mine ==> v.views <= top by {
      forall v | v in mine
        ensures v.views <= top
      {
        var i :| 0 <= i < |mine| && mine[i] == v;
        assert views[i] == v.views;
      }
    }
    assert top != 0 ==> exists v :: v in mine && v.views == top by {
      if top != 0 {
        var i :| 0 <= i < |views| && views[i] == top;
        assert mine[i] in mine;
      }
    }
    Stats(u.followers, u.following, OrIfZero(u.totalViews, 0), OrIfZero(u.totalUploads, |mine|), 0, top)
  }

  /** The edit form's text fields. */
  datatype EditForm = EditForm(name: string, bio: string, location: string, website: string,
                               twitter: string, instagram: string, youtube: string, linkedin: string)

  /** The patch `handleSaveProfile` sends: the text fields, and social links
      made of exactly the four edited handles (so no TikTok link). */
  function SavePatch(form: EditForm): (r: UserPatch)
    ensures r.name == Some(form.name) && r.bio == Some(form.bio)
    ensures r.location == Some(form.location) && r.website == Some(form.website)
    ensures r.socialLinks == Some(SocialLinks(Some(form.twitter), Some(form.instagram), Some(form.youtube),
                                              None, Some(form.linkedin)))
    ensures r.email.None? && r.id.None? && r.username.None? && r.profilePicture.None?
  {
    EmptyUserPatch.(name := Some(form.name), bio := Some(form.bio), location := Some(form.location),
                    website := Some(form.website),
                    socialLinks := Some(SocialLinks(Some(form.twitter), Some(form.instagram), Some(form.youtube),
                                                    None, Some(form.linkedin))))
  }

  /** `handleSaveProfile`: the signed-in user takes the form's values; their
      former social links, TikTok included, are replaced. */
  function HandleSaveProfile(s: AuthStore.AuthState, db: Database.DbState, form: EditForm, now: int)
    : (r: AuthStore.AuthStep)
    ensures s.user.None? ==> r == AuthStore.AuthStep(s, db)
    ensures s.user.Some? ==> r.auth.user.Some?
    ensures s.user.Some? && r.auth.user.Some? ==>
      var u := r.auth.user.value;
      && u.name == form.name && u.bio == Some(form.bio) && u.location == Some(form.location)
      && u.website == Some(form.website)
      && u.socialLinks == Some(SocialLinks(Some(form.twitter), Some(form.instagram), Some(form.youtube),
                                           None, Some(form.linkedin)))
      && u.id == s.user.value.id && u.email == s.user.value.email && u.updatedAt == now
  {
    AuthStore.UpdateProfile(s, db, SavePatch(form), now)
  }

  /** Saving the same form twice is saving it once, apart from the time. */
  lemma SaveProfileIdempotent(s: AuthStore.AuthState, db: Database.DbState, form: EditForm, now: int)
    requires s.user.Some?
    ensures var once := HandleSaveProfile(s, db, form, now);
            HandleSaveProfile(once.auth, once.db, form, now).auth == once.auth
  {
    MergeUserIdempotent(s.user.value, SavePatch(form), now);
  }
}

=== FILE: seqs.dfy ===
/** Generic list operations the source performs with `Array.prototype`
    methods (`find`, `findIndex`, `filter`, `map`, `some`, `sort`), stated
    once here with the contracts the rest of the model relies on. */
module Seqs {
  import opened Wrappers

  /** `s.findIndex(p)`: the first index whose element satisfies `p`. */
  function FindIndex<T>(s: seq<T>, p: T -> bool): (r: Option<nat>)
    ensures r.Some? ==> r.value < |s| && p(s[r.value])
    ensures r.Some? ==> forall j :: 0 <= j < r.value ==> !p(s[j])
    ensures r.None? <==> forall x :: x in s ==> !p(x)
  {
    if |s| == 0 then None
    else if p(s[0]) then Some(0)
    else
      match FindIndex(s[1..], p)
      case None => assert forall x :: x in s ==> x == s[0] || x in s[1..]; None
      case Some(i) => Some(i + 1)
  }

  /** `s.find(p)`: the first element satisfying `p`, absent when none does. */
  function Find<T>(s: seq<T>, p: T -> bool): (r: Option<T>)
    ensures r.Some? ==> r.value in s && p(r.value)
    ensures r.None? <==> forall x :: x in s ==> !p(x)
    ensures r.Some? ==> exists i :: 0 <= i < |s| && s[i] == r.value
                                    && forall j :: 0 <= j < i ==> !p(s[j])
  {
    match FindIndex(s, p)
    case None => None
    case Some(i) => Some(s[i])
  }

  /** `s.some(p)`. */
  predicate Any<T>(s: seq<T>, p: T -> bool) {
    exists i :: 0 <= i < |s| && p(s[i])
  }

  /** `s.filter(p)`: keeps exactly the elements satisfying `p`, each as often
      as it occurs, in their original order. */
  function Filter<T(!new)>(s: seq<T>, p: T -> bool): (r: seq<T>)
    ensures |r| <= |s|
    ensures forall x :: x in r <==> x in s && p(x)
  {
    if |s| == 0 then []
    else
      var rest := Filter(s[1..], p);
      assert forall x :: x in s <==> x == s[0] || x in s[1..];
      if p(s[0]) then [s[0]] + rest else rest
  }

  /** The filter keeps every satisfying element as often as it occurs. */
  lemma {:induction false} FilterMultiset<T(!new)>(s: seq<T>, p: T -> bool, x: T)
    ensures multiset(Filter(s, p))[x] == if p(x) then multiset(s)[x] else 0
  {
    if |s| > 0 {
      FilterMultiset(s[1..], p, x);
      assert s == [s[0]] + s[1..];
      assert multiset(s) == multiset{s[0]} + multiset(s[1..]);
      if p(s[0]) {
        assert multiset(Filter(s, p)) == multiset{s[0]} + multiset(Filter(s[1..], p));
      }
    }
  }

  /** Filtering distributes over concatenation, so it keeps relative order. */
  lemma {:induction false} FilterAppend<T(!new)>(a: seq<T>, b: seq<T>, p: T -> bool)
    ensures Filter(a + b, p) == Filter(a, p) + Filter(b, p)
  {
    if |a| == 0 {
      assert a + b == b;
    } else {
      assert (a + b)[0] == a[0];
      assert (a + b)[1..] == a[1..] + b;
      FilterAppend(a[1..], b, p);
      if p(a[0]) {
        calc {
          Filter(a + b, p);
          [a[0]] + Filter(a[1..] + b, p);
          [a[0]] + (Filter(a[1..], p) + Filter(b, p));
          ([a[0]] + Filter(a[1..], p)) + Filter(b, p);
        }
      }
    }
  }

  /** Filters by predicates that agree on the list agree. */
  lemma {:induction false} FilterCongruent<T(!new)>(s: seq<T>, p: T -> bool, q: T -> bool)
    requires forall x :: x in s ==> p(x) == q(x)
    ensures Filter(s, p) == Filter(s, q)
  {
    if |s| > 0 {
      assert s[0] in s;
      assert forall x :: x in s[1..] ==> x in s;
      FilterCongruent(s[1..], p, q);
    }
  }

  /** Two filters in a row are one filter by the conjunction. */
  lemma {:induction false} FilterFilter<T(!new)>(s: seq<T>, p: T -> bool, q: T -> bool, both: T -> bool)
    requires forall x :: x in s ==> both(x) == (p(x) && q(x))
    ensures Filter(Filter(s, p), q) == Filter(s, both)
  {
    if |s| > 0 {
      assert s[0] in s;
      assert forall x :: x in s[1..] ==> x in s;
      FilterFilter(s[1..], p, q, both);
    }
  }

  /** A filter whose predicate holds nowhere keeps nothing. */
  lemma {:induction false} FilterNone<T(!new)>(s: seq<T>, p: T -> bool)
    requires forall x :: x in s ==> !p(x)
    ensures Filter(s, p) == []
  {
    if |s| > 0 {
      assert s[0] in s;
      assert forall x :: x in s[1..] ==> x in s;
      FilterNone(s[1..], p);
    }
  }

  /** A filter whose predicate holds everywhere keeps the list as it is. */
  lemma {:induction false} FilterAll<T(!new)>(s: seq<T>, p: T -> bool)
    requires forall x :: x in s ==> p(x)
    ensures Filter(s, p) == s
  {
    if |s| > 0 {
      assert forall x :: x in s[1..] ==> x in s;
      FilterAll(s[1..], p);
      assert p(s[0]);
      assert s == [s[0]] + s[1..];
    }
  }

  /** Filtering with the same predicate twice changes nothing further. */
  lemma {:induction false} FilterIdempotent<T(!new)>(s: seq<T>, p: T -> bool)
    ensures Filter(Filter(s, p), p) == Filter(s, p)
  {
    FilterAll(Filter(s, p), p);
  }

  /** `s.map(x => p(x) ? f(x) : x)`: the update-in-place idiom of the stores. */
  function MapWhere<T>(s: seq<T>, p: T -> bool, f: T -> T): (r: seq<T>)
    ensures |r| == |s|
    ensures forall i :: 0 <= i < |s| ==> r[i] == if p(s[i]) then f(s[i]) else s[i]
  {
    seq(|s|, i requires 0 <= i < |s| => if p(s[i]) then f(s[i]) else s[i])
  }

  /** Number of elements satisfying `p`. */
  function Count<T>(s: seq<T>, p: T -> bool): nat {
    if |s| == 0 then 0 else (if p(s[0]) then 1 else 0) + Count(s[1..], p)
  }

  lemma {:induction false} CountIsFilterLength<T(!new)>(s: seq<T>, p: T -> bool)
    ensures Count(s, p) == |Filter(s, p)|
  {
    if |s| > 0 {
      CountIsFilterLength(s[1..], p);
    }
  }

  /** Sum of an integer attribute over a list. */
  function SumOf<T>(s: seq<T>, key: T -> int): int {
    if |s| == 0 then 0 else key(s[0]) + SumOf(s[1..], key)
  }

  /** A list is sorted ascending by `key`. */
  predicate SortedBy<T>(s: seq<T>, key: T -> int) {
    forall i, j :: 0 <= i < j < |s| ==> key(s[i]) <= key(s[j])
  }

  /** Inserts `x` before the first element whose key is not smaller, so that
      among equal keys the inserted element comes first. */
  function InsertBy<T>(x: T, s: seq<T>, key: T -> int): (r: seq<T>)
    requires SortedBy(s, key)
    ensures SortedBy(r, key)
    ensures multiset(r) == multiset{x} + multiset(s)
    ensures |r| == |s| + 1
  {
    if |s| == 0 then [x]
    else if key(x) <= key(s[0]) then [x] + s
    else
      var rest := InsertBy(x, s[1..], key);
      assert s == [s[0]] + s[1..];
      assert forall i :: 0 <= i < |rest| ==> key(s[0]) <= key(rest[i]) by {
        forall i | 0 <= i < |rest|
          ensures key(s[0]) <= key(rest[i])
        {
          assert rest[i] in multiset(rest);
          assert rest[i] == x || rest[i] in multiset(s[1..]);
        }
      }
      [s[0]] + rest
  }

  /** Stable insertion sort ascending by `key`: the result is sorted and is a
      permutation of the input. */
  function SortBy<T>(s: seq<T>, key: T -> int): (r: seq<T>)
    ensures SortedBy(r, key)
    ensures multiset(r) == multiset(s)
    ensures |r| == |s|
  {
    if |s| == 0 then []
    else
      assert s == [s[0]] + s[1..];
      InsertBy(s[0], SortBy(s[1..], key), key)
  }

  /** `Math.max(...xs, floor)`. */
  function MaxWith(xs: seq<int>, floor: int): (r: int)
    ensures r >= floor
    ensures forall i :: 0 <= i < |xs| ==> xs[i] <= r
    ensures r == floor || exists i :: 0 <= i < |xs| && xs[i] == r
  {
    if |xs| == 0 then floor
    else
      var m := MaxWith(xs[1..], floor);
      assert forall i :: 1 <= i < |xs| ==> xs[i] == xs[1..][i - 1];
      if xs[0] >= m then xs[0]
      else
        assert m != floor ==> exists i :: 1 <= i < |xs| && xs[i] == m by {
          if m != floor {
            var k :| 0 <= k < |xs[1..]| && xs[1..][k] == m;
            assert xs[k + 1] == m;
          }
        }
        m
  }
}

=== FILE: storage.dfy ===
/** The browser key-value store behind `getData` / `setData`
    (lib/database.ts), with each collection held as the list it serialises.
    A stored entry is either a well-formed JSON array, an empty string, or
    text `JSON.parse` rejects. */
module Storage {

  datatype Entry<T> = EmptyText | Corrupt | Items(items: seq<T>)

  /** A write either lands or is dropped, as when the quota is exceeded. */
  datatype WriteOutcome = Stored | QuotaExceeded

  type Store<T> = map<string, Entry<T>>

  /** `getData`: the stored list; a missing key, empty text or unparsable
      text all read as the empty list (the read never fails). */
  function GetData<T>(store: Store<T>, key: string): (r: seq<T>)
    ensures key !in store ==> r == []
    ensures key in store && !store[key].Items? ==> r == []
    ensures key in store && store[key].Items? ==> r == store[key].items
  {
    if key in store && store[key].Items? then store[key].items else []
  }

  /** `setData`: overwrites the whole collection; a failed write is logged
      and dropped, leaving the store as it was. */
  function SetData<T>(store: Store<T>, key: string, items: seq<T>, outcome: WriteOutcome): (r: Store<T>)
    ensures outcome.Stored? ==> key in r && r[key] == Items(items)
    ensures outcome.QuotaExceeded? ==> r == store
    ensures forall k :: k != key ==> (k in r <==> k in store)
    ensures forall k :: k != key && k in store ==> r[k] == store[k]
  {
    if outcome.Stored? then store[key := Items(items)] else store
  }

  /** Writing a collection and reading it back yields the same list. */
  lemma ReadAfterWrite<T>(store: Store<T>, key: string, items: seq<T>)
    ensures GetData(SetData(store, key, items, Stored), key) == items
  {
  }

  /** A write to one key leaves every other collection as it reads. */
  lemma WriteIsolated<T>(store: Store<T>, key: string, other: string, items: seq<T>, outcome: WriteOutcome)
    requires other != key
    ensures GetData(SetData(store, key, items, outcome), other) == GetData(store, other)
  {
  }

  /** A dropped write is indistinguishable from no write. */
  lemma DroppedWriteInvisible<T>(store: Store<T>, key: string, items: seq<T>)
    ensures GetData(SetData(store, key, items, QuotaExceeded), key) == GetData(store, key)
  {
  }
}

=== FILE: stored_dates.dfy ===
/** What happens to `Date` fields on their way through storage, and the two
    sorting reads that trip over it. `setData` serialises with
    `JSON.stringify`, which writes a `Date` as an ISO text; `getData` parses
    without a reviver, so every timestamp read back is a string and has no
    `getTime` method. `getVideos` and `getChatMessages` (lib/database.ts)
    call `getTime` inside their sort comparators, so as written they throw a
    `TypeError` whenever the comparator runs, which is whenever two or more
    items are sorted. The rest of the model uses the corrected reads
    `Database.GetVideos` and `Database.GetChatMessages`, which compare the
    integer timestamps. */
module StoredDates {
  import opened Wrappers
  import opened Entities
  import opened Database
  import Seqs

  /** A timestamp as JavaScript holds it: a live `Date`, or the ISO text that
      serialisation leaves behind (carrying the same instant). */
  datatype Stamp = DateValue(ms: int) | IsoText(ms: int)

  datatype JsError = TypeError(message: string)

  /** `JSON.stringify` applies `Date.prototype.toJSON`. */
  function Stringify(s: Stamp): (r: Stamp)
    ensures r.IsoText? && r.ms == s.ms
  {
    IsoText(s.ms)
  }

  /** `JSON.parse` without a reviver leaves the text as it is. */
  function Parse(s: Stamp): Stamp {
    s
  }

  /** `x.getTime()`: defined on a `Date` only. */
  function GetTime(s: Stamp): (r: Result<int, JsError>)
    ensures r.Success? <==> s.DateValue?
    ensures r.Success? ==> r.value == s.ms
  {
    match s
    case DateValue(ms) => Success(ms)
    case IsoText(_) => Failure(TypeError("getTime is not a function"))
  }

  /** Every stored timestamp reads back as text. */
  function ReadBack(ms: int): (r: Stamp)
    ensures r.IsoText? && r.ms == ms
  {
    Parse(Stringify(DateValue(ms)))
  }

  /** A timestamp that went through storage no longer answers `getTime`. */
  lemma StoredDateLosesGetTime(ms: int)
    ensures GetTime(ReadBack(ms)).Failure?
  {
  }

  /** The comparator of `getVideos`: `b.createdAt.getTime() - a.createdAt.getTime()`. */
  function CompareNewestFirst(a: Stamp, b: Stamp): Result<int, JsError> {
    match GetTime(b)
    case Failure(e) => Failure(e)
    case Success(tb) =>
      match GetTime(a)
      case Failure(e) => Failure(e)
      case Success(ta) => Success(tb - ta)
  }

  /** The comparator of `getChatMessages`: `a.timestamp.getTime() - b.timestamp.getTime()`. */
  function CompareOldestFirst(a: Stamp, b: Stamp): Result<int, JsError> {
    match GetTime(a)
    case Failure(e) => Failure(e)
    case Success(ta) =>
      match GetTime(b)
      case Failure(e) => Failure(e)
      case Success(tb) => Success(ta - tb)
  }

  /** `getVideos` as written: `sort` calls the comparator only when there are
      at least two candidates, and the first call throws on the stored text. */
  function GetVideosAsWritten(db: DbState, f: VideoFilters): (r: Result<seq<Video>, JsError>)
    ensures |VideoCandidates(db, f)| >= 2 <==> r.Failure?
  {
    var c := VideoCandidates(db, f);
    if |c| < 2 then Success(c)
    else
      match CompareNewestFirst(ReadBack(c[0].createdAt), ReadBack(c[1].createdAt))
      case Failure(e) => Failure(e)
      case Success(_) => Success(GetVideos(db, f))
  }

  /** `getChatMessages` as written, likewise. */
  function GetChatMessagesAsWritten(db: DbState, chatId: string): (r: Result<seq<Message>, JsError>)
    ensures |GetChatMessages(db, chatId)| >= 2 <==> r.Failure?
    ensures r.Success? ==> r.value == GetChatMessages(db, chatId)
  {
    var c := Seqs.Filter(db.messages, (m: Message) => m.chatId == chatId);
    var sorted := GetChatMessages(db, chatId);
    assert multiset(sorted) == multiset(c) by {
      forall m ensures multiset(sorted)[m] == multiset(c)[m] {
        Seqs.FilterMultiset(db.messages, (m: Message) => m.chatId == chatId, m);
      }
    }
    assert |c| == |sorted|;
    if |c| < 2 then
      ShortPermutationEqual(c, sorted);
      Success(c)
    else
      match CompareOldestFirst(ReadBack(c[0].timestamp), ReadBack(c[1].timestamp))
      case Failure(e) => Failure(e)
      case Success(_) => Success(GetChatMessages(db, chatId))
  }

  /** Below two elements, a permutation is the sequence itself. */
  lemma ShortPermutationEqual<T>(a: seq<T>, b: seq<T>)
    requires multiset(a) == multiset(b) && |a| < 2
    ensures a == b
  {
    if |a| == 1 {
      assert a[0] in multiset(b);
    }
  }

  const SampleOwner := User("1", "alice", "Alice", "alice@example.com", None, None, None, None, None, None,
                            Female, false, false, 0, 0, None, None, None, None, None, 0, 0)

  function SampleVideo(id: string, at: int): Video {
    Video(id, "1", SampleOwner, "t", "d", "u", "u", 0, 0, 0, 0, 0, true, [], at, at)
  }

  /** A sorted permutation of two distinct keyed items is fixed by the keys. */
  lemma {:induction false} TwoSortedVideos(r: seq<Video>, a: Video, b: Video)
    requires multiset(r) == multiset{a, b} && a.createdAt > b.createdAt
    requires NewestFirst(r)
    ensures r == [a, b]
  {
    assert |r| == 2;
    assert r[0] in multiset(r) && r[1] in multiset(r);
    assert r == [r[0], r[1]];
    if r[0] == a {
      assert multiset(r) == multiset{a, r[1]};
    }
  }

  lemma {:induction false} TwoSortedMessages(r: seq<Message>, a: Message, b: Message)
    requires multiset(r) == multiset{a, b} && a.timestamp < b.timestamp
    requires OldestFirst(r)
    ensures r == [a, b]
  {
    assert |r| == 2;
    assert r[0] in multiset(r) && r[1] in multiset(r);
    assert r == [r[0], r[1]];
    if r[0] == a {
      assert multiset(r) == multiset{a, r[1]};
    }
  }

  /** Two stored shorts: the as-written read throws, the corrected read lists
      both, newer first. */
  lemma TwoVideosBreakGetVideos()
    ensures var db := EmptyDb.(users := [SampleOwner], videos := [SampleVideo("a", 1), SampleVideo("b", 2)]);
            var f := VideoFilters(None, Some(true), None);
            && GetVideosAsWritten(db, f).Failure?
            && GetVideos(db, f) == [SampleVideo("b", 2), SampleVideo("a", 1)]
  {
    var a := SampleVideo("a", 1);
    var b := SampleVideo("b", 2);
    var db := EmptyDb.(users := [SampleOwner], videos := [a, b]);
    var f := VideoFilters(None, Some(true), None);
    var p := (v: Video) => v.isShort == true;
    assert Seqs.Filter([b], p) == [b];
    assert [a, b][1..] == [b];
    assert Seqs.Filter([a, b], p) == [a, b];
    var c := VideoCandidates(db, f);
    assert c == [a, b];
    TwoSortedVideos(GetVideos(db, f), b, a);
  }

  /** Two messages in one chat: the as-written read throws (so opening the
      chat in the messaging store reports "Failed to fetch messages"), the
      corrected read lists both, older first. */
  lemma TwoMessagesBreakGetChatMessages()
    ensures var m1 := Message("m1", "c", "u1", "hi", TextMessage, 5, false);
            var m2 := Message("m2", "c", "u2", "yo", TextMessage, 9, false);
            var db := EmptyDb.(messages := [m2, m1]);
            && GetChatMessagesAsWritten(db, "c").Failure?
            && GetChatMessages(db, "c") == [m1, m2]
  {
    var m1 := Message("m1", "c", "u1", "hi", TextMessage, 5, false);
    var m2 := Message("m2", "c", "u2", "yo", TextMessage, 9, false);
    TwoChatMessagesSorted(m1, m2, EmptyDb.(messages := [m2, m1]));
  }

  lemma TwoChatMessagesSorted(m1: Message, m2: Message, db: DbState)
    requires m1.chatId == "c" && m2.chatId == "c" && m1.timestamp < m2.timestamp
    requires db.messages == [m2, m1]
    ensures GetChatMessages(db, "c") == [m1, m2]
  {
    var r := GetChatMessages(db, "c");
    assert multiset(db.messages) == multiset{m2, m1};
    assert multiset(r) == multiset{m1, m2} by {
      forall m ensures multiset(r)[m] == multiset{m1, m2}[m] {
        assert multiset(r)[m] == if m.chatId == "c" then multiset(db.messages)[m] else 0;
      }
    }
    TwoSortedMessages(r, m1, m2);
  }
}

=== FILE: text.dfy ===
/** String primitives the source reaches through JavaScript built-ins:
    `toLowerCase`, `includes`, `split(' ')`, `padStart`, and the decimal
    rendering of integers (`toString` / template literals). */
module Text {

  /** `toLowerCase` on one character; only the ASCII letters are mapped. */
  function LowerChar(c: char): char {
    if 'A' <= c <= 'Z' then (c as int + 32) as char else c
  }

  function ToLower(s: string): (r: string)
    ensures |r| == |s|
    ensures forall i :: 0 <= i < |s| ==> r[i] == LowerChar(s[i])
  {
    seq(|s|, i requires 0 <= i < |s| => LowerChar(s[i]))
  }

  /** Lower-casing is idempotent and leaves no upper-case ASCII letter. */
  lemma ToLowerIdempotent(s: string)
    ensures ToLower(ToLower(s)) == ToLower(s)
    ensures forall i :: 0 <= i < |s| ==> !('A' <= ToLower(s)[i] <= 'Z')
  {
  }

  /** `q` occurs in `s` starting at index `i`. */
  predicate OccursAt(s: string, q: string, i: int) {
    0 <= i && i + |q| <= |s| && s[i..i + |q|] == q
  }

  /** `s.includes(q)`. */
  function Includes(s: string, q: string): (r: bool)
    ensures r <==> exists i :: OccursAt(s, q, i)
    decreases |s|
  {
    if |q| > |s| then
      assert forall i :: !OccursAt(s, q, i);
      false
    else if s[..|q|] == q then
      assert OccursAt(s, q, 0);
      true
    else
      var rest := Includes(s[1..], q);
      assert forall i :: 1 <= i ==> (OccursAt(s, q, i) <==> OccursAt(s[1..], q, i - 1)) by {
        forall i | 1 <= i
          ensures OccursAt(s, q, i) <==> OccursAt(s[1..], q, i - 1)
        {
          if i + |q| <= |s| {
            assert s[1..][i - 1..i - 1 + |q|] == s[i..i + |q|];
          }
        }
      }
      if rest then
        var j :| OccursAt(s[1..], q, j);
        assert OccursAt(s, q, j + 1);
        rest
      else
        assert !OccursAt(s, q, 0);
        rest
  }

  /** Every string includes the empty string. */
  lemma IncludesEmpty(s: string)
    ensures Includes(s, "")
  {
    assert OccursAt(s, "", 0);
  }

  /** `s.split(sep)` for a one-character separator: the pieces between
      consecutive separators; an empty string gives one empty piece. */
  function SplitOn(s: string, sep: char): (r: seq<string>)
    ensures |r| >= 1
    ensures forall k :: 0 <= k < |r| ==> sep !in r[k]
    ensures |r| == 1 + CountChar(s, sep)
  {
    if |s| == 0 then [""]
    else
      var rest := SplitOn(s[1..], sep);
      if s[0] == sep then [""] + rest
      else [[s[0]] + rest[0]] + rest[1..]
  }

  /** Number of occurrences of `c` in `s`. */
  function CountChar(s: string, c: char): nat {
    if |s| == 0 then 0 else (if s[0] == c then 1 else 0) + CountChar(s[1..], c)
  }

  /** `pieces.join(sep)`. */
  function Join(pieces: seq<string>, sep: char): string
    requires |pieces| >= 1
  {
    if |pieces| == 1 then pieces[0] else pieces[0] + [sep] + Join(pieces[1..], sep)
  }

  /** Joining the pieces of a split gives back the input. */
  lemma {:induction false} JoinSplit(s: string, sep: char)
    ensures Join(SplitOn(s, sep), sep) == s
  {
    if |s| > 0 {
      JoinSplit(s[1..], sep);
      var rest := SplitOn(s[1..], sep);
      if s[0] == sep {
        assert ([""] + rest)[1..] == rest;
        assert s == [sep] + s[1..];
      } else {
        var r := [[s[0]] + rest[0]] + rest[1..];
        if |rest| == 1 {
          assert s == [s[0]] + s[1..];
        } else {
          assert r[1..] == rest[1..];
          assert Join(rest, sep) == rest[0] + [sep] + Join(rest[1..], sep);
          assert s == [s[0]] + s[1..];
        }
      }
    }
  }

  /** Splitting a join of separator-free pieces gives back the pieces. */
  lemma {:induction false} SplitJoin(pieces: seq<string>, sep: char)
    requires |pieces| >= 1
    requires forall k :: 0 <= k < |pieces| ==> sep !in pieces[k]
    ensures SplitOn(Join(pieces, sep), sep) == pieces
  {
    if |pieces| == 1 {
      SplitPlain(pieces[0], sep);
    } else {
      SplitJoin(pieces[1..], sep);
      SplitPrefix(pieces[0], Join(pieces[1..], sep), sep);
      assert pieces == [pieces[0]] + pieces[1..];
    }
  }

  /** A string without the separator splits into itself. */
  lemma {:induction false} SplitPlain(s: string, sep: char)
    requires sep !in s
    ensures SplitOn(s, sep) == [s]
  {
    if |s| > 0 {
      SplitPlain(s[1..], sep);
      assert s == [s[0]] + s[1..];
    }
  }

  /** A separator-free prefix followed by the separator becomes the first piece. */
  lemma {:induction false} SplitPrefix(a: string, b: string, sep: char)
    requires sep !in a
    ensures SplitOn(a + [sep] + b, sep) == [a] + SplitOn(b, sep)
  {
    if |a| == 0 {
      assert a + [sep] + b == [sep] + b;
      assert ([sep] + b)[1..] == b;
    } else {
      assert (a + [sep] + b)[1..] == a[1..] + [sep] + b;
      SplitPrefix(a[1..], b, sep);
      assert a == [a[0]] + a[1..];
    }
  }

  /** Splitting around one separator splits each side on its own. */
  lemma {:induction false} SplitConcat(a: string, b: string, sep: char)
    ensures SplitOn(a + [sep] + b, sep) == SplitOn(a, sep) + SplitOn(b, sep)
  {
    if |a| == 0 {
      assert a + [sep] + b == [sep] + b;
      assert ([sep] + b)[1..] == b;
    } else {
      assert (a + [sep] + b)[0] == a[0];
      assert (a + [sep] + b)[1..] == a[1..] + [sep] + b;
      SplitConcat(a[1..], b, sep);
      var left := SplitOn(a[1..], sep);
      var right := SplitOn(b, sep);
      if a[0] != sep {
        assert (left + right)[0] == left[0];
        assert (left + right)[1..] == left[1..] + right;
      }
    }
  }

  // ---- decimal numbers ----------------------------------------------------

  predicate IsDigit(c: char) {
    '0' <= c <= '9'
  }

  function DigitChar(d: nat): char
    requires d < 10
  {
    ('0' as int + d) as char
  }

  /** Decimal rendering of a natural number, without leading zeros. */
  function NatToString(n: nat): (r: string)
    ensures |r| >= 1
    ensures forall i :: 0 <= i < |r| ==> IsDigit(r[i])
    ensures |r| > 1 ==> r[0] != '0'
    ensures n < 10 <==> |r| == 1
    decreases n
  {
    if n < 10 then [DigitChar(n)] else NatToString(n / 10) + [DigitChar(n % 10)]
  }

  /** Value of a string of decimal digits. */
  function ParseNat(s: string): nat
    requires forall i :: 0 <= i < |s| ==> IsDigit(s[i])
  {
    if |s| == 0 then 0
    else
      assert IsDigit(s[|s| - 1]);
      10 * ParseNat(s[..|s| - 1]) + (s[|s| - 1] as int - '0' as int)
  }

  /** Rendering a number and reading it back gives the number. */
  lemma {:induction false} ParseNatToString(n: nat)
    ensures ParseNat(NatToString(n)) == n
    decreases n
  {
    if n >= 10 {
      var s := NatToString(n);
      assert s[..|s| - 1] == NatToString(n / 10);
      ParseNatToString(n / 10);
    }
  }

  /** A decimal integer numeral: digits, optionally after one '-'. */
  predicate IsIntNumeral(s: string) {
    && |s| >= 1
    && (s[0] == '-' ==> forall i :: 1 <= i < |s| ==> IsDigit(s[i]))
    && (s[0] != '-' ==> forall i :: 0 <= i < |s| ==> IsDigit(s[i]))
  }

  /** `String(n)` / `n.toString()` for an integer: a '-' sign before the
      magnitude of a negative number. */
  function IntToString(n: int): (r: string)
    ensures IsIntNumeral(r)
    ensures n >= 0 ==> r == NatToString(n)
    ensures n < 0 ==> r == "-" + NatToString(-n)
  {
    if n < 0 then "-" + NatToString(-n) else NatToString(n)
  }

  /** Reading back a rendered integer. */
  function ParseInt(s: string): int
    requires IsIntNumeral(s)
  {
    if s[0] == '-' then 0 - ParseNat(s[1..]) as int else ParseNat(s)
  }

  lemma ParseIntToString(n: int)
    ensures ParseInt(IntToString(n)) == n
  {
    if n < 0 {
      ParseNegative(-n);
    } else {
      ParseNatToString(n);
    }
  }

  lemma ParseNegative(k: nat)
    ensures var s := "-" + NatToString(k);
            s[1..] == NatToString(k) && ParseInt(s) == 0 - k as int
  {
    var digits := NatToString(k);
    var s := "-" + digits;
    assert s[1..] == digits;
    ParseNatToString(k);
  }

  /** `s.padStart(width, c)`. */
  function PadStart(s: string, width: nat, c: char): (r: string)
    ensures |r| == if |s| >= width then |s| else width
    ensures r[|r| - |s|..] == s
    ensures forall i :: 0 <= i < |r| - |s| ==> r[i] == c
  {
    if |s| >= width then s else seq(width - |s|, _ => c) + s
  }
}

=== FILE: upload.dfy ===
/** The pure logic of the upload dialog (components/Upload/EnhancedVideoUpload.tsx):
    the hashtag parser, the file list, the publish button's enabling rule and
    the publish loop that routes each file to the database. Upload progress
    timers, object URLs and the two-second pause are left out; a file's
    preview URL is a plain string. */
module Upload {
  import opened Wrappers
  import opened Entities
  import Seqs
  import Text
  import Database

  datatype UploadKind = VideoUpload | ImageUpload | GifUpload | StoryUpload
  datatype UploadStatus = Uploading | Completed | UploadFailed

  datatype UploadFile = UploadFile(id: string, fileName: string, kind: UploadKind, progress: int,
                                   status: UploadStatus, preview: string)

  /** The caption and raw hashtag text of the form. */
  datatype UploadData = UploadData(caption: string, hashtags: string)

  /** `tag.replace(/^#/, '')`: drops one leading '#'. */
  function StripHash(tag: string): (r: string)
    ensures |tag| > 0 && tag[0] == '#' ==> tag == "#" + r
    ensures !(|tag| > 0 && tag[0] == '#') ==> r == tag
  {
    if |tag| > 0 && tag[0] == '#' then tag[1..] else tag
  }

  function StripAll(pieces: seq<string>): (r: seq<string>)
    ensures |r| == |pieces|
    ensures forall i :: 0 <= i < |pieces| ==> r[i] == StripHash(pieces[i])
  {
    seq(|pieces|, i requires 0 <= i < |pieces| => StripHash(pieces[i]))
  }

  /** `hashtags.split(' ').map(strip '#').filter(Boolean)`. */
  function ParseHashtags(raw: string): (r: seq<string>)
    ensures forall t :: t in r ==> t != [] && ' ' !in t
    ensures forall t :: t in r ==> exists piece :: piece in Text.SplitOn(raw, ' ') && StripHash(piece) == t
    ensures forall p :: p in Text.SplitOn(raw, ' ') && StripHash(p) != [] ==> StripHash(p) in r
    ensures raw == "" ==> r == []
  {
    var pieces := Text.SplitOn(raw, ' ');
    var stripped := StripAll(pieces);
    forall t | t in stripped
      ensures ' ' !in t
    {
      var i :| 0 <= i < |stripped| && stripped[i] == t;
      assert ' ' !in pieces[i];
    }
    forall p | p in pieces
      ensures StripHash(p) in stripped
    {
      var i :| 0 <= i < |pieces| && pieces[i] == p;
      assert stripped[i] == StripHash(p);
    }
    Seqs.Filter(stripped, (t: string) => t != [])
  }

  /** Hashtag text joined by a space parses to the tags of the left part
      followed by those of the right part: the tags keep their written order. */
  lemma ParseHashtagsAppend(a: string, b: string)
    ensures ParseHashtags(a + " " + b) == ParseHashtags(a) + ParseHashtags(b)
  {
    assert a + " " + b == a + [' '] + b;
    Text.SplitConcat(a, b, ' ');
    var pa := Text.SplitOn(a, ' ');
    var pb := Text.SplitOn(b, ' ');
    assert StripAll(pa + pb) == StripAll(pa) + StripAll(pb);
    Seqs.FilterAppend(StripAll(pa), StripAll(pb), (t: string) => t != []);
  }

  /** A single word gives its tag with one leading '#' removed, or nothing
      when that leaves it empty. */
  lemma ParseHashtagsWord(word: string)
    requires ' ' !in word
    ensures ParseHashtags(word) == if StripHash(word) == [] then [] else [StripHash(word)]
  {
    Text.SplitPlain(word, ' ');
    var stripped := StripAll([word]);
    assert stripped == [StripHash(word)];
    assert stripped[1..] == [];
  }

  /** Tags written as `#tag` separated by single spaces parse back to the
      same tags. */
  lemma {:induction false} HashtagsRoundTrip(tags: seq<string>)
    requires |tags| >= 1
    requires forall i :: 0 <= i < |tags| ==> tags[i] != [] && ' ' !in tags[i]
    ensures ParseHashtags(Text.Join(seq(|tags|, i requires 0 <= i < |tags| => "#" + tags[i]), ' ')) == tags
  {
    var written := seq(|tags|, i requires 0 <= i < |tags| => "#" + tags[i]);
    forall k | 0 <= k < |written|
      ensures ' ' !in written[k]
    {
      assert written[k] == ['#'] + tags[k];
    }
    Text.SplitJoin(written, ' ');
    var stripped := StripAll(written);
    assert stripped == tags;
    Seqs.FilterAll(tags, (t: string) => t != []);
  }

  /** `removeFile`: drops the files with this id. */
  function RemoveFile(files: seq<UploadFile>, id: string): (r: seq<UploadFile>)
    ensures forall f :: f in r <==> f in files && f.id != id
  {
    Seqs.Filter(files, (f: UploadFile) => f.id != id)
  }

  /** Removing a file just added under a fresh id restores the list. */
  lemma AddThenRemove(files: seq<UploadFile>, f: UploadFile)
    requires forall g :: g in files ==> g.id != f.id
    ensures RemoveFile(files + [f], f.id) == files
  {
    Seqs.FilterAppend(files, [f], (g: UploadFile) => g.id != f.id);
    Seqs.FilterAll(files, (g: UploadFile) => g.id != f.id);
  }

  /** The Publish button is enabled when there is a file, no publish is in
      progress and no file is still uploading. */
  predicate PublishEnabled(files: seq<UploadFile>, isUploading: bool) {
    |files| != 0 && !isUploading && !Seqs.Any(files, (f: UploadFile) => f.status == Uploading)
  }

  /** Removing the only file still uploading enables publishing when another
      file remains. */
  lemma RemovingLastUploadEnablesPublish(files: seq<UploadFile>, id: string, kept: UploadFile)
    requires kept in files && kept.id != id
    requires forall f :: f in files && f.status == Uploading ==> f.id == id
    ensures PublishEnabled(RemoveFile(files, id), false)
  {
    assert kept in RemoveFile(files, id);
  }

  predicate IsVideoFile(f: UploadFile) {
    f.kind == VideoUpload || f.kind == StoryUpload
  }

  predicate IsMediaFile(f: UploadFile) {
    f.kind == ImageUpload || f.kind == GifUpload
  }

  /** The `createVideo` input for a video or story file: the caption, or else
      the file name, is the title; a story is a short. */
  function VideoInput(u: User, f: UploadFile, data: UploadData): (r: Database.NewVideo)
    ensures r.userId == u.id && r.isShort == (f.kind == StoryUpload)
    ensures r.title == (if data.caption != "" then data.caption else f.fileName)
    ensures r.hashtags == ParseHashtags(data.hashtags) && r.url == f.preview && r.duration == 0
  {
    Database.NewVideo(u.id, if data.caption != "" then data.caption else f.fileName, data.caption,
                      f.preview, f.preview, 0, f.kind == StoryUpload, ParseHashtags(data.hashtags))
  }

  function MediaKindOf(f: UploadFile): MediaKind {
    if f.kind == GifUpload then GifMedia else ImageMedia
  }

  /** Stored fields other than the videos and media are untouched. */
  predicate OnlyContentChanged(before: Database.DbState, after: Database.DbState) {
    after == before.(videos := after.videos, media := after.media)
  }

  predicate KnownUser(db: Database.DbState, u: User) {
    exists w :: w in db.users && w.id == u.id
  }

  /** A video this dialog stores for `u`. */
  predicate UploadedVideo(v: Video, u: User, data: UploadData, now: int) {
    && v.userId == u.id && v.createdAt == now
    && v.hashtags == ParseHashtags(data.hashtags)
    && (data.caption != "" ==> v.title == data.caption)
  }

  /** A media item this dialog stores for `u`. */
  predicate UploadedMedia(m: MediaItem, u: User, now: int) {
    m.userId == u.id && m.createdAt == now
  }

  /** One turn of the publish loop: `None` when `createVideo` throws. */
  function SaveFile(db: Database.DbState, u: User, f: UploadFile, data: UploadData, id: string, now: int)
    : (r: Option<Database.DbState>)
    ensures r.None? <==> IsVideoFile(f) && !KnownUser(db, u)
    ensures r.Some? ==> OnlyContentChanged(db, r.value)
    ensures r.Some? && IsVideoFile(f) ==>
      && |r.value.videos| == |db.videos| + 1 && r.value.videos[..|db.videos|] == db.videos
      && UploadedVideo(r.value.videos[|db.videos|], u, data, now)
      && r.value.videos[|db.videos|].isShort == (f.kind == StoryUpload)
      && r.value.media == db.media
    ensures r.Some? && !IsVideoFile(f) ==>
      && |r.value.media| == |db.media| + 1 && r.value.media[..|db.media|] == db.media
      && UploadedMedia(r.value.media[|db.media|], u, now)
      && r.value.videos == db.videos
  {
    if IsVideoFile(f) then
      var step := Database.CreateVideo(db, VideoInput(u, f, data), id, now);
      if step.result.Failure? then None
      else
        assert step.db.videos[..|db.videos|] == db.videos;
        Some(step.db)
    else
      var saved := Database.SaveMediaItems(db, [Database.NewMedia(None, MediaKindOf(f), f.preview, u.id, Some(now))],
                                           [id], now);
      Some(saved)
  }

  /** The publish loop: each file in turn goes to `createVideo` or to
      `saveMediaItems` with one generated id; the first failure ends the
      loop and keeps what was saved before it. */
  function Publish(db: Database.DbState, u: User, files: seq<UploadFile>, data: UploadData,
                   ids: seq<string>, now: int): (r: Database.DbState)
    requires |ids| == |files|
    ensures OnlyContentChanged(db, r)
    ensures |r.videos| >= |db.videos| && r.videos[..|db.videos|] == db.videos
    ensures |r.media| >= |db.media| && r.media[..|db.media|] == db.media
    decreases |files|
  {
    if |files| == 0 then db
    else
      match SaveFile(db, u, files[0], data, ids[0], now)
      case None => db
      case Some(next) =>
        var r := Publish(next, u, files[1..], data, ids[1..], now);
        PrefixOfPrefix(db.videos, next.videos, r.videos);
        PrefixOfPrefix(db.media, next.media, r.media);
        r
  }

  /** Everything stored in `after` beyond `before` came from this dialog. */
  predicate AddedOwnContent(before: Database.DbState, after: Database.DbState, u: User, data: UploadData, now: int)
    requires |before.videos| <= |after.videos| && |before.media| <= |after.media|
  {
    && (forall k :: |before.videos| <= k < |after.videos| ==> UploadedVideo(after.videos[k], u, data, now))
    && (forall k :: |before.media| <= k < |after.media| ==> UploadedMedia(after.media[k], u, now))
  }

  /** Everything the publish loop stores belongs to the user, carries the
      parsed hashtags and the caption as title when there is one. */
  lemma {:induction false} PublishStoresOwnContent(db: Database.DbState, u: User, files: seq<UploadFile>,
                                                   data: UploadData, ids: seq<string>, now: int)
    requires |ids| == |files|
    ensures AddedOwnContent(db, Publish(db, u, files, data, ids, now), u, data, now)
    decreases |files|
  {
    if |files| > 0 {
      var step := SaveFile(db, u, files[0], data, ids[0], now);
      if step.Some? {
        var next := step.value;
        var r := Publish(next, u, files[1..], data, ids[1..], now);
        assert Publish(db, u, files, data, ids, now) == r;
        SaveFileOwnContent(db, u, files[0], data, ids[0], now);
        PublishStoresOwnContent(next, u, files[1..], data, ids[1..], now);
        assert AddedOwnContent(next, r, u, data, now);
        VideoTail(db.videos, next.videos, r.videos, u, data, now);
        MediaTail(db.media, next.media, r.media, u, now);
      }
    }
  }

  /** For a user known to the database, every file is stored: one video per
      video or story file, one media item per image or gif file. */
  lemma {:induction false} PublishStoresEveryFile(db: Database.DbState, u: User, files: seq<UploadFile>,
                                                  data: UploadData, ids: seq<string>, now: int)
    requires |ids| == |files|
    requires KnownUser(db, u)
    ensures var r := Publish(db, u, files, data, ids, now);
            && |r.videos| == |db.videos| + Seqs.Count(files, IsVideoFile)
            && |r.media| == |db.media| + Seqs.Count(files, IsMediaFile)
    decreases |files|
  {
    if |files| > 0 {
      var next := SaveFile(db, u, files[0], data, ids[0], now).value;
      assert next.users == db.users;
      PublishStoresEveryFile(next, u, files[1..], data, ids[1..], now);
    }
  }

  lemma PrefixOfPrefix<T>(a: seq<T>, b: seq<T>, c: seq<T>)
    requires |a| <= |b| <= |c| && b[..|a|] == a && c[..|b|] == b
    ensures c[..|a|] == a
    ensures forall k :: 0 <= k < |b| ==> c[k] == b[k]
  {
    assert c[..|a|] == c[..|b|][..|a|];
  }

  lemma SaveFileOwnContent(db: Database.DbState, u: User, f: UploadFile, data: UploadData, id: string, now: int)
    requires SaveFile(db, u, f, data, id, now).Some?
    ensures var next := SaveFile(db, u, f, data, id, now).value;
            && |db.videos| <= |next.videos| && |db.media| <= |next.media|
            && AddedOwnContent(db, next, u, data, now)
  {
  }

  lemma VideoTail(a: seq<Video>, b: seq<Video>, c: seq<Video>, u: User, data: UploadData, now: int)
    requires |a| <= |b| <= |c| && c[..|b|] == b
    requires forall k :: |a| <= k < |b| ==> UploadedVideo(b[k], u, data, now)
    requires forall k :: |b| <= k < |c| ==> UploadedVideo(c[k], u, data, now)
    ensures forall k :: |a| <= k < |c| ==> UploadedVideo(c[k], u, data, now)
  {
    forall k | |a| <= k < |c|
      ensures UploadedVideo(c[k], u, data, now)
    {
      if k < |b| {
        assert c[k] == c[..|b|][k];
      }
    }
  }

  lemma MediaTail(a: seq<MediaItem>, b: seq<MediaItem>, c: seq<MediaItem>, u: User, now: int)
    requires |a| <= |b| <= |c| && c[..|b|] == b
    requires forall k :: |a| <= k < |b| ==> UploadedMedia(b[k], u, now)
    requires forall k :: |b| <= k < |c| ==> UploadedMedia(c[k], u, now)
    ensures forall k :: |a| <= k < |c| ==> UploadedMedia(c[k], u, now)
  {
    forall k | |a| <= k < |c|
      ensures UploadedMedia(c[k], u, now)
    {
      if k < |b| {
        assert c[k] == c[..|b|][k];
      }
    }
  }

  /** `handleUpload`: nothing is saved without a signed-in user. */
  function HandleUpload(db: Database.DbState, user: Option<User>, files: seq<UploadFile>, data: UploadData,
                        ids: seq<string>, now: int): (r: Database.DbState)
    requires |ids| == |files|
    ensures user.None? ==> r == db
    ensures user.Some? ==> OnlyContentChanged(db, r)
    ensures user.Some? && KnownUser(db, user.value) ==>
      && |r.videos| == |db.videos| + Seqs.Count(files, IsVideoFile)
      && |r.media| == |db.media| + Seqs.Count(files, IsMediaFile)
  {
    match user
    case None => db
    case Some(u) =>
      if KnownUser(db, u) then
        PublishStoresEveryFile(db, u, files, data, ids, now);
        Publish(db, u, files, data, ids, now)
      else
        Publish(db, u, files, data, ids, now)
  }

  /** With an unknown user, no video is stored, and only the image and gif
      files before the first video or story file are saved. */
  lemma {:induction false} UnknownUserStopsAtFirstVideo(db: Database.DbState, u: User, files: seq<UploadFile>,
                                                        data: UploadData, ids: seq<string>, now: int)
    requires |ids| == |files|
    requires !KnownUser(db, u)
    ensures var r := Publish(db, u, files, data, ids, now);
            var stop := match Seqs.FindIndex(files, IsVideoFile) case None => |files| case Some(i) => i;
            && r.videos == db.videos
            && |r.media| == |db.media| + stop
    decreases |files|
  {
    if |files| > 0 {
      var f := files[0];
      if IsVideoFile(f) {
        assert Seqs.FindIndex(files, IsVideoFile) == Some(0);
      } else {
        var saved := SaveFile(db, u, f, data, ids[0], now).value;
        UnknownUserStopsAtFirstVideo(saved, u, files[1..], data, ids[1..], now);
        FindIndexShift(files, IsVideoFile);
      }
    }
  }

  /** Skipping a head that does not match shifts the first match by one. */
  lemma FindIndexShift<T>(s: seq<T>, p: T -> bool)
    requires |s| > 0 && !p(s[0])
    ensures match Seqs.FindIndex(s, p)
            case None => Seqs.FindIndex(s[1..], p).None?
            case Some(i) => i >= 1 && Seqs.FindIndex(s[1..], p) == Some(i - 1)
  {
  }
}

=== FILE: video_card.dfy ===
/** The pure logic of a video card (components/Video/VideoCard.tsx): the
    like button, the small-number branch of the counter and the duration
    caption. */
module VideoCard {
  import opened Wrappers
  import Text
  import VideoStore

  // ---- like button -----------------------------------------------------------

  /** What a click on the heart produces: the card's new flag and the store. */
  datatype LikeClick = LikeClick(isLiked: bool, store: VideoStore.VideoState)

  /** `handleLike`: flips the card's flag and asks the store for a like only
      on the unliked-to-liked click. */
  function HandleLike(isLiked: bool, store: VideoStore.VideoState, videoId: string): (r: LikeClick)
    ensures r.isLiked == !isLiked
    ensures isLiked ==> r.store == store
    ensures !isLiked ==> r.store == VideoStore.LikeVideo(store, videoId)
  {
    LikeClick(!isLiked, if isLiked then store else VideoStore.LikeVideo(store, videoId))
  }

  /** Liking and then unliking leaves the card unliked and the store with
      exactly one more like per video carrying the id: unliking never
      takes a like back. */
  lemma LikeThenUnlike(store: VideoStore.VideoState, videoId: string)
    ensures var once := HandleLike(false, store, videoId);
            var twice := HandleLike(once.isLiked, once.store, videoId);
            && !twice.isLiked
            && twice.store == once.store
            && VideoStore.TotalLikes(twice.store.videos)
               == VideoStore.TotalLikes(store.videos) + VideoStore.CountId(store.videos, videoId)
  {
    var bare := VideoStore.VideoState(store.videos, None, false, None);
    VideoStore.LikeAddsOnePerMatch(store.videos, videoId);
    assert VideoStore.LikeVideo(store, videoId).videos == VideoStore.LikeVideo(bare, videoId).videos;
  }

  // ---- counter ---------------------------------------------------------------

  /** The integer branch of `formatCount`: below 1000 the count is printed
      as is; the fractional "K"/"M" renderings are not modelled (`None`). */
  function FormatCount(count: int): (r: Option<string>)
    ensures r.Some? <==> count < 1000
    ensures r.Some? && count >= 0 ==> |r.value| <= 3 && forall i :: 0 <= i < |r.value| ==> Text.IsDigit(r.value[i])
  {
    if count < 1000 then
      if count >= 0 then
        ShortNumber(count);
        Some(Text.IntToString(count))
      else Some(Text.IntToString(count))
    else None
  }

  lemma {:induction false} ShortNumber(n: nat)
    requires n < 1000
    ensures |Text.NatToString(n)| <= 3
  {
    if n >= 10 {
      ShortNumber(n / 10);
    }
  }

  /** A printed small count reads back as the count. */
  lemma FormatCountRoundTrip(count: int)
    requires count < 1000
    ensures Text.ParseInt(FormatCount(count).value) == count
  {
    Text.ParseIntToString(count);
  }

  // ---- duration ----------------------------------------------------------------

  /** JavaScript's `%`: the remainder takes the sign of the dividend. */
  function JsRem60(a: int): (r: int)
    ensures (a - r) % 60 == 0
    ensures a >= 0 ==> 0 <= r < 60
    ensures a < 0 ==> -60 < r <= 0
  {
    if a >= 0 then a % 60 else -((-a) % 60)
  }

  /** `formatDuration`: minutes by floor division, seconds by `%`, the
      seconds left-padded with '0' to two characters. */
  function FormatDuration(seconds: int): (r: string)
    ensures seconds >= 0 ==>
      && Text.CountChar(r, ':') == 1
      && |r| >= 4 && r[|r| - 3] == ':'
      && Text.IsDigit(r[|r| - 2]) && Text.IsDigit(r[|r| - 1])
    ensures seconds < 0 ==> |r| > 0 && r[0] == '-'
  {
    var mins := seconds / 60;
    var secs := JsRem60(seconds);
    var caption := Text.IntToString(mins) + [':'] + Text.PadStart(Text.IntToString(secs), 2, '0');
    if seconds >= 0 then
      DurationShape(mins, secs);
      caption
    else caption
  }

  lemma DurationShape(mins: nat, secs: nat)
    requires secs < 60
    ensures var caption := Text.IntToString(mins) + [':'] + Text.PadStart(Text.IntToString(secs), 2, '0');
            && Text.CountChar(caption, ':') == 1
            && |caption| >= 4 && caption[|caption| - 3] == ':'
            && Text.IsDigit(caption[|caption| - 2]) && Text.IsDigit(caption[|caption| - 1])
  {
    PaddedValue(secs);
    ColonShape(Text.NatToString(mins), Text.PadStart(Text.NatToString(secs), 2, '0'));
  }

  /** Digits, a colon and two digits: one colon, three characters from the end. */
  lemma ColonShape(m: string, ss: string)
    requires |m| >= 1 && AllDigits(m) && AllDigits(ss) && |ss| == 2
    ensures var caption := m + [':'] + ss;
            && Text.CountChar(caption, ':') == 1
            && |caption| >= 4 && caption[|caption| - 3] == ':'
            && Text.IsDigit(caption[|caption| - 2]) && Text.IsDigit(caption[|caption| - 1])
  {
    SplitAtColon(m, ss);
  }

  /** Padding a number below 60 gives two digits. */
  lemma TwoDigitPad(secs: nat)
    requires secs < 60
    ensures var ss := Text.PadStart(Text.NatToString(secs), 2, '0');
            |ss| == 2 && Text.IsDigit(ss[0]) && Text.IsDigit(ss[1])
  {
    var t := Text.NatToString(secs);
    if secs >= 10 {
      assert |Text.NatToString(secs / 10)| == 1;
    }
    assert |t| <= 2;
  }

  /** The reading of an "m:ss" caption: minutes, a colon, two digits below 60. */
  function ParseDuration(caption: string): (r: Option<nat>)
    ensures r.Some? ==> Text.CountChar(caption, ':') == 1
  {
    var pieces := Text.SplitOn(caption, ':');
    if |pieces| != 2 || |pieces[1]| != 2 then None
    else
      match (DigitsValue(pieces[0]), DigitsValue(pieces[1]))
      case (Some(m), Some(ss)) => if ss < 60 then Some(m * 60 + ss) else None
      case _ => None
  }

  /** The value of a string of decimal digits, `None` for anything else. */
  function DigitsValue(s: string): (r: Option<nat>)
    ensures r.Some? <==> AllDigits(s)
  {
    if AllDigits(s) then Some(Text.ParseNat(s)) else None
  }

  predicate AllDigits(s: string) {
    forall i :: 0 <= i < |s| ==> Text.IsDigit(s[i])
  }

  /** A non-negative duration's caption reads back as the duration: m·60 + ss
      equals the seconds, with ss below 60. */
  lemma {:induction false} DurationRoundTrip(seconds: nat)
    ensures ParseDuration(FormatDuration(seconds)) == Some(seconds)
  {
    DurationParts(seconds);
    ParseParts(seconds / 60, seconds % 60);
  }

  /** Reading "m:ss" built from minutes and seconds. */
  lemma ParseParts(mins: nat, secs: nat)
    requires secs < 60
    ensures ParseDuration(Text.NatToString(mins) + [':'] + Text.PadStart(Text.NatToString(secs), 2, '0'))
            == Some(mins * 60 + secs)
  {
    var m := Text.NatToString(mins);
    var ss := Text.PadStart(Text.NatToString(secs), 2, '0');
    PaddedValue(secs);
    Text.ParseNatToString(mins);
    assert DigitsValue(m) == Some(mins);
    assert DigitsValue(ss) == Some(secs);
    SplitAtColon(m, ss);
    ReadPieces(m + [':'] + ss, m, ss, mins, secs);
  }

  lemma SplitAtColon(m: string, ss: string)
    requires AllDigits(m) && AllDigits(ss)
    ensures Text.SplitOn(m + [':'] + ss, ':') == [m, ss]
  {
    Text.SplitPlain(ss, ':');
    Text.SplitPrefix(m, ss, ':');
  }

  lemma ReadPieces(caption: string, m: string, ss: string, mins: nat, secs: nat)
    requires Text.SplitOn(caption, ':') == [m, ss]
    requires |ss| == 2 && secs < 60
    requires DigitsValue(m) == Some(mins) && DigitsValue(ss) == Some(secs)
    ensures ParseDuration(caption) == Some(mins * 60 + secs)
  {
  }

  lemma DurationParts(seconds: nat)
    ensures FormatDuration(seconds)
            == Text.NatToString(seconds / 60) + [':'] + Text.PadStart(Text.NatToString(seconds % 60), 2, '0')
  {
    assert JsRem60(seconds) == seconds % 60;
  }

  /** The padded seconds read back as the seconds. */
  lemma PaddedValue(secs: nat)
    requires secs < 60
    ensures var ss := Text.PadStart(Text.NatToString(secs), 2, '0');
            AllDigits(ss) && |ss| == 2 && Text.ParseNat(ss) == secs
  {
    var t := Text.NatToString(secs);
    Text.ParseNatToString(secs);
    TwoDigitPad(secs);
    if secs < 10 {
      var ss := Text.PadStart(t, 2, '0');
      assert ss == ['0'] + t;
      assert ss[..1] == ['0'];
      assert ss[..1][..0] == [];
    }
  }

  /** A negative duration shows JavaScript's signed remainder: -5 seconds
      is labelled "-1:-5". */
  lemma NegativeDurationLabel()
    ensures FormatDuration(-5) == "-1:-5"
  {
    assert JsRem60(-5) == -5;
    assert Text.NatToString(1) == "1";
    assert Text.NatToString(5) == "5";
  }
}

=== FILE: video_store.dfy ===
/** The video store (hooks/useVideos.ts): an in-memory feed loaded from a
    fixed demonstration list, with optimistic like and share counters that
    are never persisted. */
module VideoStore {
  import opened Wrappers
  import opened Entities
  import Seqs

  datatype VideoState = VideoState(videos: seq<Video>, currentVideo: Option<Video>, isLoading: bool,
                                   error: Option<string>)

  /** The store starts empty: the demonstration list arrives with `fetchVideos`. */
  const InitialVideos := VideoState([], None, false, None)

  function Creator(id: string, username: string, name: string, email: string, picture: string,
                   gender: Gender, verified: bool, followers: int, following: int, now: int): User {
    User(id, username, name, email, None, Some(picture), None, None, None, None, gender, verified, false,
         followers, following, None, None, None, None, None, now, now)
  }

  /** The fixed demonstration list, with creation times one to four hours
      before `now`. The list is built once, when hooks/useVideos.ts is first
      loaded, so `now` stands for that load time (the `new Date()` calls at
      useVideos.ts:31 and :45), not for the moment a fetch runs. */
  function MockVideos(now: int): (r: seq<Video>)
    ensures |r| == 4
    ensures forall v :: v in r ==> v.userId == v.user.id
  {
    [DanceVideo(now), AiVideo(now), SunsetVideo(now), PastaVideo(now)]
  }

  function DanceVideo(now: int): (r: Video)
    ensures r.userId == r.user.id
  {
    Video("1", "1",
          Creator("1", "creator1", "Amazing Creator", "creator1@example.com",
                  "https://images.unsplash.com/photo-1494790108755-2616b332c6a8?w=50&h=50&fit=crop&crop=face",
                  Female, true, 10500, 234, now),
          "Amazing Dance Performance", "Check out this incredible dance routine! 💃✨",
          "https://commondatastorage.googleapis.com/gtv-videos-bucket/sample/BigBuckBunny.mp4",
          "https://images.unsplash.com/photo-1508700115892-45ecd05ae2ad?w=400&h=300&fit=crop",
          120, 15420, 1240, 89, 156, true, ["dance", "performance", "viral"], now - 3600000, now)
  }

  function AiVideo(now: int): (r: Video)
    ensures r.userId == r.user.id
  {
    Video("2", "2",
          Creator("2", "techguru", "Tech Guru", "tech@example.com",
                  "https://images.unsplash.com/photo-1472099645785-5658abf4ff4e?w=50&h=50&fit=crop&crop=face",
                  Male, true, 45600, 567, now),
          "AI Revolution in 2024", "Exploring the latest AI trends and how they will change our world",
          "https://commondatastorage.googleapis.com/gtv-videos-bucket/sample/ElephantsDream.mp4",
          "https://images.unsplash.com/photo-1485827404703-89b55fcc595e?w=400&h=300&fit=crop",
          480, 89320, 3450, 234, 890, false, ["ai", "technology", "future"], now - 7200000, now)
  }

  function SunsetVideo(now: int): (r: Video)
    ensures r.userId == r.user.id
  {
    Video("3", "3",
          Creator("3", "travelvlogger", "Travel Vlogger", "travel@example.com",
                  "https://images.unsplash.com/photo-1507003211169-0a1dd7228f2d?w=50&h=50&fit=crop&crop=face",
                  Male, false, 12300, 456, now),
          "Beautiful Sunset in Bali", "Capturing the magical moments of sunset in paradise 🌅",
          "https://commondatastorage.googleapis.com/gtv-videos-bucket/sample/ForBiggerBlazes.mp4",
          "https://images.unsplash.com/photo-1506905925346-21bda4d32df4?w=400&h=300&fit=crop",
          180, 23400, 890, 67, 123, true, ["travel", "bali", "sunset", "paradise"], now - 10800000, now)
  }

  function PastaVideo(now: int): (r: Video)
    ensures r.userId == r.user.id
  {
    Video("4", "4",
          Creator("4", "cookingmaster", "Cooking Master", "cooking@example.com",
                  "https://images.unsplash.com/photo-1438761681033-6461ffad8d80?w=50&h=50&fit=crop&crop=face",
                  Female, true, 67800, 123, now),
          "Easy Pasta Recipe in 10 Minutes", "Learn to make delicious pasta in just 10 minutes! 🍝",
          "https://commondatastorage.googleapis.com/gtv-videos-bucket/sample/ForBiggerEscapes.mp4",
          "https://images.unsplash.com/photo-1563379926898-05f4575a45d8?w=400&h=300&fit=crop",
          600, 45600, 2100, 189, 456, false, ["cooking", "pasta", "recipe", "quick"], now - 14400000, now)
  }

  /** `fetchVideos`: replaces the list with the demonstration list and clears
      the loading flag and the error. `loadedAt` is the time the hook module
      was loaded, so every fetch yields the same list. */
  function FetchVideos(s: VideoState, loadedAt: int): (r: VideoState)
    ensures r.videos == MockVideos(loadedAt)
    ensures !r.isLoading && r.error.None?
    ensures r.currentVideo == s.currentVideo
  {
    s.(videos := MockVideos(loadedAt), isLoading := false, error := None)
  }

  /** `likeVideo`: one more like on every video with the id, nothing else
      changes. */
  function LikeVideo(s: VideoState, videoId: string): (r: VideoState)
    ensures |r.videos| == |s.videos|
    ensures forall i :: 0 <= i < |s.videos| ==>
      if s.videos[i].id == videoId
      then r.videos[i] == s.videos[i].(likes := s.videos[i].likes + 1)
      else r.videos[i] == s.videos[i]
    ensures (forall v :: v in s.videos ==> v.id != videoId) ==> r == s
    ensures r == s.(videos := r.videos)
  {
    var vs := Seqs.MapWhere(s.videos, (v: Video) => v.id == videoId, (v: Video) => v.(likes := v.likes + 1));
    if forall v :: v in s.videos ==> v.id != videoId then
      assert vs == s.videos;
      s.(videos := vs)
    else
      s.(videos := vs)
  }

  /** `shareVideo`: one more share on every video with the id, nothing else
      changes. */
  function ShareVideo(s: VideoState, videoId: string): (r: VideoState)
    ensures |r.videos| == |s.videos|
    ensures forall i :: 0 <= i < |s.videos| ==>
      if s.videos[i].id == videoId
      then r.videos[i] == s.videos[i].(shares := s.videos[i].shares + 1)
      else r.videos[i] == s.videos[i]
    ensures (forall v :: v in s.videos ==> v.id != videoId) ==> r == s
    ensures r == s.(videos := r.videos)
  {
    var vs := Seqs.MapWhere(s.videos, (v: Video) => v.id == videoId, (v: Video) => v.(shares := v.shares + 1));
    if forall v :: v in s.videos ==> v.id != videoId then
      assert vs == s.videos;
      s.(videos := vs)
    else
      s.(videos := vs)
  }

  /** `uploadVideo`: a simulated delay that creates no record; the list is
      untouched and loading ends. */
  function UploadVideo(s: VideoState): (r: VideoState)
    ensures r.videos == s.videos && !r.isLoading && r.error.None?
  {
    s.(isLoading := false, error := None)
  }

  function TotalLikes(vs: seq<Video>): int {
    if |vs| == 0 then 0 else vs[0].likes + TotalLikes(vs[1..])
  }

  function CountId(vs: seq<Video>, videoId: string): nat {
    if |vs| == 0 then 0 else (if vs[0].id == videoId then 1 else 0) + CountId(vs[1..], videoId)
  }

  /** Liking adds exactly one like per video carrying the id. */
  lemma {:induction false} LikeAddsOnePerMatch(vs: seq<Video>, videoId: string)
    ensures TotalLikes(LikeVideo(VideoState(vs, None, false, None), videoId).videos)
            == TotalLikes(vs) + CountId(vs, videoId)
  {
    var r := LikeVideo(VideoState(vs, None, false, None), videoId).videos;
    if |vs| > 0 {
      LikeAddsOnePerMatch(vs[1..], videoId);
      var tail := LikeVideo(VideoState(vs[1..], None, false, None), videoId).videos;
      assert r[1..] == tail;
    }
  }

  /** Sharing never changes likes, and liking never changes shares, so the
      two actions commute. */
  lemma LikeShareCommute(s: VideoState, a: string, b: string)
    ensures LikeVideo(ShareVideo(s, b), a) == ShareVideo(LikeVideo(s, a), b)
  {
    var x := LikeVideo(ShareVideo(s, b), a);
    var y := ShareVideo(LikeVideo(s, a), b);
    assert x.videos == y.videos;
  }
}

=== FILE: wrappers.dfy ===
/** Failure-compatible wrappers used across the model: `Option` stands for the
    source's `T | null` / optional fields, `Result` for a call that either
    returns a value or throws. */
module Wrappers {

  datatype Option<+T> = None | Some(value: T) {

    /** The value, or `default` when absent (the source's `x || default` on a
        value that is never falsy when present). */
    function GetOr(default: T): T {
      match this
      case Some(v) => v
      case None => default
    }
  }

  datatype Result<+R, +E> = Success(value: R) | Failure(error: E) {

    predicate IsFailure() {
      Failure?
    }

    function PropagateFailure<U>(): Result<U, E>
      requires Failure?
    {
      Failure(error)
    }

    function Extract(): R
      requires Success?
    {
      value
    }
  }
}
